=== FILE: README.md ===
# Asset inventory: a Dafny model of the business logic

This project models the business logic of a single-user asset-inventory web
application. An asset has an inventory code of the form
`YEAR-LOCATION-CATEGORY-SEQ`. The application keeps four collections: assets,
users, an audit log and a configuration. The model covers:

- **Code generation** (`CodeGen`). This is the preview code of the asset form.
  The next sequence number is one more than the largest sequence number
  already used under the same prefix, zero-padded to four digits.
- **Asset list** (`Listing`). Case-insensitive search over code, name and
  holder; archived assets are hidden. The list is shown in pages of 50 rows.
- **Asset form** (`AssetForm`). Field edits, required fields, and the
  critical-field rule: an edit to a critical field is held back until a
  non-blank reason is confirmed.
- **Spreadsheet import and export** (`Spreadsheet`). Column checks, row
  parsing, category-code extraction, per-row validation, and the export row.
- **The store** (`Store`). Covers:
  - the audit log;
  - login;
  - create, update (with its field-by-field diff) and archive of assets;
  - the bulk-import merge (an upsert keyed by code);
  - user management;
  - defaulting of the core-field configuration when it is loaded.
- **Administration** (`Admin`). Covers:
  - the value lists (locations, states, holder presences);
  - categories and their items;
  - list editing;
  - custom fields (add, edit, archive, delete);
  - core-field labels and visibility;
  - user creation and user edits.
- **Dashboard** (`Dashboard`). The key figures, and the four charts over the
  active assets.

`Types` holds the records and `Text` the string operations the code relies
on. These include JavaScript's `trim`, `split`, `toUpperCase`/`toLowerCase`,
`parseInt`, `padStart` and the default `sort` order.

The environment is passed in as parameters:

- the clock and the random ids (`Stamp`, `newId`, `freshIds`, `today`);
- the signed-in user (`session`);
- the rows the spreadsheet library yields (`Row`, a map from column header to
  cell text).

### Behaviour of the code worth knowing

- **Code scan.** The scan counts every code that starts with
  `YEAR-LOCATION-CATEGORY`; no separator is required after the category. So
  a code of category `AAB` is scanned for prefix `…-AA`, and its sequence
  number counts toward the next `AA` code
  (`CodeGen.ScanSeesLongerCategory`). The sequence of `AA` codes can
  therefore have gaps. While every scanned sequence number stays below
  2^53, no code is generated twice (`CodeGen.GeneratedCodeIsFresh`). Above
  that, the source's floating-point arithmetic can repeat a code (see
  "Left out").
- **Codes of another shape.** A code that does not split into four segments
  contributes 0 to the scan. Since the maximum is never below 0, such codes
  have no effect.
- **Login entry.** As written, the `LOGIN` entry of a successful login is
  lost (see Findings).
- **Export round trip.** An export carries every live custom field, with an
  empty cell where the asset has no value. A re-import therefore yields the
  live fields' ids, each mapped to the asset's value or `""`. It does not
  yield exactly the asset's non-archived keys
  (`Spreadsheet.ExportImportRoundTrip`).

## Model

| member | source | states |
|---|---|---|
| Types.FirstOr | components/AssetManager.tsx:42-43 | `list[0]`, or the fallback when the list is empty; an empty first entry is returned as it is, and each caller applies its own `\|\|` default |
| Types.FirstIndex | App.tsx:166 | `find`/`findIndex`: the first position whose element passes the test, or none exactly when no element does; `Store.FindById` and `Admin.CoreIndex` are this search by id and by key |
| Text.TrimStart | components/AssetManager.tsx:361-363 | the result is a suffix of the input; everything dropped is white space; the result does not start with white space |
| Text.TrimEnd | components/AssetManager.tsx:361-363 | the result is a prefix of the input; everything dropped is white space; the result does not end with white space |
| Text.BlankIffAllSpace | components/AdminPanel.tsx:199 | `!s.trim()` holds exactly when every character is white space |
| Text.TrimOfTrimmed | components/AssetManager.tsx:361-363 | a text that starts and ends with a non-space character is its own trim |
| Text.Split | components/AssetManager.tsx:113 | `split` yields at least one piece, and no piece holds the separator |
| Text.SplitJoin | components/AssetManager.tsx:101-103 | splitting a join of separator-free pieces gives the pieces back |
| Text.SplitAppend | components/AssetManager.tsx:113 | splitting at one separator splits both sides independently |
| Text.SplitFirstPiece | components/AssetManager.tsx:370-372 | `split(sep)[0]` of a text holding `sep` is the text before its first `sep` |
| Text.SplitOnPair | components/AdminPanel.tsx:215 | the item key `cat\|---\|item` splits back into the category and the item |
| Text.Upper | components/AdminPanel.tsx:114 | `toUpperCase` maps each character and keeps the length |
| Text.Lower | components/AssetManager.tsx:58-60 | `toLowerCase` maps each character and keeps the length |
| Text.UpperIdempotent | components/AssetManager.tsx:377 | upper-casing twice is upper-casing once |
| Text.LowerIdempotent | components/AssetManager.tsx:58-60 | lower-casing twice is lower-casing once |
| Text.UpperKeepsPlainChars | components/AssetManager.tsx:366-377 | upper-casing keeps a text empty or non-empty, and keeps a `-` in or out |
| Text.NatToString | App.tsx:234 | `String(n)` is a numeral without a leading zero |
| Text.ParseNatToString | components/AssetManager.tsx:114-118 | `parseInt(String(n))` is `n` |
| Text.NatToStringParseNat | components/AssetManager.tsx:114-118 | a numeral without a leading zero is `String` of the value `parseInt` reads from it, the other half of the round trip |
| Text.ParseNatLeadingZeros | components/AssetManager.tsx:114 | leading zeros do not change what `parseInt` reads |
| Text.NatToStringInjective | App.tsx:234 | different counts are written as different numerals |
| Text.NumeralThenNonDigit | App.tsx:234 | a numeral followed by text starting with a non-digit is read back uniquely: both parts are determined |
| Text.Pad4 | components/AssetManager.tsx:118 | `padStart(4, '0')`: the digits of `String(n)`, preceded by as many `0`s as bring the length to four, and left alone when they are four or more |
| Text.Pad4Parses | components/AssetManager.tsx:114-118 | a padded sequence number reads back as the number |
| Text.LessTotal | components/AdminPanel.tsx:171 | the default sort order compares any two different texts |
| Text.LessTransitive | components/AdminPanel.tsx:171 | the default sort order is transitive |
| Text.InsertStringSorted | components/AdminPanel.tsx:171 | inserting into a sorted list keeps it sorted |
| Text.SortStrings | components/AdminPanel.tsx:171 | `sort()` yields a sorted permutation of its input |
| Text.Without | components/AdminPanel.tsx:118-122 | `filter(v => v !== x)` removes every copy of `x` and keeps the count of every other value |
| Text.WithoutAppend | components/AdminPanel.tsx:118-122 | the filter distributes over concatenation and keeps a single entry exactly when it differs from `x`, so the remaining entries keep their order |
| Text.ReplaceAll | components/AdminPanel.tsx:198-209 | `map(v => v === from ? to : v)` replaces exactly the entries equal to `from`, in place |
| CodeGen.MaxSequence | components/AssetManager.tsx:109-117 | the maximum is at least every scanned code's contribution and is attained by one (0 when none is positive) |
| CodeGen.Contribution | components/AssetManager.tsx:112-115 | a code of other than four segments contributes 0; a four-segment code whose last segment has no leading zero contributes the number that segment writes |
| CodeGen.PreviewCode | components/AssetManager.tsx:96-125 | with an input missing, the present inputs joined by `-`; with all three, the prefix, `-`, and a numeral of at least four digits |
| CodeGen.FullPreview | components/AssetManager.tsx:106-120 | with all three inputs present, the preview is exactly the prefix, `-`, and the padded successor of the scan's maximum |
| CodeGen.PreviewCodeNext | components/AssetManager.tsx:106-121 | with year, location and category present, the code is the prefix, `-`, and a numeral of at least four digits that is one above every scanned sequence |
| CodeGen.PartialPreview | components/AssetManager.tsx:99-103 | with an input missing, the preview is the present inputs joined by `-`, with no sequence, so at most two segments |
| CodeGen.GeneratedCodeIsFresh | components/AssetManager.tsx:106-121 | when the inputs hold no `-`, no existing asset has the generated code |
| CodeGen.FourSegments | components/AssetManager.tsx:113-114 | a generated code splits into exactly its four segments |
| CodeGen.GeneratedContribution | components/AssetManager.tsx:113-114 | a generated code contributes its own sequence number to later scans |
| CodeGen.ScanSeesLongerCategory | components/AssetManager.tsx:109-110 | a code of a longer category starting with this one is counted in this category's scan |
| CodeGen.LongerCategoryScanned | components/AssetManager.tsx:109-117 | a four-segment code of a longer category starting with this one passes the prefix test and gives its sequence number as the maximum |
| CodeGen.FirstAndSecondCode | components/AssetManager.tsx:106-121 | the first code of a prefix ends in `0001`; once it exists, the next ends in `0002` |
| Listing.FilterAssets | components/AssetManager.tsx:55-63 | exactly the non-archived assets whose code, name or holder contains the term ignoring case, each kept as often as in the list |
| Listing.Shown | components/AssetManager.tsx:55-63 | only non-archived assets are shown; the empty term shows every one of them; an asset whose code starts with the term, ignoring case, is shown |
| Listing.ShownIgnoresCase | components/AssetManager.tsx:58-60 | the case in which the term is typed does not change which rows are shown |
| Listing.EmptySearchShowsActive | components/AssetManager.tsx:55-63 | the empty term shows every non-archived asset |
| Listing.TotalPages | components/AssetManager.tsx:66 | the fewest pages of 50 that hold all rows |
| Listing.Page | components/AssetManager.tsx:67-70 | page p holds rows (p-1)·50 onwards, at most 50, fewer only on the last page, none past the end |
| Listing.PrevPage | components/AssetManager.tsx:564 | `Math.max(1, p - 1)`: one page back, never below 1 |
| Listing.NextPage | components/AssetManager.tsx:571 | `Math.min(totalPages, p + 1)`: one page on while below the page count, otherwise the page count, for any current page |
| Listing.PagesUpToIsPrefix | components/AssetManager.tsx:66-70 | the first k pages laid end to end are the first k·50 rows |
| Listing.PagesCoverList | components/AssetManager.tsx:66-70 | all pages in order are exactly the filtered list: nothing lost or repeated |
| AssetForm.Set | components/AssetManager.tsx:157-165 | one form field takes the value; id, code, archive flag and attributes stay |
| AssetForm.SetFrame | components/AssetManager.tsx:157-165 | setting a field leaves every other field as it was |
| AssetForm.InitialForm | components/AssetManager.tsx:36-50 | a new form has today's date and this year; the first configured state, or `Bon état` when there is none or it is empty; the first holder presence, or `Présent` likewise; an empty photo, no attributes, and every other text field empty |
| AssetForm.InputChange | components/AssetManager.tsx:157-165 | sets one field; choosing a category also clears the name; nothing else changes |
| AssetForm.CustomAttributeChange | components/AssetManager.tsx:167-175 | sets one custom attribute and keeps every other attribute and field |
| AssetForm.AnyDiffers | components/AssetManager.tsx:206-207 | true exactly when some listed field differs between the form and the original |
| AssetForm.Submit | components/AssetManager.tsx:188-217 | rejected exactly when a required field is empty; a create commits with the preview code; an edit commits exactly when no critical field changed, otherwise it waits for a reason |
| AssetForm.ConfirmReason | components/AssetManager.tsx:852-854 | the held edit is saved with the reason exactly when the reason is not blank |
| AssetForm.NonCriticalEditCommits | components/AssetManager.tsx:206-217 | editing a non-critical field commits without a reason |
| AssetForm.CriticalEditNeedsReason | components/AssetManager.tsx:188-217 | editing a critical field other than the category (the name included) to a new value waits for a reason, and a blank reason saves nothing |
| AssetForm.CategoryEditRejected | components/AssetManager.tsx:157-193 | a category edit clears the name, so submitting it is refused for a missing required field |
| Spreadsheet.FieldLabel | components/AssetManager.tsx:78-84 | the label of the first core-field entry with the key when it is non-empty, otherwise the default |
| Spreadsheet.CodePart | components/AssetManager.tsx:366-375 | the trimmed text before the first `-` when there is one, else the trimmed text before the first space, else the whole text; it never holds `-` |
| Spreadsheet.CategoryCode | components/AssetManager.tsx:366-377 | the cell is trimmed, cut before its first `-` (else its first space), trimmed again and upper-cased; the code holds no `-` and is upper case |
| Spreadsheet.CategoryRoundTrip | components/AssetManager.tsx:366-377 | `CODE - description`, as the export writes it, and a bare `CODE` both yield `CODE` |
| Spreadsheet.CustomValues | components/AssetManager.tsx:405-411 | every custom field whose label is a column gets the cell under its id, and nothing else is set |
| Spreadsheet.ToRecord | components/AssetManager.tsx:359-411 | the record of a row, field by field: the trimmed code; the name, location and year cells or `""`; the extracted category code; the state and presence cells, or the first configured entry when empty; the date cell when not blank, else today; the cells under the configured holder, door, description and observation labels or `""`; and the custom values |
| Spreadsheet.ParseRow | components/AssetManager.tsx:359-383 | a row with a blank code yields nothing; otherwise its record, and an error naming sheet line index + 2, the code and the trimmed cell exactly when the category code is not configured |
| Spreadsheet.ParseRows | components/AssetManager.tsx:359-414 | no more records or errors than rows; every error names a line of the sheet, counting the header as line 1, and an unknown category code |
| Spreadsheet.ParseRowsAppend | components/AssetManager.tsx:359-414 | a sheet parses as its first part followed by the rest, with line numbers running on, so records and errors come in row order |
| Spreadsheet.ParseRowsOne | components/AssetManager.tsx:359-414 | a one-row sheet parses as that row |
| Spreadsheet.ParsedRecordsFromRows | components/AssetManager.tsx:359-414 | every parsed record comes from a row with a code |
| Spreadsheet.ParsedRecordsComplete | components/AssetManager.tsx:359-414 | every row with a code yields its record; rows without a code are dropped |
| Spreadsheet.ParsedErrors | components/AssetManager.tsx:380-382 | there is no error exactly when every row with a code names a configured category |
| Spreadsheet.MissingColumns | components/AssetManager.tsx:348-350 | exactly the required columns the first row lacks |
| Spreadsheet.ProcessImport | components/AssetManager.tsx:335-424 | an empty sheet, missing columns, a category error (reporting the parse errors) and a sheet without coded rows are each refused; otherwise the import gets the parsed records: one per coded row, in row order |
| Spreadsheet.WithCustomColumns | components/AssetManager.tsx:246-252 | adds one column per non-archived custom field |
| Spreadsheet.CustomColumnLookup | components/AssetManager.tsx:246-252 | a live field's column holds the asset's value or the empty text |
| Spreadsheet.ExportRow | components/AssetManager.tsx:229-255 | the columns are the twelve fixed columns plus the labels of the non-archived custom fields |
| Spreadsheet.ExportedAttributes | components/AssetManager.tsx:246-252 | the attributes an export carries: one per live field, with the asset's value or `""` |
| Spreadsheet.ExportRowCells | components/AssetManager.tsx:229-252 | each fixed column and each live field's column holds its value, and no archived field has a column |
| Spreadsheet.ExportRowFixedCells | components/AssetManager.tsx:230-243 | each fixed column holds the asset's value |
| Spreadsheet.ExportRowCustomCells | components/AssetManager.tsx:246-252 | each live custom field's column holds the asset's value or `""` |
| Spreadsheet.ExportRowNoArchived | components/AssetManager.tsx:246-252 | no archived field's label is a column |
| Spreadsheet.CustomValuesOfExport | components/AssetManager.tsx:405-411 | reading back the custom columns of an export gives the exported attributes |
| Spreadsheet.RecordOfCells | components/AssetManager.tsx:359-411 | a row carrying an asset's values parses back to that asset's fields |
| Spreadsheet.ExportImportRoundTrip | components/AssetManager.tsx:229-252 | re-importing an exported row yields the asset's code, fields and category code, with the exported attributes |
| Store.AddLog | App.tsx:131-144 | one entry is appended for the signed-in user, naming the action, description, target and changes; with no one signed in, nothing |
| Store.FindUser | App.tsx:148 | the first user whose e-mail and password both match, or none exactly when no user matches |
| Store.LoginAsWritten | App.tsx:146-156 | access is granted exactly when a user matches, and to the first match |
| Store.Login | App.tsx:146-156 | access is granted exactly when a user matches, and one `LOGIN` entry is logged for that user |
| Store.LoginEntryIsLost | App.tsx:146-156 | from the login screen, a successful login as written logs nothing, while the corrected one logs one entry |
| Store.Create | App.tsx:159-163 | the form data is appended with a fresh id, not archived, with the list's ids kept distinct; one `CREATE` entry names the code |
| Store.DiffOver | App.tsx:169-174 | one change per listed property the new record carries with a different value, and nothing else |
| Store.Diff | App.tsx:169-174 | at most one change per listed property; every property whose value changed has its change listed, and every listed change is of a changed property |
| Store.DiffEmptyIffUnchanged | App.tsx:169-174 | the diff is empty exactly when the new record equals the old one, up to a photo it does not carry |
| Store.UnchangedWhenDiffEmpty | App.tsx:169-174 | an empty diff means the record is unchanged, up to a missing photo |
| Store.DiffOfOneProperty | App.tsx:169-174 | a record that differs in one property has a diff naming only that property |
| Store.UpdateDescription | App.tsx:177 | `Modification (Motif: <reason>)` for a non-empty reason, otherwise `Modification actif` |
| Store.FindById | App.tsx:166 | the first asset with the id, or none exactly when no asset has it |
| Store.Update | App.tsx:164-178 | an unknown id changes nothing; otherwise every asset with the id is replaced in place, all others kept, and one `UPDATE` entry carries the diff from the first match |
| Store.UpdateWithOwnRecord | App.tsx:164-178 | saving an asset's own record keeps the list and logs an empty diff |
| Store.Archive | App.tsx:238-244 | an unknown id changes nothing; otherwise every asset with the id is archived and set to `Retiré` in place, and one `DELETE` entry names its code |
| Store.ArchiveIdempotent | App.tsx:238-244 | archiving twice leaves the assets as archiving once |
| Store.CreateThenArchive | App.tsx:238-244 | a created asset archived at once stays at the end of the list, archived and retired |
| Store.Merge | App.tsx:198-210 | every imported field overrides; id, archive flag and photo are kept; the attributes are the union, with imported values winning |
| Store.MergeIdempotent | App.tsx:198-210 | merging a row twice is merging it once, and a created asset is fixed by its own row |
| Store.CodeIndex | App.tsx:186 | the code map yields the last asset with the code, as a `Map` built in list order does |
| Store.FromRecord | App.tsx:212-218 | a created asset has the fresh id, is not archived, has no photo, and keeps the row's code and attributes |
| Store.Process | App.tsx:191-222 | the update count is the number of coded rows whose code is on file and the created list is one asset per other coded row, in row order (`Created`), so each coded row counts once; updates are keyed by the merged asset's id; created assets are not archived |
| Store.ProcessCreatedAppend | App.tsx:191-222 | the assets created by a batch split in two are those of the first part followed by those of the second |
| Store.ProcessOne | App.tsx:191-222 | one row creates one asset exactly when its code is set and not on file, and counts one update exactly when its code is set and on file |
| Store.ApplyUpdates | App.tsx:224-229 | each asset is replaced in place by its recorded update, or kept |
| Store.ImportedAssets | App.tsx:224-231 | the list keeps its ids in place, and the created assets follow |
| Store.BulkImport | App.tsx:182-236 | the created count is the number of coded rows whose code is not on file and the updated count the number whose code is; the list keeps its ids in place and ends with exactly the created assets, none archived; one `CONFIG` entry carries the summary of both counts |
| Store.ImportSummary | App.tsx:234 | the log line starts with `Import Excel : `, ends with ` mis à jour.`, and is as long as the fixed text and the two numerals |
| Store.ImportSummaryInjective | App.tsx:234 | different counts never give the same log line |
| Store.ProcessUpdates | App.tsx:191-222 | an asset on file is updated exactly when a row has its code, and the update is its merge with the last such row |
| Store.BulkImportInPlace | App.tsx:224-231 | every asset on file keeps its place and becomes its import |
| Store.ImportedInPlace | App.tsx:224-231 | the asset list after the pass holds each asset on file, in place, merged with its row |
| Store.ReimportKeepsArchived | App.tsx:198-210 | an archived asset whose code is imported again takes the row's values and stays archived |
| Store.ProcessCreated | App.tsx:212-220 | every created asset is what some row whose code is not on file makes with that row's fresh id (`CreatedFrom`), and every such row makes one |
| Store.CreatedAreNew | App.tsx:212-220 | every created asset comes from a row whose code is not on file |
| Store.NewAreCreated | App.tsx:212-220 | every row whose code is not on file creates an asset |
| Store.CreatedWellKeyed | App.tsx:212-220 | with distinct row codes and fresh ids, no two created assets share a code or an id |
| Store.NothingNew | App.tsx:191-220 | when every row's code is on file, nothing is created |
| Store.DuplicateNewRowsBothCreate | App.tsx:186-231 | two new rows with the same code in one batch both create an asset, because the code map is not updated during the pass |
| Store.ReimportIsIdempotent | App.tsx:182-236 | when the assets on file have distinct codes and ids, the batch has distinct codes and the fresh ids are new and distinct, importing the same batch again creates nothing and leaves the assets as they are |
| Store.FirstImportWellKeyed | App.tsx:224-231 | after an import no two assets share a code or an id |
| Store.FirstImportKnowsEveryRow | App.tsx:186-231 | after an import every row's code is on file |
| Store.SecondImportFixes | App.tsx:198-210 | each asset after an import is its own import under the same batch |
| Store.AddUser | App.tsx:487 | the user is appended after the others |
| Store.UpdateUser | App.tsx:488 | every user with the id is replaced in place, and the others are kept |
| Store.DeleteUser | App.tsx:489 | every user with the id is removed, and the others keep their multiplicity |
| Store.DeleteUserAppend | App.tsx:489 | the deletion distributes over concatenation, so the remaining users keep their order |
| Store.DeleteUserCons | App.tsx:489 | the first user stays exactly when its id differs |
| Store.DeletedUserCannotLogin | App.tsx:489 | after a delete, no login finds the deleted id |
| Store.WithCoreFields | App.tsx:66-72 | a loaded configuration without core fields gets the built-in ones; any other configuration is kept |
| Admin.WithList | components/AdminPanel.tsx:98-100 | one value list is replaced and the rest of the configuration is untouched |
| Admin.WithOwnList | components/AdminPanel.tsx:98-100 | writing back a list unchanged is no change |
| Admin.WithListTwice | components/AdminPanel.tsx:98-100 | the second write of a list wins |
| Admin.AddLocationAsWritten | components/AdminPanel.tsx:112-117 | the typed value is appended upper-cased unless the typed value, as typed, is already listed |
| Admin.AddLocationAsWrittenDuplicates | components/AdminPanel.tsx:112-117 | typing `edc` when `EDC` is listed stores `EDC` a second time |
| Admin.AddToList | components/AdminPanel.tsx:112-141 | an empty or already listed value (locations upper-cased) changes nothing; a new one is appended at the end; distinct lists stay distinct |
| Admin.AddLocationAgreesOnUpperInput | components/AdminPanel.tsx:112-117 | for upper-case input, the location add as written and the corrected one agree |
| Admin.AddToListIdempotent | components/AdminPanel.tsx:124-141 | adding the same value twice is adding it once |
| Admin.RemoveFromList | components/AdminPanel.tsx:118-146 | the list becomes the order-keeping filter of the old one: every copy of the value leaves, and every other value keeps its count |
| Admin.RemoveUndoesAdd | components/AdminPanel.tsx:112-146 | removing a value just added restores the configuration |
| Admin.AddCategory | components/AdminPanel.tsx:148-161 | ignored without both inputs; refused when the upper-cased code exists; otherwise the code is added with no items and the description, and nothing else changes |
| Admin.AddCategoryOnce | components/AdminPanel.tsx:148-161 | once added, any spelling of a code with the same upper case is refused |
| Admin.AddItemToCategory | components/AdminPanel.tsx:163-177 | a new item joins the selected category, which is sorted and otherwise unchanged; an existing or empty item changes nothing |
| Admin.RemoveCategoryItem | components/AdminPanel.tsx:179-189 | the category's items are filtered in order: every copy of the item leaves, every other item keeps its count, and other categories are untouched |
| Admin.WithoutSorted | components/AdminPanel.tsx:179-189 | removing an item keeps a sorted category sorted |
| Admin.SortedUnique | components/AdminPanel.tsx:171 | two sorted lists with the same elements are the same list |
| Admin.WithoutUndoesSortedInsert | components/AdminPanel.tsx:163-189 | sorting an item in and filtering it out gives back the sorted list |
| Admin.RemoveUndoesAddItem | components/AdminPanel.tsx:163-189 | removing an item just added to a sorted category restores the configuration |
| Admin.SaveListEdit | components/AdminPanel.tsx:198-231 | a blank value changes nothing; a list edit replaces the entries equal to the key in place (locations upper-cased); a description edit sets that one description; an item edit touches only the categories |
| Admin.ItemEditRenames | components/AdminPanel.tsx:213-225 | the item editor renames exactly the pressed item within its category |
| Admin.RenameBack | components/AdminPanel.tsx:198-209 | renaming an entry to a new value and back restores the configuration |
| Admin.TrimAll | components/AdminPanel.tsx:246 | each piece is trimmed, in place |
| Admin.NonEmpty | components/AdminPanel.tsx:285 | exactly the non-empty pieces, each as often as in the input |
| Admin.NonEmptyAppend | components/AdminPanel.tsx:285 | the filter distributes over concatenation, so the kept pieces keep their order |
| Admin.NonEmptyCons | components/AdminPanel.tsx:285 | the first piece stays exactly when it is not empty |
| Admin.NewOptions | components/AdminPanel.tsx:246 | one option per comma-separated piece, each the trimmed piece, none holding a comma |
| Admin.EditedOptions | components/AdminPanel.tsx:284-285 | the add form's options without the empty ones, each as often: non-empty and comma-free |
| Admin.EditedOptionsAppend | components/AdminPanel.tsx:284-285 | the options of `a,b` are those of `a` followed by those of `b` |
| Admin.AddCustomField | components/AdminPanel.tsx:240-256 | without a caption nothing changes; otherwise a live field with the id, caption and type is appended, with options exactly for a select field |
| Admin.FindField | components/AdminPanel.tsx:277 | the first field with the id, or none exactly when no field has it |
| Admin.EditFields | components/AdminPanel.tsx:291-302 | every field with the id takes the new caption, type and options in place; the others are kept |
| Admin.EditedFieldsKeepShape | components/AdminPanel.tsx:291-302 | edited fields keep their ids and archive flags, and only fields with the id change |
| Admin.SaveFieldChanges | components/AdminPanel.tsx:273-307 | no id or an unknown id changes nothing; otherwise every field with the id takes the typed caption (the first such field's caption when empty), the chosen type (else the first such field's type), and the edited options exactly when it is a select field; ids, archive flags and all other fields stay |
| Admin.OptionsRoundTrip | components/AdminPanel.tsx:258-285 | options joined for the editor and read back are the same options |
| Admin.SaveUneditedField | components/AdminPanel.tsx:258-307 | opening a field's editor and saving without a change leaves the configuration as it was |
| Admin.ToggleFieldArchive | components/AdminPanel.tsx:309-314 | every field with the id flips its archive flag, and nothing else changes |
| Admin.ToggleFieldArchiveTwice | components/AdminPanel.tsx:309-314 | archiving and restoring is no change |
| Admin.DeleteField | components/AdminPanel.tsx:316-320 | exactly the fields with another id remain |
| Admin.FieldsWithoutAppend | components/AdminPanel.tsx:316-320 | the field filter distributes over concatenation and keeps one field exactly when its id differs, so the remaining fields keep their order |
| Admin.DeleteUndoesAddField | components/AdminPanel.tsx:316-320 | deleting a field just added under a new id restores the configuration |
| Admin.CoreIndex | components/AdminPanel.tsx:330 | `findIndex`: the first entry with the key, or none exactly when there is none |
| Admin.SaveCoreField | components/AdminPanel.tsx:328-341 | the first entry with the key takes the caption; with no entry, a visible text entry is appended |
| Admin.SavedCaptionIsLabel | components/AdminPanel.tsx:328-341 | a saved non-empty caption becomes the field's label |
| Admin.ToggleCoreFieldVisibility | components/AdminPanel.tsx:343-351 | every entry with the key flips its visibility, and nothing else changes |
| Admin.ToggleCoreFieldTwice | components/AdminPanel.tsx:343-351 | toggling twice is no change, and visibility never changes a label |
| Admin.CreateUser | components/AdminPanel.tsx:65-77 | refused exactly when first name, e-mail or password is empty; otherwise the user carries the draft's values and the given id |
| Admin.CreatedUserCanLogin | components/AdminPanel.tsx:65-77 | a created account signs in with its e-mail and password |
| Admin.StoredPassword | components/AdminPanel.tsx:84-96 | the password of the first user with the id when it is not empty; none when no user has the id or that password is empty |
| Admin.SaveUserEdit | components/AdminPanel.tsx:84-96 | the edited user with the typed password, or, when that is blank, the stored password of the first user with the id, else the edited copy's own; nothing else changes |
| Admin.EditedUserLogsIn | components/AdminPanel.tsx:84-96 | after an edit with a new password, the account signs in with it |
| Dashboard.ActiveAssets | components/Dashboard.tsx:45 | exactly the non-archived assets, each as often as in the list |
| Dashboard.ComputeKpis | components/Dashboard.tsx:48-54 | the total is the number of active assets; the good figure is their number in `Bon état`; the bad figure is the sum of their numbers in `Défectueux`, `Déprécié` and `Retiré`; good plus bad is at most the total; the location figure is the number of distinct locations |
| Dashboard.CountInBadStates | components/Dashboard.tsx:51 | counting against the three bad states is the sum of counting each one |
| Dashboard.GoodIsNotBad | components/Dashboard.tsx:50-51 | `Bon état` is not one of the bad states |
| Dashboard.CountInStatesSplit | components/Dashboard.tsx:50-51 | counting against two disjoint state lists adds up |
| Dashboard.GoodAndBadWithinTotal | components/Dashboard.tsx:49-51 | the good and bad figures never add up to more than the total |
| Dashboard.Tally | components/Dashboard.tsx:59-63 | one bucket per distinct value, holding its number of occurrences; the counts add up to the number of values |
| Dashboard.BumpCounts | components/Dashboard.tsx:77-80 | one `reduce` step keeps a tally: the buckets name exactly the values seen, each with its positive number of occurrences |
| Dashboard.Positive | components/Dashboard.tsx:67-69 | keeps exactly the buckets with a positive count |
| Dashboard.PositiveAppend | components/Dashboard.tsx:67-69 | the filter distributes over concatenation, so the kept buckets keep their order |
| Dashboard.PositiveCons | components/Dashboard.tsx:67-69 | the first bucket stays exactly when its count is positive |
| Dashboard.PositiveKeepsTally | components/Dashboard.tsx:67-69 | a tally has no empty bucket, so the filter keeps it whole |
| Dashboard.SortByCount | components/Dashboard.tsx:72 | a permutation of the buckets in decreasing count |
| Dashboard.SortByName | components/Dashboard.tsx:97 | a permutation of the buckets in ascending name |
| Dashboard.DataByState | components/Dashboard.tsx:59-74 | the state tally, largest first, adding up to the active assets |
| Dashboard.DataByLocation | components/Dashboard.tsx:76-82 | one bucket per distinct location of an active asset, and no other, with its count, adding up to the active assets |
| Dashboard.DataByCategory | components/Dashboard.tsx:84-90 | one bucket per distinct category of an active asset, and no other, with its count, adding up to the active assets |
| Dashboard.DataByYear | components/Dashboard.tsx:92-98 | the year tally in ascending year text, adding up to the active assets |
| Dashboard.KpisMatchCharts | components/Dashboard.tsx:45-98 | the total equals the sum of every chart, and the location count equals the number of location bars |
| Dashboard.DistinctLocations | components/Dashboard.tsx:52 | a tally has as many buckets as distinct values |
| Dashboard.CountInOneState | components/Dashboard.tsx:50 | counting one state is counting its occurrences |
| Dashboard.TallyBucketOf | components/Dashboard.tsx:59-63 | a value that occurs has a bucket with its count |
| Dashboard.TallyNoBucket | components/Dashboard.tsx:59-63 | a value that does not occur has no bucket |
| Dashboard.GoodConditionIsPieSlice | components/Dashboard.tsx:48-74 | the good-condition figure is the good-condition slice of the state pie, which is absent exactly when the figure is 0 |

## Left out

- Persistence (`localStorage`), the XLSX library, file reading, photo and logo upload, and the import template (`downloadImportTemplate`). These are I/O. Spreadsheet rows enter the model as maps from header to cell text.
- `Date.now()`, `Math.random()` and `new Date()`. The caller supplies them as `Stamp`, `newId`, `freshIds`, `today` and `thisYear`.
- `alert` and `confirm`. An `alert` followed by `return` is modelled as the refusal it causes. `confirm` in `removeCategoryItem` is taken as accepted.
- Themes (`handleThemeChange`, App.tsx:110-127), navigation, modal state and rendering. These are presentation.
- Cells that hold `Date` objects (`formatDate`'s first branch) and numbers. Cells are text in the model.
- Store.DiffOver, Store.Diff, Store.Update: compare values structurally. The source compares `customAttributes` by reference, so an unchanged attribute map that is a different object appears in its diff.
- Store.DiffOver, Store.Diff, Store.Update: list changes in the order of the record's fields. The source lists them in the key order of the saved object.
- Dashboard.Tally: the bucket order of a JavaScript object is its insertion order. Integer-like keys (a year such as `2024`) come first in the source; the model does not order them first. This affects only the order of the location and category bars, and of equal-sized slices of the state pie.
- Dashboard.Tally, Dashboard.KpisMatchCharts, Dashboard.DataByState, Dashboard.DataByLocation, Dashboard.DataByCategory, Dashboard.DataByYear: the tally is a clean map. The source counts into a plain `{}`, so a value that names an `Object.prototype` member behaves differently there. A location `__proto__` goes through the prototype setter and gets no bucket, although `uniqueLocations` counts it. A location `constructor` or `toString` starts from the inherited function, so its count becomes a string. For such values the bars no longer match the key figures. The model's results hold for values that name no `Object.prototype` member.
- Dashboard.SortByCount: the model inserts each bucket after those with an equal count. It does not prove that the source's sort is stable for ties.
- Text.SortStrings, Text.LessTotal, Text.LessTransitive, Text.InsertStringSorted, Dashboard.SortByName: the order they use (`Less`) compares code points. The source compares UTF-16 code units, which differ only above U+FFFF.
- Text.Upper and Text.Lower: cover ASCII and Latin-1, plus `ÿ`/`Ÿ`. `µ` (U+00B5, upper-cased by JavaScript to U+039C), other scripts and one-to-many mappings such as `ß` are not modelled.
- CodeGen.MaxSequence, CodeGen.PreviewCode, CodeGen.PreviewCodeNext, CodeGen.GeneratedCodeIsFresh, CodeGen.Contribution: through `SequenceReadable`, they assume a digits-only fourth segment. `parseInt` reads the leading digits of a fourth segment (`12ab` counts as 12) and yields `NaN` only when the segment does not start with a digit, which then poisons `Math.max`. The model covers neither case: it asks every scanned four-segment code to have a segment made of digits only.
- CodeGen.GeneratedCodeIsFresh, CodeGen.PreviewCodeNext, CodeGen.PreviewCode, CodeGen.MaxSequence, CodeGen.Contribution: sequence numbers are unbounded naturals. The source reads and adds them as 64-bit floating-point numbers. `parseInt` rounds a segment above 2^53 to a nearby double, and `maxSeq + 1` then rounds back to `maxSeq`. For example, an imported code `2024-EDC-AA-9007199254740992` makes the preview that same code. From 10^21 on, `String` also writes an exponent (`1e+21`). The model's next number, and the freshness of the generated code, hold in the source only while every scanned sequence number is below 2^53 - 1.
- Spreadsheet.ToRecord: with no configured state, or no configured holder presence, the source stores `undefined` in that field. The model stores `""`.
- Admin.RemoveCategoryItem: removing from an unknown category throws in the source. The model leaves the configuration unchanged.
- Admin.AddCustomField: the model takes the options as the text typed in the form. With no text typed, the source calls `split` on an empty array and throws.
- Admin.SaveCoreField: the source mutates the stored core-field array in place before saving it. The model builds a new list with the same contents.
- Admin.SaveListEdit: an item edit on an unknown category, or on a key without two halves, changes nothing. For `Admin.ItemEditRenames`, the model asks that neither the category nor the item holds `|`, so the key splits unambiguously.
- Admin.SaveFieldChanges: an empty editing id is treated as no edit in progress, as JavaScript's falsy `''` is.

## Findings

| source | as written | input that shows it | evidently intended | confidence | as-written member | corrected member |
|---|---|---|---|---|---|---|
| App.tsx:146-156 | `handleLogin` sets the user, then calls `addLog`. `addLog` reads the signed-in user from the render in which the login happened, where there is none, so it returns without writing | any successful login from the login screen | one `LOGIN` entry for the user who signed in | not executed | Store.LoginEntryIsLost | Store.Login |
| components/AdminPanel.tsx:112-117 | `addLocation` checks the value as typed against the list but appends it upper-cased | locations `["EDC"]`, typed `edc`: the list becomes `["EDC", "EDC"]` | the upper-cased value is checked, so a listed location is never added twice | not executed | Admin.AddLocationAsWrittenDuplicates | Admin.AddToList |

=== FILE: admin.dfy ===
/** The settings panel (components/AdminPanel.tsx): the value lists
    (locations, asset states, holder presences), the categories and their
    items, the custom fields, the captions and visibility of the built-in
    fields, and user accounts. Every handler builds a new configuration
    from the old one; confirmation dialogs are taken as accepted. */
module Admin {
  import opened Text
  import opened Types
  import opened Spreadsheet
  import opened Store

  // ---------------------------------------------------------------------
  // Flat value lists

  /** The three flat lists of the configuration. */
  datatype ValueList = Locations | States | Presences

  function ListOf(config: AppConfig, k: ValueList): seq<string> {
    match k
    case Locations => config.locations
    case States => config.states
    case Presences => config.holderPresences
  }

  /** `handleConfigChange(list, l)`: one list replaced, nothing else touched. */
  function WithList(config: AppConfig, k: ValueList, l: seq<string>): (r: AppConfig)
    ensures ListOf(r, k) == l
    ensures forall k2 :: k2 != k ==> ListOf(r, k2) == ListOf(config, k2)
    ensures r.categories == config.categories && r.categoriesDescriptions == config.categoriesDescriptions
    ensures r.customFields == config.customFields && r.coreFields == config.coreFields
    ensures r.companyName == config.companyName && r.companyLogo == config.companyLogo
  {
    match k
    case Locations => config.(locations := l)
    case States => config.(states := l)
    case Presences => config.(holderPresences := l)
  }

  lemma WithOwnList(config: AppConfig, k: ValueList)
    ensures WithList(config, k, ListOf(config, k)) == config
  {
  }

  lemma WithListTwice(config: AppConfig, k: ValueList, l1: seq<string>, l2: seq<string>)
    ensures WithList(WithList(config, k, l1), k, l2) == WithList(config, k, l2)
  {
  }

  /** The entry a typed value becomes: locations are stored upper-cased. */
  function Stored(k: ValueList, v: string): string {
    if k == Locations then Upper(v) else v
  }

  /** `addLocation` as written: the membership test looks at the value as
      typed, but the upper-cased value is what gets appended. */
  function AddLocationAsWritten(config: AppConfig, v: string): (r: AppConfig)
    ensures v == "" || v in config.locations ==> r == config
    ensures v != "" && v !in config.locations ==> r == WithList(config, Locations, config.locations + [Upper(v)])
  {
    if v != "" && v !in config.locations then WithList(config, Locations, config.locations + [Upper(v)]) else config
  }

  /** A configuration holding one location and nothing else. */
  function OneLocation(loc: string): AppConfig {
    AppConfig("", "", [loc], [], [], map[], map[], [], [])
  }

  /** Typing an existing location in lower case stores it a second time. */
  lemma AddLocationAsWrittenDuplicates()
    ensures AddLocationAsWritten(OneLocation("EDC"), "edc").locations == ["EDC", "EDC"]
    ensures !Distinct(AddLocationAsWritten(OneLocation("EDC"), "edc").locations)
  {
    var up := Upper("edc");
    assert up[0] == 'E' && up[1] == 'D' && up[2] == 'C';
    assert up == "EDC";
    assert "edc" !in ["EDC"];
    var l := AddLocationAsWritten(OneLocation("EDC"), "edc").locations;
    assert l[0] == l[1];
  }

  /** `addLocation`, `addState`, `addHolderPresence`, with the membership
      test made on the value that is stored. For states and holder
      presences this is the source's behaviour; for locations it is the
      corrected one. */
  function AddToList(config: AppConfig, k: ValueList, v: string): (r: AppConfig)
    ensures r == WithList(config, k, ListOf(r, k))
    ensures ListOf(config, k) <= ListOf(r, k) && |ListOf(r, k)| <= |ListOf(config, k)| + 1
    ensures forall x :: x in ListOf(r, k) <==> x in ListOf(config, k) || (v != "" && x == Stored(k, v))
    ensures Distinct(ListOf(config, k)) ==> Distinct(ListOf(r, k))
    ensures v == "" || Stored(k, v) in ListOf(config, k) ==> r == config
    ensures v != "" && Stored(k, v) !in ListOf(config, k) ==> ListOf(r, k) == ListOf(config, k) + [Stored(k, v)]
  {
    var e := Stored(k, v);
    if v != "" && e !in ListOf(config, k) then WithList(config, k, ListOf(config, k) + [e])
    else
      WithOwnList(config, k);
      config
  }

  /** The corrected location add agrees with the source whenever the typed
      value is already in upper case. */
  lemma AddLocationAgreesOnUpperInput(config: AppConfig, v: string)
    requires Upper(v) == v
    ensures AddLocationAsWritten(config, v) == AddToList(config, Locations, v)
  {
  }

  /** Adding the same value twice is adding it once. */
  lemma AddToListIdempotent(config: AppConfig, k: ValueList, v: string)
    ensures AddToList(AddToList(config, k, v), k, v) == AddToList(config, k, v)
  {
    var once := AddToList(config, k, v);
    if v != "" {
      assert Stored(k, v) in ListOf(once, k);
    }
  }

  /** `removeLocation`, `removeState`, `removeHolderPresence`: every copy of
      the value leaves the list, the other entries keep their number and
      their order (`Without` is the order-keeping filter, see
      `WithoutAppend`). */
  function RemoveFromList(config: AppConfig, k: ValueList, v: string): (r: AppConfig)
    ensures r == WithList(config, k, ListOf(r, k))
    ensures ListOf(r, k) == Without(ListOf(config, k), v)
    ensures v !in ListOf(r, k)
    ensures forall y :: y != v ==> Count(ListOf(r, k), y) == Count(ListOf(config, k), y)
  {
    WithList(config, k, Without(ListOf(config, k), v))
  }

  lemma {:induction false} WithoutAbsent(s: seq<string>, x: string)
    requires x !in s
    ensures Without(s, x) == s
  {
    if |s| > 0 {
      WithoutAbsent(s[1..], x);
      assert [s[0]] + s[1..] == s;
    }
  }

  lemma {:induction false} WithoutAppendedLast(s: seq<string>, x: string)
    requires x !in s
    ensures Without(s + [x], x) == s
  {
    if |s| == 0 {
      assert Without([x][1..], x) == [];
    } else {
      assert (s + [x])[1..] == s[1..] + [x];
      WithoutAppendedLast(s[1..], x);
      assert [s[0]] + s[1..] == s;
    }
  }

  /** Removing a value that was just added restores the configuration. */
  lemma RemoveUndoesAdd(config: AppConfig, k: ValueList, v: string)
    requires v != "" && Stored(k, v) !in ListOf(config, k)
    ensures RemoveFromList(AddToList(config, k, v), k, Stored(k, v)) == config
  {
    var e := Stored(k, v);
    WithoutAppendedLast(ListOf(config, k), e);
    WithListTwice(config, k, ListOf(config, k) + [e], ListOf(config, k));
    WithOwnList(config, k);
  }

  // ---------------------------------------------------------------------
  // Categories

  /** `config.categories[cat] || []`. */
  function Items(config: AppConfig, cat: string): seq<string> {
    if cat in config.categories then config.categories[cat] else []
  }

  datatype CategoryOutcome = Ignored | CodeTaken | Added(config: AppConfig)

  /** `addCategory`: both inputs are needed; the code is upper-cased, must
      be new, and starts with no items and the given description. */
  function AddCategory(config: AppConfig, codeInput: string, description: string): (r: CategoryOutcome)
    ensures r.Ignored? <==> codeInput == "" || description == ""
    ensures r.CodeTaken? <==> codeInput != "" && description != "" && Upper(codeInput) in config.categories
    ensures r.Added? ==>
      var code := Upper(codeInput);
      && r.config == config.(categories := r.config.categories, categoriesDescriptions := r.config.categoriesDescriptions)
      && r.config.categories.Keys == config.categories.Keys + {code}
      && code in r.config.categoriesDescriptions
      && r.config.categories[code] == [] && r.config.categoriesDescriptions[code] == description
      && (forall c :: c in config.categories ==> r.config.categories[c] == config.categories[c])
      && (forall c :: c in config.categoriesDescriptions && c != code ==>
            c in r.config.categoriesDescriptions && r.config.categoriesDescriptions[c] == config.categoriesDescriptions[c])
  {
    if codeInput == "" || description == "" then Ignored
    else
      var code := Upper(codeInput);
      if code in config.categories then CodeTaken
      else Added(config.(categories := config.categories[code := []],
                         categoriesDescriptions := config.categoriesDescriptions[code := description]))
  }

  /** Once a code is added, any spelling of it with the same upper-case
      form is refused. */
  lemma AddCategoryOnce(config: AppConfig, code1: string, desc1: string, code2: string, desc2: string)
    requires AddCategory(config, code1, desc1).Added?
    requires Upper(code2) == Upper(code1) && code2 != "" && desc2 != ""
    ensures AddCategory(AddCategory(config, code1, desc1).config, code2, desc2) == CodeTaken
  {
  }

  /** `addItemToCategory`: a new item is added to the selected category and
      the list sorted in the default string order; an item already there,
      or an empty input, changes nothing. */
  function AddItemToCategory(config: AppConfig, selected: string, item: string): (r: AppConfig)
    ensures selected == "" || item == "" || item in Items(config, selected) ==> r == config
    ensures selected != "" && item != "" && item !in Items(config, selected) ==>
      && r == config.(categories := r.categories)
      && r.categories.Keys == config.categories.Keys + {selected}
      && SortedStrings(r.categories[selected])
      && multiset(r.categories[selected]) == multiset(Items(config, selected)) + multiset{item}
      && forall c :: c in config.categories && c != selected ==> r.categories[c] == config.categories[c]
  {
    if selected != "" && item != "" && item !in Items(config, selected) then
      config.(categories := config.categories[selected := SortStrings(Items(config, selected) + [item])])
    else config
  }

  /** `removeCategoryItem`. The source reads the category's list without a
      fallback and fails on an unknown category before changing anything. */
  function RemoveCategoryItem(config: AppConfig, cat: string, item: string): (r: AppConfig)
    ensures cat !in config.categories ==> r == config
    ensures cat in config.categories ==>
      && r == config.(categories := r.categories)
      && r.categories.Keys == config.categories.Keys
      && r.categories[cat] == Without(config.categories[cat], item)
      && item !in r.categories[cat]
      && (forall y :: y != item ==> Count(r.categories[cat], y) == Count(config.categories[cat], y))
      && forall c :: c in config.categories && c != cat ==> r.categories[c] == config.categories[c]
  {
    if cat in config.categories then
      config.(categories := config.categories[cat := Without(config.categories[cat], item)])
    else config
  }

  /** Dropping every copy of one value keeps a sorted list sorted. */
  lemma {:induction false} WithoutSorted(s: seq<string>, x: string)
    requires SortedStrings(s)
    ensures SortedStrings(Without(s, x))
  {
    if |s| > 0 {
      WithoutSorted(s[1..], x);
      var w := Without(s[1..], x);
      if s[0] != x {
        forall y | y in w ensures LessEq(s[0], y) {
          assert Count(s[1..], y) == Count(w, y) > 0;
          var j :| 0 <= j < |s[1..]| && s[1..][j] == y;
          assert s[j + 1] == y;
        }
        ConsSorted(s[0], w);
      }
    }
  }

  /** The head of a sorted list is at or below each of its elements. */
  lemma SortedHeadLeast(s: seq<string>, x: string)
    requires SortedStrings(s) && x in s
    ensures LessEq(s[0], x)
  {
    var j :| 0 <= j < |s| && s[j] == x;
    if j > 0 {
      assert LessEq(s[0], s[j]);
    }
  }

  lemma LessEqAntisymmetric(x: string, y: string)
    requires LessEq(x, y) && LessEq(y, x)
    ensures x == y
  {
    LessAsymmetric(x, y);
  }

  lemma SameHeadSameTail(a: seq<string>, b: seq<string>)
    requires |a| > 0 && |b| > 0 && a[0] == b[0] && multiset(a) == multiset(b)
    ensures multiset(a[1..]) == multiset(b[1..])
  {
    assert a == [a[0]] + a[1..] && b == [b[0]] + b[1..];
    assert multiset(a) == multiset{a[0]} + multiset(a[1..]);
    assert multiset(b) == multiset{b[0]} + multiset(b[1..]);
    forall y ensures multiset(a[1..])[y] == multiset(b[1..])[y] {
      assert multiset(a)[y] == multiset(b)[y];
    }
  }

  /** Two sorted lists with the same elements are the same list. */
  lemma {:induction false} SortedUnique(a: seq<string>, b: seq<string>)
    requires SortedStrings(a) && SortedStrings(b) && multiset(a) == multiset(b)
    ensures a == b
    decreases |a|
  {
    assert |a| == |multiset(a)| == |multiset(b)| == |b|;
    if |a| > 0 {
      assert a[0] in multiset(b) && b[0] in multiset(a);
      SortedHeadLeast(b, a[0]);
      SortedHeadLeast(a, b[0]);
      LessEqAntisymmetric(a[0], b[0]);
      SameHeadSameTail(a, b);
      SortedUnique(a[1..], b[1..]);
      assert a == [a[0]] + a[1..] && b == [b[0]] + b[1..];
    }
  }

  /** Sorting in a new item and filtering it out again gives back a
      sorted list. */
  lemma WithoutUndoesSortedInsert(cur: seq<string>, item: string)
    requires SortedStrings(cur) && item !in cur
    ensures Without(SortStrings(cur + [item]), item) == cur
  {
    var l := SortStrings(cur + [item]);
    var w := Without(l, item);
    WithoutSorted(l, item);
    forall y ensures multiset(w)[y] == multiset(cur)[y] {
      if y != item {
        assert Count(w, y) == Count(l, y);
      }
    }
    assert multiset(w) == multiset(cur);
    SortedUnique(w, cur);
  }

  /** Removing an item that was just added to a sorted category restores
      the configuration. */
  lemma RestoreCategory(config: AppConfig, cat: string, item: string, l: seq<string>)
    requires cat in config.categories && Without(l, item) == config.categories[cat]
    ensures RemoveCategoryItem(config.(categories := config.categories[cat := l]), cat, item) == config
  {
    var c2 := config.(categories := config.categories[cat := l]);
    assert c2.categories[cat := Without(l, item)] == config.categories;
  }

  lemma RemoveUndoesAddItem(config: AppConfig, cat: string, item: string)
    requires cat in config.categories && cat != "" && item != ""
    requires item !in config.categories[cat] && SortedStrings(config.categories[cat])
    ensures RemoveCategoryItem(AddItemToCategory(config, cat, item), cat, item) == config
  {
    var cur := config.categories[cat];
    WithoutUndoesSortedInsert(cur, item);
    RestoreCategory(config, cat, item, SortStrings(cur + [item]));
  }

  // ---------------------------------------------------------------------
  // Inline edits of list entries

  /** What the inline editor is editing. The item editor's key is the
      category code and the old item joined by `|---|`. */
  datatype EditTarget = ListEntry(list: ValueList, key: string) | CategoryDescription(code: string) | CategoryItem(key: string)

  const ItemKeySeparator: string := "|---|"

  /** The key the edit button of an item builds. */
  function ItemKey(cat: string, item: string): string {
    cat + ItemKeySeparator + item
  }

  /** `saveListEdit`. A blank new value is refused; a list edit replaces
      every entry equal to the key (locations upper-cased); an item edit
      splits its key and needs both halves and a known category. */
  function SaveListEdit(config: AppConfig, target: EditTarget, value: string): (r: AppConfig)
    ensures IsBlank(value) ==> r == config
    ensures !IsBlank(value) && target.ListEntry? ==>
      var k := target.list;
      && r == WithList(config, k, ListOf(r, k))
      && |ListOf(r, k)| == |ListOf(config, k)|
      && forall i :: 0 <= i < |ListOf(config, k)| ==>
           ListOf(r, k)[i] == if ListOf(config, k)[i] == target.key then Stored(k, value) else ListOf(config, k)[i]
    ensures !IsBlank(value) && target.CategoryDescription? ==>
      && r == config.(categoriesDescriptions := r.categoriesDescriptions)
      && r.categoriesDescriptions.Keys == config.categoriesDescriptions.Keys + {target.code}
      && r.categoriesDescriptions[target.code] == value
    ensures target.CategoryItem? ==> r == config.(categories := r.categories) && r.categories.Keys == config.categories.Keys
  {
    if IsBlank(value) then config
    else match target
      case ListEntry(k, key) => WithList(config, k, ReplaceAll(ListOf(config, k), key, Stored(k, value)))
      case CategoryDescription(code) => config.(categoriesDescriptions := config.categoriesDescriptions[code := value])
      case CategoryItem(key) =>
        var parts := SplitOn(key, ItemKeySeparator);
        var cat := parts[0];
        var oldItem := if |parts| > 1 then parts[1] else "";
        if cat != "" && oldItem != "" && cat in config.categories then
          config.(categories := config.categories[cat := ReplaceAll(config.categories[cat], oldItem, value)])
        else config
  }

  /** The item editor renames exactly the item whose button was pressed,
      as long as neither the code nor the item holds a `|`. */
  lemma ItemEditRenames(config: AppConfig, cat: string, item: string, value: string)
    requires cat in config.categories && cat != "" && item != "" && !IsBlank(value)
    requires '|' !in cat && '|' !in item
    ensures SaveListEdit(config, CategoryItem(ItemKey(cat, item)), value)
      == config.(categories := config.categories[cat := ReplaceAll(config.categories[cat], item, value)])
  {
    SplitOnPair(cat, item, ItemKeySeparator);
  }

  lemma ReplaceBack<T>(s: seq<T>, a: T, b: T)
    requires b !in s
    ensures ReplaceAll(ReplaceAll(s, a, b), b, a) == s
  {
    var once := ReplaceAll(s, a, b);
    var twice := ReplaceAll(once, b, a);
    forall i | 0 <= i < |s| ensures twice[i] == s[i] {
      assert s[i] != b;
    }
  }

  /** Renaming an entry to a new value and then back restores the list. */
  lemma RenameBack(config: AppConfig, k: ValueList, key: string, value: string)
    requires !IsBlank(value) && !IsBlank(key)
    requires Stored(k, key) == key && Stored(k, value) !in ListOf(config, k)
    ensures SaveListEdit(SaveListEdit(config, ListEntry(k, key), value), ListEntry(k, Stored(k, value)), key) == config
  {
    var l := ListOf(config, k);
    var e := Stored(k, value);
    ReplaceBack(l, key, e);
    WithListTwice(config, k, ReplaceAll(l, key, e), ReplaceAll(ReplaceAll(l, key, e), e, key));
    WithOwnList(config, k);
  }

  // ---------------------------------------------------------------------
  // Custom fields

  /** Every piece trimmed (`.map(s => s.trim())`). */
  function TrimAll(parts: seq<string>): (r: seq<string>)
    ensures |r| == |parts|
    ensures forall i :: 0 <= i < |r| ==> r[i] == Trim(parts[i])
  {
    if |parts| == 0 then [] else [Trim(parts[0])] + TrimAll(parts[1..])
  }

  /** `.filter(s => s !== '')`. */
  function NonEmpty(parts: seq<string>): (r: seq<string>)
    ensures forall x {:trigger x in r} :: x in r <==> x in parts && x != ""
    ensures multiset(r) == multiset(parts)["" := 0]
  {
    if |parts| == 0 then []
    else
      assert parts == [parts[0]] + parts[1..];
      var head := if parts[0] != "" then [parts[0]] else [];
      assert multiset(head + NonEmpty(parts[1..])) == multiset(head) + multiset(NonEmpty(parts[1..]));
      assert multiset(parts) == multiset([parts[0]]) + multiset(parts[1..]);
      head + NonEmpty(parts[1..])
  }

  /** The filter keeps the order of the pieces: it distributes over
      concatenation, and `NonEmptyCons` says what happens to the first one. */
  lemma {:induction false} NonEmptyAppend(a: seq<string>, b: seq<string>)
    ensures NonEmpty(a + b) == NonEmpty(a) + NonEmpty(b)
  {
    if |a| == 0 {
      assert a + b == b;
    } else {
      assert (a + b)[0] == a[0];
      assert (a + b)[1..] == a[1..] + b;
      NonEmptyAppend(a[1..], b);
    }
  }

  /** The first piece stays exactly when it is not empty. */
  lemma NonEmptyCons(x: string, rest: seq<string>)
    ensures NonEmpty([x] + rest) == (if x != "" then [x] else []) + NonEmpty(rest)
  {
    assert ([x] + rest)[0] == x;
    assert ([x] + rest)[1..] == rest;
  }

  /** Trimming works piece by piece. */
  lemma {:induction false} TrimAllAppend(a: seq<string>, b: seq<string>)
    ensures TrimAll(a + b) == TrimAll(a) + TrimAll(b)
  {
    if |a| == 0 {
      assert a + b == b;
    } else {
      assert (a + b)[0] == a[0];
      assert (a + b)[1..] == a[1..] + b;
      TrimAllAppend(a[1..], b);
    }
  }

  /** The options of a new select field: the text split at commas, each
      piece trimmed; empty pieces stay. */
  function NewOptions(text: string): (r: seq<string>)
    ensures |r| == |Split(text, ',')|
    ensures forall i {:trigger r[i]} :: 0 <= i < |r| ==> r[i] == Trim(Split(text, ',')[i])
    ensures forall i :: 0 <= i < |r| ==> ',' !in r[i]
  {
    var parts := Split(text, ',');
    forall i | 0 <= i < |parts| ensures ',' !in Trim(parts[i]) {
      TrimKeepsAbsent(parts[i], ',');
    }
    TrimAll(parts)
  }

  /** The options of an edited select field: as for a new field, with
      empty pieces dropped. */
  function EditedOptions(text: string): (r: seq<string>)
    ensures forall x :: x in r ==> x != "" && ',' !in x
    ensures multiset(r) == multiset(NewOptions(text))["" := 0]
  {
    NonEmpty(NewOptions(text))
  }

  /** The edited options keep the order of the text: the options of
      `a,b` are those of `a` followed by those of `b`. */
  lemma EditedOptionsAppend(a: string, b: string)
    ensures EditedOptions(a + [','] + b) == EditedOptions(a) + EditedOptions(b)
  {
    SplitAppend(a, b, ',');
    TrimAllAppend(Split(a, ','), Split(b, ','));
    NonEmptyAppend(NewOptions(a), NewOptions(b));
  }

  /** `addCustomField`: a field needs a caption; only a select field has
      options. `id` stands for the `field_<clock>` identifier. */
  function AddCustomField(config: AppConfig, id: string, caption: string, fieldType: FieldType, optionsText: string): (r: AppConfig)
    ensures caption == "" ==> r == config
    ensures caption != "" ==>
      && r == config.(customFields := r.customFields)
      && |r.customFields| == |config.customFields| + 1
      && r.customFields[..|config.customFields|] == config.customFields
      && var f := r.customFields[|config.customFields|];
         f.id == id && f.caption == caption && f.fieldType == fieldType && !f.isArchived
         && (f.options.Some? <==> fieldType == SelectField)
         && (f.options.Some? ==> f.options.value == NewOptions(optionsText))
  {
    if caption == "" then config
    else
      var options := if fieldType == SelectField then Some(NewOptions(optionsText)) else None;
      config.(customFields := config.customFields + [CustomField(id, caption, fieldType, options, false)])
  }

  /** `config.customFields.find(f => f.id === id)`. */
  function FindField(fields: seq<CustomField>, id: string): (r: Option<CustomField>)
    ensures r.None? <==> forall i :: 0 <= i < |fields| ==> fields[i].id != id
    ensures r.Some? ==> r.value in fields && r.value.id == id
    ensures r.Some? ==> exists i :: 0 <= i < |fields| && fields[i] == r.value && forall j :: 0 <= j < i ==> fields[j].id != id
  {
    if |fields| == 0 then None
    else if fields[0].id == id then Some(fields[0])
    else
      var r := FindField(fields[1..], id);
      if r.Some? then
        var i :| 0 <= i < |fields[1..]| && fields[1..][i] == r.value && forall j :: 0 <= j < i ==> fields[1..][j].id != id;
        assert fields[i + 1] == r.value;
        r
      else r
  }

  /** What the field editor holds: the caption and type inputs (None when
      the type was never set) and the options text. */
  datatype FieldDraft = FieldDraft(caption: string, fieldType: Option<FieldType>, optionsText: string)

  /** `option.join(', ')`. */
  function JoinOptions(opts: seq<string>): string {
    if |opts| == 0 then ""
    else if |opts| == 1 then opts[0]
    else opts[0] + ", " + JoinOptions(opts[1..])
  }

  /** `startEditingField`: the editor opens on the field's caption, type and
      options joined by `, `. */
  function StartEditingField(f: CustomField): FieldDraft {
    FieldDraft(f.caption, Some(f.fieldType), if f.options.Some? then JoinOptions(f.options.value) else "")
  }

  /** The fields after an edit: every field with the id takes the new
      caption, type and options; every other field and every id and archive
      flag stay. */
  function EditFields(fields: seq<CustomField>, id: string, caption: string, fieldType: FieldType,
                      options: Option<seq<string>>): (r: seq<CustomField>)
    ensures |r| == |fields|
    ensures forall i :: 0 <= i < |r| ==>
      r[i] == if fields[i].id == id then fields[i].(caption := caption, fieldType := fieldType, options := options) else fields[i]
  {
    seq(|fields|, i requires 0 <= i < |fields| =>
      if fields[i].id == id then fields[i].(caption := caption, fieldType := fieldType, options := options) else fields[i])
  }

  /** `saveFieldChanges`: every field with the edited id takes the new
      caption (the old one when the input is empty), the new type and, for
      a select field, the re-read options; an empty id or an unknown id
      changes nothing. The id and the archive flag stay. */
  function SaveFieldChanges(config: AppConfig, editingId: string, draft: FieldDraft): (r: AppConfig)
    ensures editingId == "" || FindField(config.customFields, editingId).None? ==> r == config
    ensures r == config.(customFields := r.customFields)
    ensures |r.customFields| == |config.customFields|
    ensures forall i :: 0 <= i < |r.customFields| ==>
      && r.customFields[i].id == config.customFields[i].id
      && r.customFields[i].isArchived == config.customFields[i].isArchived
      && (config.customFields[i].id != editingId ==> r.customFields[i] == config.customFields[i])
    ensures editingId != "" ==> forall i :: 0 <= i < |r.customFields| && r.customFields[i].id == editingId ==>
      && (draft.caption != "" ==> r.customFields[i].caption == draft.caption)
      && (draft.fieldType.Some? ==> r.customFields[i].fieldType == draft.fieldType.value)
      && (r.customFields[i].options.Some? <==> r.customFields[i].fieldType == SelectField)
      && (r.customFields[i].options.Some? ==> forall x :: x in r.customFields[i].options.value ==> x != "" && ',' !in x)
    ensures editingId != "" && FindField(config.customFields, editingId).Some? ==>
      var original := FindField(config.customFields, editingId).value;
      forall i :: 0 <= i < |r.customFields| && config.customFields[i].id == editingId ==>
        && r.customFields[i].caption == (if draft.caption != "" then draft.caption else original.caption)
        && r.customFields[i].fieldType == (if draft.fieldType.Some? then draft.fieldType.value else original.fieldType)
        && r.customFields[i].options == (if r.customFields[i].fieldType == SelectField then Some(EditedOptions(draft.optionsText)) else None)
  {
    var original := FindField(config.customFields, editingId);
    if editingId == "" || original.None? then config
    else
      var newType := if draft.fieldType.Some? then draft.fieldType.value else original.value.fieldType;
      var newCaption := if draft.caption != "" then draft.caption else original.value.caption;
      var newOptions := if newType == SelectField then Some(EditedOptions(draft.optionsText)) else None;
      EditedFieldsKeepShape(config.customFields, editingId, newCaption, newType, newOptions);
      config.(customFields := EditFields(config.customFields, editingId, newCaption, newType, newOptions))
  }

  /** The edited fields keep their ids and archive flags; only those with
      the id change, and those carry the new caption, type and options. */
  lemma EditedFieldsKeepShape(fields: seq<CustomField>, id: string, caption: string, fieldType: FieldType,
                              options: Option<seq<string>>)
    ensures var r := EditFields(fields, id, caption, fieldType, options);
      forall i :: 0 <= i < |r| ==>
        && r[i].id == fields[i].id
        && r[i].isArchived == fields[i].isArchived
        && (fields[i].id != id ==> r[i] == fields[i])
        && (r[i].id == id ==> r[i].caption == caption && r[i].fieldType == fieldType && r[i].options == options)
  {
  }

  /** A clean option: not empty, no comma, no surrounding white space. */
  predicate CleanOption(o: string) {
    o != "" && ',' !in o && Trim(o) == o
  }

  lemma TrimSpaceFirst(s: string)
    ensures Trim(" " + s) == Trim(s)
  {
    assert IsSpace(' ');
    assert (" " + s)[1..] == s;
  }

  /** The piece before the first comma, trimmed, followed by the rest. */
  lemma NewOptionsAppend(a: string, b: string)
    requires ',' !in a
    ensures NewOptions(a + [','] + b) == [Trim(a)] + NewOptions(b)
  {
    SplitAppend(a, b, ',');
    SplitNoSeparator(a, ',');
    assert ([a] + Split(b, ','))[1..] == Split(b, ',');
  }

  /** A leading space changes none of the options. */
  lemma NewOptionsSpace(rest: string)
    ensures NewOptions(" " + rest) == NewOptions(rest)
  {
    var ps := Split(rest, ',');
    assert (" " + rest)[1..] == rest;
    assert Split(" " + rest, ',') == [" " + ps[0]] + ps[1..];
    TrimSpaceFirst(ps[0]);
    assert ([" " + ps[0]] + ps[1..])[1..] == ps[1..];
  }

  lemma CommaSpace(a: string, b: string)
    ensures a + ", " + b == a + [','] + (" " + b)
  {
    var l := a + ", " + b;
    var m := a + [','] + (" " + b);
    assert |l| == |m|;
    forall i | 0 <= i < |l| ensures l[i] == m[i] {
      if i > |a| + 1 {
        assert l[i] == b[i - |a| - 2] == m[i];
      }
    }
  }

  lemma EditedOptionsEmpty()
    ensures EditedOptions("") == []
  {
    assert Split("", ',') == [""];
    assert Trim("") == "";
    assert NewOptions("") == [""];
    assert NonEmpty([""]) == [] + NonEmpty([""][1..]);
  }

  lemma EditedOptionsOne(o: string)
    requires CleanOption(o)
    ensures EditedOptions(o) == [o]
  {
    SplitNoSeparator(o, ',');
    assert NewOptions(o) == [o];
    NonEmptyCons(o, []);
  }

  lemma EditedOptionsStep(o: string, rest: string)
    requires CleanOption(o)
    ensures EditedOptions(o + ", " + rest) == [o] + EditedOptions(rest)
  {
    CommaSpace(o, rest);
    NewOptionsAppend(o, " " + rest);
    NewOptionsSpace(rest);
    NonEmptyCons(o, NewOptions(rest));
  }

  /** One more clean option in front of options that re-read to
      themselves still re-reads to itself. */
  lemma OptionsRoundTripStep(opts: seq<string>)
    requires |opts| >= 2 && CleanOption(opts[0])
    requires EditedOptions(JoinOptions(opts[1..])) == opts[1..]
    ensures EditedOptions(JoinOptions(opts)) == opts
  {
    JoinOptionsCons(opts);
    EditedOptionsStep(opts[0], JoinOptions(opts[1..]));
    assert opts == [opts[0]] + opts[1..];
  }

  lemma JoinOptionsCons(opts: seq<string>)
    requires |opts| >= 2
    ensures JoinOptions(opts) == opts[0] + ", " + JoinOptions(opts[1..])
  {
  }

  /** Re-reading the joined options of a field gives its options back. */
  lemma {:induction false} OptionsRoundTrip(opts: seq<string>)
    requires forall i :: 0 <= i < |opts| ==> CleanOption(opts[i])
    ensures EditedOptions(JoinOptions(opts)) == opts
    decreases |opts|
  {
    if |opts| == 0 {
      EditedOptionsEmpty();
    } else if |opts| == 1 {
      EditedOptionsOne(opts[0]);
    } else {
      OptionsRoundTrip(opts[1..]);
      OptionsRoundTripStep(opts);
    }
  }

  /** A field with clean options whose shape matches its type: options
      exactly when it is a select field. */
  predicate WellFormedField(f: CustomField) {
    && (f.options.Some? <==> f.fieldType == SelectField)
    && (f.options.Some? ==> forall i :: 0 <= i < |f.options.value| ==> CleanOption(f.options.value[i]))
  }

  /** Opening the editor on a field and saving without a change leaves the
      configuration as it was. */
  lemma SaveUneditedField(config: AppConfig, f: CustomField)
    requires f in config.customFields && f.id != "" && WellFormedField(f)
    requires forall i :: 0 <= i < |config.customFields| && config.customFields[i].id == f.id ==> config.customFields[i] == f
    ensures SaveFieldChanges(config, f.id, StartEditingField(f)) == config
  {
    var fields := config.customFields;
    var draft := StartEditingField(f);
    var found := FindField(fields, f.id);
    assert found.Some? && found.value == f;
    var newOptions := if f.fieldType == SelectField then Some(EditedOptions(draft.optionsText)) else None;
    if f.options.Some? {
      OptionsRoundTrip(f.options.value);
    }
    assert newOptions == f.options;
    var edited := EditFields(fields, f.id, f.caption, f.fieldType, f.options);
    assert edited == fields;
  }

  /** `toggleFieldArchive`: every field with the id flips its archive flag. */
  function ToggleFieldArchive(config: AppConfig, id: string): (r: AppConfig)
    ensures r == config.(customFields := r.customFields)
    ensures |r.customFields| == |config.customFields|
    ensures forall i :: 0 <= i < |r.customFields| ==>
      r.customFields[i] == (if config.customFields[i].id == id
                            then config.customFields[i].(isArchived := !config.customFields[i].isArchived)
                            else config.customFields[i])
  {
    config.(customFields := seq(|config.customFields|, i requires 0 <= i < |config.customFields| =>
      var f := config.customFields[i];
      if f.id == id then f.(isArchived := !f.isArchived) else f))
  }

  /** Archiving and restoring a field is no change at all. */
  lemma ToggleFieldArchiveTwice(config: AppConfig, id: string)
    ensures ToggleFieldArchive(ToggleFieldArchive(config, id), id) == config
  {
    var twice := ToggleFieldArchive(ToggleFieldArchive(config, id), id);
    assert twice.customFields == config.customFields;
  }

  /** `deleteFieldPermanently`: every field with the id leaves, the others
      keep their order (see `FieldsWithoutAppend`). */
  function DeleteField(config: AppConfig, id: string): (r: AppConfig)
    ensures r == config.(customFields := r.customFields)
    ensures forall f :: f in r.customFields <==> f in config.customFields && f.id != id
    ensures |r.customFields| <= |config.customFields|
  {
    config.(customFields := FieldsWithout(config.customFields, id))
  }

  function FieldsWithout(fields: seq<CustomField>, id: string): (r: seq<CustomField>)
    ensures forall f {:trigger f in r} :: f in r <==> f in fields && f.id != id
    ensures |r| <= |fields|
  {
    if |fields| == 0 then []
    else
      assert fields == [fields[0]] + fields[1..];
      (if fields[0].id != id then [fields[0]] else []) + FieldsWithout(fields[1..], id)
  }

  /** The field filter keeps the order: it distributes over concatenation
      and keeps a single field exactly when its id differs. */
  lemma {:induction false} FieldsWithoutAppend(a: seq<CustomField>, b: seq<CustomField>, id: string)
    ensures FieldsWithout(a + b, id) == FieldsWithout(a, id) + FieldsWithout(b, id)
    ensures |a| == 1 ==> FieldsWithout(a, id) == (if a[0].id == id then [] else a)
  {
    if |a| == 0 {
      assert a + b == b;
    } else {
      var h := if a[0].id != id then [a[0]] else [];
      assert a + b == [a[0]] + (a[1..] + b);
      FieldsWithoutCons(a[0], a[1..] + b, id);
      assert a == [a[0]] + a[1..];
      FieldsWithoutCons(a[0], a[1..], id);
      FieldsWithoutAppend(a[1..], b, id);
      assert h + (FieldsWithout(a[1..], id) + FieldsWithout(b, id))
          == (h + FieldsWithout(a[1..], id)) + FieldsWithout(b, id);
    }
  }

  lemma FieldsWithoutCons(x: CustomField, rest: seq<CustomField>, id: string)
    ensures FieldsWithout([x] + rest, id) == (if x.id != id then [x] else []) + FieldsWithout(rest, id)
  {
    assert ([x] + rest)[0] == x;
    assert ([x] + rest)[1..] == rest;
  }

  lemma {:induction false} FieldsWithoutFresh(fields: seq<CustomField>, extra: CustomField)
    requires forall i :: 0 <= i < |fields| ==> fields[i].id != extra.id
    ensures FieldsWithout(fields + [extra], extra.id) == fields
  {
    if |fields| == 0 {
      assert FieldsWithout([extra][1..], extra.id) == [];
    } else {
      assert (fields + [extra])[1..] == fields[1..] + [extra];
      FieldsWithoutFresh(fields[1..], extra);
      assert [fields[0]] + fields[1..] == fields;
    }
  }

  /** Deleting a field that was just added under a new id restores the
      configuration. */
  lemma DeleteUndoesAddField(config: AppConfig, id: string, caption: string, fieldType: FieldType, optionsText: string)
    requires caption != ""
    requires forall i :: 0 <= i < |config.customFields| ==> config.customFields[i].id != id
    ensures DeleteField(AddCustomField(config, id, caption, fieldType, optionsText), id) == config
  {
    var added := AddCustomField(config, id, caption, fieldType, optionsText);
    assert added.customFields == config.customFields + [added.customFields[|config.customFields|]];
    FieldsWithoutFresh(config.customFields, added.customFields[|config.customFields|]);
  }

  // ---------------------------------------------------------------------
  // Built-in fields

  /** `coreFields.findIndex(f => f.key === key)`. */
  function CoreIndex(core: seq<CoreFieldConfig>, key: string): (r: Option<nat>)
    ensures r.None? <==> forall i :: 0 <= i < |core| ==> core[i].key != key
    ensures r.Some? ==> r.value < |core| && core[r.value].key == key && forall j :: 0 <= j < r.value ==> core[j].key != key
  {
    FirstIndex(core, (f: CoreFieldConfig) => f.key == key)
  }

  /** `saveCoreField`: the first entry with the key takes the caption; a
      key without an entry gets a new visible one of type `Texte`. */
  function SaveCoreField(config: AppConfig, key: string, caption: string): (r: AppConfig)
    ensures r == config.(coreFields := r.coreFields)
    ensures CoreIndex(config.coreFields, key).Some? ==>
      var at := CoreIndex(config.coreFields, key).value;
      && |r.coreFields| == |config.coreFields|
      && r.coreFields[at] == config.coreFields[at].(caption := caption)
      && forall i :: 0 <= i < |config.coreFields| && i != at ==> r.coreFields[i] == config.coreFields[i]
    ensures CoreIndex(config.coreFields, key).None? ==>
      r.coreFields == config.coreFields + [CoreFieldConfig(key, caption, "Texte", true)]
  {
    var at := CoreIndex(config.coreFields, key);
    if at.Some? then
      config.(coreFields := config.coreFields[at.value := config.coreFields[at.value].(caption := caption)])
    else config.(coreFields := config.coreFields + [CoreFieldConfig(key, caption, "Texte", true)])
  }

  /** A saved non-empty caption is the label the forms and the spreadsheet
      columns then use for that field. */
  lemma SavedCaptionIsLabel(config: AppConfig, key: string, caption: string, fallback: string)
    requires caption != ""
    ensures FieldLabel(SaveCoreField(config, key, caption).coreFields, key, fallback) == caption
  {
    var r := SaveCoreField(config, key, caption).coreFields;
    var at := CoreIndex(config.coreFields, key);
    if at.Some? {
      assert forall j :: 0 <= j < at.value ==> r[j].key != key;
      assert r[at.value].key == key && r[at.value].caption == caption;
    } else {
      assert r[|config.coreFields|].key == key && r[|config.coreFields|].caption == caption;
    }
  }

  /** `toggleCoreFieldVisibility`: every entry with the key flips its
      visibility; captions stay. */
  function ToggleCoreFieldVisibility(config: AppConfig, key: string): (r: AppConfig)
    ensures r == config.(coreFields := r.coreFields)
    ensures |r.coreFields| == |config.coreFields|
    ensures forall i :: 0 <= i < |r.coreFields| ==>
      r.coreFields[i] == (if config.coreFields[i].key == key
                          then config.coreFields[i].(isVisible := !config.coreFields[i].isVisible)
                          else config.coreFields[i])
  {
    config.(coreFields := seq(|config.coreFields|, i requires 0 <= i < |config.coreFields| =>
      var f := config.coreFields[i];
      if f.key == key then f.(isVisible := !f.isVisible) else f))
  }

  /** Hiding and showing a field again is no change, and visibility never
      changes a label. */
  lemma ToggleCoreFieldTwice(config: AppConfig, key: string, other: string, fallback: string)
    ensures ToggleCoreFieldVisibility(ToggleCoreFieldVisibility(config, key), key) == config
    ensures FieldLabel(ToggleCoreFieldVisibility(config, key).coreFields, other, fallback)
         == FieldLabel(config.coreFields, other, fallback)
  {
    var once := ToggleCoreFieldVisibility(config, key);
    var twice := ToggleCoreFieldVisibility(once, key);
    assert twice.coreFields == config.coreFields;
    SameCaptionsSameLabel(once.coreFields, config.coreFields, other, fallback);
  }

  lemma {:induction false} SameCaptionsSameLabel(a: seq<CoreFieldConfig>, b: seq<CoreFieldConfig>, key: string, fallback: string)
    requires |a| == |b|
    requires forall i :: 0 <= i < |a| ==> a[i].key == b[i].key && a[i].caption == b[i].caption
    ensures FieldLabel(a, key, fallback) == FieldLabel(b, key, fallback)
  {
    if |a| > 0 {
      SameCaptionsSameLabel(a[1..], b[1..], key, fallback);
    }
  }

  // ---------------------------------------------------------------------
  // Users

  /** The new-user form. */
  datatype UserDraft = UserDraft(firstName: string, lastName: string, email: string, password: string, permissions: Permission)

  /** `handleCreateUser`: first name, e-mail and password are required;
      `id` stands for the clock reading the source uses. */
  function CreateUser(draft: UserDraft, id: string): (r: Option<User>)
    ensures r.None? <==> draft.firstName == "" || draft.email == "" || draft.password == ""
    ensures r.Some? ==>
      && r.value.id == id && r.value.theme.None?
      && r.value.firstName == draft.firstName && r.value.lastName == draft.lastName
      && r.value.email == draft.email && r.value.password == draft.password
      && r.value.permissions == draft.permissions
  {
    if draft.firstName == "" || draft.email == "" || draft.password == "" then None
    else Some(User(id, draft.firstName, draft.lastName, draft.email, draft.password, draft.permissions, None))
  }

  /** A created account can sign in with the e-mail and password it was
      created with. */
  lemma CreatedUserCanLogin(users: seq<User>, draft: UserDraft, id: string)
    requires CreateUser(draft, id).Some?
    requires forall i :: 0 <= i < |users| ==> !Matches(users[i], draft.email, draft.password)
    ensures FindUser(AddUser(users, CreateUser(draft, id).value), draft.email, draft.password) == CreateUser(draft, id)
  {
    var u := CreateUser(draft, id).value;
    var all := AddUser(users, u);
    var found := FindUser(all, draft.email, draft.password);
    assert Matches(all[|users|], draft.email, draft.password);
    var i :| 0 <= i < |all| && all[i] == found.value && Matches(found.value, draft.email, draft.password)
      && forall j :: 0 <= j < i ==> !Matches(all[j], draft.email, draft.password);
    assert i == |users|;
  }

  /** The password on file for an id: the first user with it, when that
      password is not empty. */
  function StoredPassword(users: seq<User>, id: string): (r: Option<string>)
    ensures r.Some? ==> r.value != "" && exists i :: 0 <= i < |users| && users[i].id == id && users[i].password == r.value
    ensures (forall i :: 0 <= i < |users| ==> users[i].id != id) ==> r.None?
    ensures forall i :: 0 <= i < |users| && users[i].id == id && (forall j :: 0 <= j < i ==> users[j].id != id) ==>
      r == if users[i].password != "" then Some(users[i].password) else None
  {
    if |users| == 0 then None
    else if users[0].id == id then (if users[0].password != "" then Some(users[0].password) else None)
    else
      var r := StoredPassword(users[1..], id);
      assert forall i :: 1 <= i < |users| ==> users[i] == users[1..][i - 1];
      if r.Some? then
        var i :| 0 <= i < |users[1..]| && users[1..][i].id == id && users[1..][i].password == r.value;
        assert users[i + 1] == users[1..][i];
        r
      else r
  }

  /** `saveUserEdit`: the edited user with the typed password, or, when the
      password input is blank, the password on file (the edited copy's as a
      last resort). */
  function SaveUserEdit(users: seq<User>, editing: Option<User>, newPassword: string): (r: Option<User>)
    ensures r.Some? <==> editing.Some?
    ensures r.Some? ==> r.value == editing.value.(password := r.value.password)
    ensures r.Some? && !IsBlank(newPassword) ==> r.value.password == newPassword
    ensures r.Some? && IsBlank(newPassword) ==>
      (r.value.password == editing.value.password
       || exists i :: 0 <= i < |users| && users[i].id == editing.value.id && users[i].password == r.value.password)
    ensures r.Some? && IsBlank(newPassword) ==>
      r.value.password == (var stored := StoredPassword(users, editing.value.id);
                           if stored.Some? then stored.value else editing.value.password)
  {
    if editing.None? then None
    else
      var stored := StoredPassword(users, editing.value.id);
      var finalPassword :=
        if !IsBlank(newPassword) then newPassword
        else if stored.Some? then stored.value
        else editing.value.password;
      Some(editing.value.(password := finalPassword))
  }

  /** After an edit with a new password, the account signs in with it. */
  lemma EditedUserLogsIn(users: seq<User>, u: User, newPassword: string)
    requires exists i :: 0 <= i < |users| && users[i].id == u.id
    requires !IsBlank(newPassword)
    ensures var edited := SaveUserEdit(users, Some(u), newPassword).value;
      FindUser(UpdateUser(users, edited), u.email, newPassword).Some?
  {
    var edited := SaveUserEdit(users, Some(u), newPassword).value;
    var after := UpdateUser(users, edited);
    var i :| 0 <= i < |users| && users[i].id == u.id;
    assert Matches(after[i], u.email, newPassword);
  }
}

=== FILE: assetform.dfy ===
/** The create/edit form of the asset manager
    (components/AssetManager.tsx): field edits, submit validation, the
    critical-field gate and the justification prompt that follows it. */
module AssetForm {
  import opened Text
  import opened Types

  /** The asset properties the form lets a user edit. `id`, `code` and
      `isArchived` are not among them. */
  datatype FormField =
    | AcquisitionYear | Location | Category | Name | Description | Door
    | State | Holder | HolderPresence | Observation | PhotoUrl | RegistrationDate

  /** `formData[field]` for a text field (an absent photo reads as ""). */
  function Get(a: Asset, f: FormField): string {
    match f
    case AcquisitionYear => a.acquisitionYear
    case Location => a.location
    case Category => a.category
    case Name => a.name
    case Description => a.description
    case Door => a.door
    case State => a.state
    case Holder => a.holder
    case HolderPresence => a.holderPresence
    case Observation => a.observation
    case PhotoUrl => if a.photoUrl.Some? then a.photoUrl.value else ""
    case RegistrationDate => a.registrationDate
  }

  function Set(a: Asset, f: FormField, v: string): (r: Asset)
    ensures Get(r, f) == v
    ensures r.id == a.id && r.code == a.code && r.isArchived == a.isArchived
    ensures r.customAttributes == a.customAttributes
    ensures f != PhotoUrl ==> r.photoUrl == a.photoUrl
  {
    match f
    case AcquisitionYear => a.(acquisitionYear := v)
    case Location => a.(location := v)
    case Category => a.(category := v)
    case Name => a.(name := v)
    case Description => a.(description := v)
    case Door => a.(door := v)
    case State => a.(state := v)
    case Holder => a.(holder := v)
    case HolderPresence => a.(holderPresence := v)
    case Observation => a.(observation := v)
    case PhotoUrl => a.(photoUrl := Some(v))
    case RegistrationDate => a.(registrationDate := v)
  }

  /** The blank form a create starts from: the given date and year, empty
      text fields, the first configured state and holder presence (or the
      built-in defaults when the list is empty or its first entry is blank). */
  function InitialForm(config: AppConfig, today: string, thisYear: string): (form: Asset)
    ensures form.code == "" && form.location == "" && form.category == "" && form.name == ""
    ensures form.acquisitionYear == thisYear && form.registrationDate == today
    ensures form.state != "" && form.holderPresence != ""
    ensures |config.states| > 0 && config.states[0] != "" ==> form.state == config.states[0]
    ensures form.customAttributes == map[]
    ensures form.state == if |config.states| > 0 && config.states[0] != "" then config.states[0] else "Bon \U{E9}tat"
    ensures form.holderPresence ==
      if |config.holderPresences| > 0 && config.holderPresences[0] != "" then config.holderPresences[0] else "Pr\U{E9}sent"
    ensures form.description == "" && form.door == "" && form.holder == "" && form.observation == ""
    ensures form.photoUrl == Some("") && !form.isArchived
  {
    var st := FirstOr(config.states, "");
    var hp := FirstOr(config.holderPresences, "");
    Asset("", "", today, thisYear, "", "", "", "", "", if st != "" then st else "Bon \U{E9}tat", "",
          if hp != "" then hp else "Pr\U{E9}sent", "", Some(""), false, map[])
  }

  /** `handleInputChange`: sets one field; choosing a category clears the
      item name. Nothing else changes, so an edit form keeps the edited
      asset's id, code and archive flag. */
  function InputChange(form: Asset, f: FormField, v: string): (r: Asset)
    ensures Get(r, f) == v
    ensures f == Category ==> r.name == ""
    ensures forall g :: g != f && !(f == Category && g == Name) ==> Get(r, g) == Get(form, g)
    ensures r.id == form.id && r.code == form.code && r.isArchived == form.isArchived
    ensures r.customAttributes == form.customAttributes
    ensures f != PhotoUrl ==> r.photoUrl == form.photoUrl
  {
    var r := Set(form, f, v);
    SetFrame(form, f, v);
    if f == Category then r.(name := "") else r
  }

  lemma SetFrame(a: Asset, f: FormField, v: string)
    ensures forall g :: g != f ==> Get(Set(a, f, v), g) == Get(a, g)
  {
    forall g | g != f ensures Get(Set(a, f, v), g) == Get(a, g) {
      match f
      case PhotoUrl =>
      case _ => assert Set(a, f, v).photoUrl == a.photoUrl;
    }
  }

  /** `handleCustomAttributeChange`: sets one custom attribute, keeps the others. */
  function CustomAttributeChange(form: Asset, key: string, v: string): (r: Asset)
    ensures r.customAttributes.Keys == form.customAttributes.Keys + {key}
    ensures r.customAttributes[key] == v
    ensures forall k :: k in form.customAttributes && k != key ==> r.customAttributes[k] == form.customAttributes[k]
    ensures r == form.(customAttributes := r.customAttributes)
  {
    form.(customAttributes := form.customAttributes[key := v])
  }

  /** The fields whose change needs a written justification. */
  const CriticalFields: seq<FormField> := [Location, AcquisitionYear, Name, Category, Door, State, HolderPresence]

  /** `criticalFields.some(field => formData[field] !== editingAsset[field])`. */
  function AnyDiffers(fields: seq<FormField>, form: Asset, original: Asset): (r: bool)
    ensures r <==> exists i :: 0 <= i < |fields| && Get(form, fields[i]) != Get(original, fields[i])
  {
    if |fields| == 0 then false
    else Get(form, fields[0]) != Get(original, fields[0]) || AnyDiffers(fields[1..], form, original)
  }

  predicate HasCriticalChange(form: Asset, original: Asset) {
    AnyDiffers(CriticalFields, form, original)
  }

  /** What `onSave` receives. */
  datatype SaveRequest = SaveRequest(asset: Asset, isNew: bool, reason: Option<string>)

  datatype SubmitError = MissingRequired | IncompleteCode

  datatype SubmitOutcome =
    | Rejected(error: SubmitError)
    | Commit(request: SaveRequest)
    | AwaitReason(pending: Asset)

  /** `handleSubmit`. `editing` is the asset being edited (None for a
      create) and `previewCode` the code shown in the form. */
  function Submit(form: Asset, editing: Option<Asset>, previewCode: string): (r: SubmitOutcome)
    ensures r.Rejected? <==>
      form.location == "" || form.category == "" || form.name == ""
      || (editing.None? && form.acquisitionYear == "")
    ensures r.Commit? ==> r.request.reason.None?
    ensures r.Commit? && editing.None? ==>
      r.request.isNew && r.request.asset == form.(code := previewCode)
    ensures editing.Some? && !r.Rejected? ==>
      (r.Commit? <==> !HasCriticalChange(form, editing.value))
    ensures r.Commit? && editing.Some? ==> !r.request.isNew && r.request.asset == form
    ensures r.AwaitReason? ==> editing.Some? && r.pending == form
  {
    if form.location == "" || form.category == "" || form.name == "" then Rejected(MissingRequired)
    else if editing.None? then
      if form.acquisitionYear == "" || form.location == "" || form.category == "" then Rejected(IncompleteCode)
      else Commit(SaveRequest(form.(code := previewCode), true, None))
    else if HasCriticalChange(form, editing.value) then AwaitReason(form)
    else Commit(SaveRequest(form, false, None))
  }

  /** The confirm button of the justification prompt: disabled (None) while
      the reason is blank after trimming; otherwise the pending edit is
      saved with the reason as typed. */
  function ConfirmReason(pending: Asset, reason: string): (r: Option<SaveRequest>)
    ensures r.Some? <==> !IsBlank(reason)
    ensures r.Some? ==> r.value == SaveRequest(pending, false, Some(reason)) && reason != ""
  {
    assert IsBlank("");
    if IsBlank(reason) then None else Some(SaveRequest(pending, false, Some(reason)))
  }

  /** Editing only non-critical fields never asks for a reason. */
  lemma NonCriticalEditCommits(original: Asset, f: FormField, v: string)
    requires f in [Description, Holder, Observation, PhotoUrl, RegistrationDate]
    requires original.location != "" && original.category != "" && original.name != ""
    ensures Submit(InputChange(original, f, v), Some(original), original.code).Commit?
  {
    var form := InputChange(original, f, v);
    assert forall i :: 0 <= i < |CriticalFields| ==> CriticalFields[i] != f;
  }

  /** Editing a critical field to a new value never commits by itself, and
      a blank justification keeps it from committing. (A category edit
      clears the name, so its submit is refused: `CategoryEditRejected`.) */
  lemma CriticalEditNeedsReason(original: Asset, f: FormField, v: string, reason: string)
    requires f in CriticalFields && f != Category
    requires Get(original, f) != v
    requires Location != f ==> original.location != ""
    requires Name != f ==> original.name != ""
    requires original.category != "" && v != ""
    ensures Submit(InputChange(original, f, v), Some(original), original.code).AwaitReason?
    ensures IsBlank(reason) ==> ConfirmReason(InputChange(original, f, v), reason).None?
  {
    var form := InputChange(original, f, v);
    var i :| 0 <= i < |CriticalFields| && CriticalFields[i] == f;
    assert Get(form, CriticalFields[i]) != Get(original, CriticalFields[i]);
  }

  /** Choosing a category clears the item name, so submitting the edit
      straight after is refused for a missing required field. */
  lemma CategoryEditRejected(original: Asset, v: string, previewCode: string)
    ensures Submit(InputChange(original, Category, v), Some(original), previewCode) == Rejected(MissingRequired)
  {
  }
}

=== FILE: codegen.dfy ===
/** The inventory-code preview of the asset form
    (components/AssetManager.tsx, the code-generation effect).

    A new asset's code is `YEAR-LOCATION-CATEGORY-SEQ`. The sequence is one
    more than the largest fourth segment among existing codes that start
    with `YEAR-LOCATION-CATEGORY`. The scan is a plain prefix test with no
    separator after the category, so category `A` also counts the codes of
    category `AA`; codes that do not split into exactly four segments
    count as 0. */
module CodeGen {
  import opened Text
  import opened Types

  /** `${year}-${location}-${category}`. */
  function Prefix(year: string, location: string, category: string): string {
    year + "-" + location + "-" + category
  }

  /** A code whose fourth segment is all digits. `parseInt` in the source
      also reads the leading digits of a segment such as `12ab` (as 12)
      and yields `NaN` only when the segment does not start with a digit;
      the model asks for a segment made of digits only. */
  predicate SequenceReadable(code: string) {
    var parts := Split(code, '-');
    |parts| == 4 ==> IsNumeral(parts[3])
  }

  /** What one existing code contributes to the scan: nothing unless it
      has four segments, and otherwise the number its last segment writes,
      which is that segment itself when it has no leading zero. */
  function Contribution(code: string): (c: nat)
    requires SequenceReadable(code)
    ensures |Split(code, '-')| != 4 ==> c == 0
    ensures |Split(code, '-')| == 4 && Split(code, '-')[3][0] != '0' ==> NatToString(c) == Split(code, '-')[3]
  {
    var parts := Split(code, '-');
    if |parts| == 4 then
      NatToStringParseNat(parts[3]);
      ParseNat(parts[3])
    else 0
  }

  /** Every code the scan looks at has a readable sequence segment. */
  predicate ScanReadable(assets: seq<Asset>, prefix: string) {
    forall i :: 0 <= i < |assets| && StartsWith(assets[i].code, prefix) ==> SequenceReadable(assets[i].code)
  }

  /** `Math.max(...contributions)` over the scanned codes, 0 when none. */
  function MaxSequence(assets: seq<Asset>, prefix: string): (m: nat)
    requires ScanReadable(assets, prefix)
    ensures forall i :: 0 <= i < |assets| && StartsWith(assets[i].code, prefix) ==> Contribution(assets[i].code) <= m
    ensures m == 0 || exists i :: 0 <= i < |assets| && StartsWith(assets[i].code, prefix) && Contribution(assets[i].code) == m
  {
    if |assets| == 0 then 0
    else
      var last := assets[|assets| - 1];
      var m := MaxSequence(assets[..|assets| - 1], prefix);
      if StartsWith(last.code, prefix) && Contribution(last.code) > m then Contribution(last.code) else m
  }

  /** `n` is one more than the largest contribution of a scanned code, or 1
      when the scan finds nothing. */
  predicate IsNextSequence(assets: seq<Asset>, prefix: string, n: nat)
    requires ScanReadable(assets, prefix)
  {
    && (forall i :: 0 <= i < |assets| && StartsWith(assets[i].code, prefix) ==> Contribution(assets[i].code) < n)
    && (n == 1 || exists i :: 0 <= i < |assets| && StartsWith(assets[i].code, prefix) && Contribution(assets[i].code) == n - 1)
  }

  /** The preview code for the three form inputs: the present inputs joined
      by `-`, followed by the next sequence number once all three are present. */
  function PreviewCode(year: string, location: string, category: string, assets: seq<Asset>): (r: string)
    requires year != "" && location != "" && category != "" ==> ScanReadable(assets, Prefix(year, location, category))
    ensures year == "" || location == "" || category == "" ==> r == Join(PresentParts(year, location, category), '-')
    ensures year != "" && location != "" && category != "" ==>
      var prefix := Prefix(year, location, category);
      && StartsWith(r, prefix + "-")
      && |r| >= |prefix| + 5
      && IsNumeral(r[|prefix| + 1..])
  {
    var c1 := year;
    var c2 := if location != "" then c1 + (if c1 != "" then "-" else "") + location else c1;
    var c3 := if category != "" then c2 + (if c2 != "" then "-" else "") + category else c2;
    if year != "" && location != "" && category != "" then
      var prefix := Prefix(year, location, category);
      var digits := Pad4(MaxSequence(assets, prefix) + 1);
      assert c3 == prefix;
      assert (prefix + "-" + digits)[..|prefix| + 1] == prefix + "-";
      assert (prefix + "-" + digits)[|prefix| + 1..] == digits;
      c3 + "-" + digits
    else c3
  }

  /** With all three inputs present the preview is the prefix, a `-`, and a
      numeral of at least four digits that is one more than the largest
      sequence the scan finds (1 when it finds none). */
  lemma PreviewCodeNext(year: string, location: string, category: string, assets: seq<Asset>)
    requires year != "" && location != "" && category != ""
    requires ScanReadable(assets, Prefix(year, location, category))
    ensures var code := PreviewCode(year, location, category, assets);
      var prefix := Prefix(year, location, category);
      && StartsWith(code, prefix + "-")
      && IsNumeral(code[|prefix| + 1..])
      && |code[|prefix| + 1..]| >= 4
      && IsNextSequence(assets, prefix, ParseNat(code[|prefix| + 1..]))
  {
    var prefix := Prefix(year, location, category);
    var next := MaxSequence(assets, prefix) + 1;
    FullPreview(year, location, category, assets);
    Pad4Parses(next);
    assert (prefix + "-" + Pad4(next))[|prefix| + 1..] == Pad4(next);
    assert (prefix + "-" + Pad4(next))[..|prefix| + 1] == prefix + "-";
  }

  /** The inputs that are present, in form order. */
  function PresentParts(year: string, location: string, category: string): seq<string> {
    (if year != "" then [year] else [])
    + (if location != "" then [location] else [])
    + (if category != "" then [category] else [])
  }

  /** With an input missing the preview is only the present inputs joined by
      `-`: at most two segments and no sequence number. */
  lemma PartialPreview(year: string, location: string, category: string, assets: seq<Asset>)
    requires year == "" || location == "" || category == ""
    ensures PreviewCode(year, location, category, assets) == Join(PresentParts(year, location, category), '-')
    ensures '-' !in year && '-' !in location && '-' !in category ==>
      |Split(PreviewCode(year, location, category, assets), '-')| <= 2
  {
    var parts := PresentParts(year, location, category);
    var code := PreviewCode(year, location, category, assets);
    if |parts| == 2 {
      assert code == parts[0] + "-" + parts[1];
      if '-' !in year && '-' !in location && '-' !in category {
        assert forall i :: 0 <= i < |parts| ==> parts[i] in [year, location, category];
        SplitJoin(parts, '-');
      }
    } else if |parts| <= 1 && '-' !in year && '-' !in location && '-' !in category {
      assert '-' !in code;
      SplitNoSeparator(code, '-');
    }
  }

  /** With all three inputs present the preview is the prefix, a `-` and
      the padded next sequence number. */
  lemma FullPreview(year: string, location: string, category: string, assets: seq<Asset>)
    requires year != "" && location != "" && category != ""
    requires ScanReadable(assets, Prefix(year, location, category))
    ensures PreviewCode(year, location, category, assets)
      == Prefix(year, location, category) + "-" + Pad4(MaxSequence(assets, Prefix(year, location, category)) + 1)
  {
    assert year + "-" + location + "-" + category == Prefix(year, location, category);
  }

  /** The generated code is new: no existing asset carries it, as long as
      the inputs hold no `-` (so the code has exactly four segments). */
  lemma GeneratedCodeIsFresh(year: string, location: string, category: string, assets: seq<Asset>)
    requires year != "" && location != "" && category != ""
    requires '-' !in year && '-' !in location && '-' !in category
    requires ScanReadable(assets, Prefix(year, location, category))
    ensures forall i :: 0 <= i < |assets| ==> assets[i].code != PreviewCode(year, location, category, assets)
  {
    var prefix := Prefix(year, location, category);
    var n := MaxSequence(assets, prefix) + 1;
    FullPreview(year, location, category, assets);
    GeneratedContribution(year, location, category, n);
    StartsWithConcat(prefix, "-" + Pad4(n));
    NotBelowMaximum(assets, prefix, prefix + "-" + Pad4(n), n);
  }

  /** A code on the prefix that contributes more than every scanned code is
      none of them. */
  lemma NotBelowMaximum(assets: seq<Asset>, prefix: string, code: string, n: nat)
    requires ScanReadable(assets, prefix)
    requires StartsWith(code, prefix) && SequenceReadable(code) && Contribution(code) == n
    requires forall i :: 0 <= i < |assets| && StartsWith(assets[i].code, prefix) ==> Contribution(assets[i].code) < n
    ensures forall i :: 0 <= i < |assets| ==> assets[i].code != code
  {
  }

  /** Splitting at the first separator peels off the text before it. */
  lemma SplitCons(a: string, b: string)
    requires '-' !in a
    ensures Split(a + "-" + b, '-') == [a] + Split(b, '-')
  {
    SplitAppend(a, b, '-');
    SplitNoSeparator(a, '-');
  }

  lemma FourSegments(year: string, location: string, category: string, s: string)
    requires '-' !in year && '-' !in location && '-' !in category && '-' !in s
    ensures Split(Prefix(year, location, category) + "-" + s, '-') == [year, location, category, s]
  {
    var t3 := category + "-" + s;
    var t2 := location + "-" + t3;
    var t1 := year + "-" + t2;
    assert Split(t3, '-') == [category, s] by {
      SplitCons(category, s);
      SplitNoSeparator(s, '-');
    }
    assert Split(t2, '-') == [location, category, s] by {
      SplitCons(location, t3);
    }
    assert Split(t1, '-') == [year, location, category, s] by {
      SplitCons(year, t2);
    }
    PrefixThenSequence(year, location, category, s);
  }

  /** The code regrouped from the right. */
  lemma PrefixThenSequence(year: string, location: string, category: string, s: string)
    ensures Prefix(year, location, category) + "-" + s == year + "-" + (location + "-" + (category + "-" + s))
  {
  }

  /** A longer category extends the prefix. */
  lemma PrefixExtends(year: string, location: string, category: string, extra: string, s: string)
    ensures Prefix(year, location, category + extra) + "-" + s == Prefix(year, location, category) + (extra + "-" + s)
  {
  }

  /** A code built by the generator contributes its sequence number to any
      later scan with a prefix it starts with. */
  lemma GeneratedContribution(year: string, location: string, category: string, n: nat)
    requires '-' !in year && '-' !in location && '-' !in category
    ensures SequenceReadable(Prefix(year, location, category) + "-" + Pad4(n))
    ensures Contribution(Prefix(year, location, category) + "-" + Pad4(n)) == n
  {
    assert '-' !in Pad4(n);
    FourSegments(year, location, category, Pad4(n));
    Pad4Parses(n);
  }

  /** The scan over a single scanned code finds its contribution. */
  lemma MaxSequenceOne(a: Asset, prefix: string)
    requires StartsWith(a.code, prefix) && SequenceReadable(a.code)
    ensures ScanReadable([a], prefix)
    ensures MaxSequence([a], prefix) == Contribution(a.code)
  {
    assert [a][..0] == [];
  }

  /** The scan has no separator after the category: a code of category
      `category + extra` (`AA` seen from `A`) counts for `category`, so the
      preview skips past its sequence number. */
  lemma ScanSeesLongerCategory(year: string, location: string, category: string, extra: string, n: nat, a: Asset)
    requires year != "" && location != "" && category != "" && extra != ""
    requires '-' !in year && '-' !in location && '-' !in category && '-' !in extra
    requires a.code == Prefix(year, location, category + extra) + "-" + Pad4(n)
    ensures ScanReadable([a], Prefix(year, location, category))
    ensures PreviewCode(year, location, category, [a]) == Prefix(year, location, category) + "-" + Pad4(n + 1)
  {
    LongerCategoryScanned(year, location, category, extra, n, a);
    FullPreview(year, location, category, [a]);
  }

  /** The scan for `category` over one code of category `category + extra`
      finds that code's sequence number. */
  lemma LongerCategoryScanned(year: string, location: string, category: string, extra: string, n: nat, a: Asset)
    requires year != "" && location != "" && category != "" && extra != ""
    requires '-' !in year && '-' !in location && '-' !in category && '-' !in extra
    requires a.code == Prefix(year, location, category + extra) + "-" + Pad4(n)
    ensures ScanReadable([a], Prefix(year, location, category))
    ensures MaxSequence([a], Prefix(year, location, category)) == n
  {
    var prefix := Prefix(year, location, category);
    GeneratedContribution(year, location, category + extra, n);
    PrefixExtends(year, location, category, extra, Pad4(n));
    StartsWithConcat(prefix, extra + "-" + Pad4(n));
    MaxSequenceOne(a, prefix);
  }

  /** The first code of a prefix ends in 0001, and the next one, created
      once the first is on file, ends in 0002. */
  lemma FirstAndSecondCode(year: string, location: string, category: string, a: Asset)
    requires year != "" && location != "" && category != ""
    requires '-' !in year && '-' !in location && '-' !in category
    requires a.code == PreviewCode(year, location, category, [])
    ensures a.code == Prefix(year, location, category) + "-" + Pad4(1)
    ensures ScanReadable([a], Prefix(year, location, category))
    ensures PreviewCode(year, location, category, [a]) == Prefix(year, location, category) + "-" + Pad4(2)
  {
    var prefix := Prefix(year, location, category);
    FullPreview(year, location, category, []);
    GeneratedContribution(year, location, category, 1);
    StartsWithConcat(prefix, "-" + Pad4(1));
    MaxSequenceOne(a, prefix);
    FullPreview(year, location, category, [a]);
  }
}

=== FILE: dashboard.dfy ===
/** The dashboard (components/Dashboard.tsx): key figures and the four
    charts, all computed over the assets that are not archived. A chart is
    a list of buckets, one per distinct value, with the number of assets
    carrying it. */
module Dashboard {
  import opened Text
  import opened Types

  /** `assets.filter(a => !a.isArchived)`. */
  function ActiveAssets(assets: seq<Asset>): (r: seq<Asset>)
    ensures |r| <= |assets|
    ensures forall a :: a in r <==> a in assets && !a.isArchived
    ensures forall a: Asset :: !a.isArchived ==> Count(r, a) == Count(assets, a)
  {
    if |assets| == 0 then []
    else
      assert assets == [assets[0]] + assets[1..];
      (if assets[0].isArchived then [] else [assets[0]]) + ActiveAssets(assets[1..])
  }

  // ---------------------------------------------------------------------
  // Key figures

  const GoodState: string := "Bon \U{E9}tat"
  const BadStates: seq<string> := ["D\U{E9}fectueux", "D\U{E9}pr\U{E9}ci\U{E9}", RETIRED]

  /** The number of assets whose state is one of `states`. */
  function CountInStates(assets: seq<Asset>, states: seq<string>): (n: nat)
    ensures n <= |assets|
  {
    if |assets| == 0 then 0
    else CountInStates(assets[..|assets| - 1], states) + (if assets[|assets| - 1].state in states then 1 else 0)
  }

  /** The field every chart and key figure reads from an asset. */
  function StateOf(a: Asset): string { a.state }
  function LocationOf(a: Asset): string { a.location }
  function CategoryOf(a: Asset): string { a.category }
  function YearOf(a: Asset): string { a.acquisitionYear }

  function States(assets: seq<Asset>): (r: seq<string>)
    ensures |r| == |assets| && forall i :: 0 <= i < |r| ==> r[i] == assets[i].state
  {
    seq(|assets|, i requires 0 <= i < |assets| => StateOf(assets[i]))
  }

  function Locations(assets: seq<Asset>): (r: seq<string>)
    ensures |r| == |assets| && forall i :: 0 <= i < |r| ==> r[i] == assets[i].location
  {
    seq(|assets|, i requires 0 <= i < |assets| => LocationOf(assets[i]))
  }

  function Categories(assets: seq<Asset>): (r: seq<string>)
    ensures |r| == |assets| && forall i :: 0 <= i < |r| ==> r[i] == assets[i].category
  {
    seq(|assets|, i requires 0 <= i < |assets| => CategoryOf(assets[i]))
  }

  function Years(assets: seq<Asset>): (r: seq<string>)
    ensures |r| == |assets| && forall i :: 0 <= i < |r| ==> r[i] == assets[i].acquisitionYear
  {
    seq(|assets|, i requires 0 <= i < |assets| => YearOf(assets[i]))
  }

  datatype Kpis = Kpis(totalAssets: nat, goodCondition: nat, badCondition: nat, uniqueLocations: nat)

  /** The four key figures: active assets, those in good condition, those
      defective, depreciated or retired, and the number of distinct
      locations. */
  function ComputeKpis(assets: seq<Asset>): (k: Kpis)
    ensures k.totalAssets == |ActiveAssets(assets)|
    ensures k.goodCondition == Count(States(ActiveAssets(assets)), GoodState)
    ensures k.badCondition
      == Count(States(ActiveAssets(assets)), "D\U{E9}fectueux")
       + Count(States(ActiveAssets(assets)), "D\U{E9}pr\U{E9}ci\U{E9}")
       + Count(States(ActiveAssets(assets)), "Retir\U{E9}")
    ensures k.goodCondition + k.badCondition <= k.totalAssets
    ensures k.uniqueLocations == |Tally(Locations(ActiveAssets(assets)))|
  {
    var active := ActiveAssets(assets);
    CountInOneState(active, GoodState);
    CountInBadStates(active);
    DistinctLocations(Locations(active));
    GoodIsNotBad();
    CountInStatesSplit(active, [GoodState], BadStates);
    Kpis(|active|, CountInStates(active, [GoodState]), CountInStates(active, BadStates),
         |set l | l in Locations(active)|)
  }

  /** Counting against two lists with nothing in common is counting against
      their concatenation. */
  lemma {:induction false} CountInStatesSplit(assets: seq<Asset>, s1: seq<string>, s2: seq<string>)
    requires forall x :: x in s1 ==> x !in s2
    ensures CountInStates(assets, s1) + CountInStates(assets, s2) == CountInStates(assets, s1 + s2)
  {
    if |assets| > 0 {
      CountInStatesSplit(assets[..|assets| - 1], s1, s2);
    }
  }

  /** Counting the bad states is counting each of the three. */
  lemma CountInBadStates(assets: seq<Asset>)
    ensures CountInStates(assets, BadStates)
      == Count(States(assets), "D\U{E9}fectueux")
       + Count(States(assets), "D\U{E9}pr\U{E9}ci\U{E9}")
       + Count(States(assets), "Retir\U{E9}")
  {
    var d, p, r := BadStates[0], BadStates[1], BadStates[2];
    assert d[2] != p[2] && d[0] != r[0] && p[0] != r[0];
    CountInStatesSplit(assets, [d], [p]);
    CountInStatesSplit(assets, [d] + [p], [r]);
    assert [d] + [p] + [r] == BadStates;
    CountInOneState(assets, d);
    CountInOneState(assets, p);
    CountInOneState(assets, r);
  }

  /** The good-condition state is none of the bad ones. */
  lemma GoodIsNotBad()
    ensures forall x :: x in [GoodState] ==> x !in BadStates
  {
    assert GoodState[0] == 'B';
    assert BadStates[0][0] == 'D' && BadStates[1][0] == 'D' && BadStates[2][0] == 'R';
  }

  /** No asset counts as both in good and in bad condition, so the two
      figures never add up to more than the total. */
  lemma GoodAndBadWithinTotal(assets: seq<Asset>)
    ensures var k := ComputeKpis(assets);
      k.goodCondition + k.badCondition <= k.totalAssets
  {
  }

  // ---------------------------------------------------------------------
  // Tallies

  /** One chart entry: a value and how many active assets carry it. */
  datatype Bucket = Bucket(name: string, count: nat)

  function Names(r: seq<Bucket>): (ns: seq<string>)
    ensures |ns| == |r| && forall i :: 0 <= i < |r| ==> ns[i] == r[i].name
  {
    seq(|r|, i requires 0 <= i < |r| => r[i].name)
  }

  /** The total over all buckets. */
  function Total(r: seq<Bucket>): nat {
    if |r| == 0 then 0 else r[0].count + Total(r[1..])
  }

  lemma {:induction false} TotalAppend(a: seq<Bucket>, b: seq<Bucket>)
    ensures Total(a + b) == Total(a) + Total(b)
  {
    if |a| > 0 {
      assert (a + b)[0] == a[0] && (a + b)[1..] == a[1..] + b;
      TotalAppend(a[1..], b);
    } else {
      assert a + b == b;
    }
  }

  /** The first position of `x`. */
  function IndexOf(s: seq<string>, x: string): (i: nat)
    requires x in s
    ensures i < |s| && s[i] == x
  {
    if s[0] == x then 0 else 1 + IndexOf(s[1..], x)
  }

  lemma {:induction false} TotalBumpAt(r: seq<Bucket>, i: nat)
    requires i < |r|
    ensures Total(r[i := r[i].(count := r[i].count + 1)]) == Total(r) + 1
  {
    var b := r[i := r[i].(count := r[i].count + 1)];
    if i > 0 {
      assert b[1..] == r[1..][i - 1 := r[i].(count := r[i].count + 1)];
      TotalBumpAt(r[1..], i - 1);
    } else {
      assert b[1..] == r[1..];
    }
  }

  /** One step of the `reduce`: `acc[key] = (acc[key] || 0) + 1`. */
  function Bump(r: seq<Bucket>, key: string): (b: seq<Bucket>)
    requires Distinct(Names(r))
    ensures Distinct(Names(b))
    ensures Names(b) == if key in Names(r) then Names(r) else Names(r) + [key]
    ensures forall i :: 0 <= i < |r| ==> b[i].count == r[i].count + (if r[i].name == key then 1 else 0)
    ensures key !in Names(r) ==> b[|r|].count == 1
    ensures Total(b) == Total(r) + 1
  {
    if key in Names(r) then
      var i := IndexOf(Names(r), key);
      TotalBumpAt(r, i);
      var b := r[i := r[i].(count := r[i].count + 1)];
      assert Names(b) == Names(r);
      b
    else
      TotalAppend(r, [Bucket(key, 1)]);
      var b := r + [Bucket(key, 1)];
      assert Names(b) == Names(r) + [key];
      b
  }

  /** `values.reduce(...)` read back through `Object.keys`: one bucket per
      distinct value. The model lists them in order of first appearance; the
      contract does not fix the order. */
  function Tally(values: seq<string>): (r: seq<Bucket>)
    ensures Distinct(Names(r))
    ensures forall x :: x in Names(r) <==> x in values
    ensures forall i :: 0 <= i < |r| ==> r[i].count == Count(values, r[i].name) && r[i].count > 0
    ensures Total(r) == |values|
  {
    if |values| == 0 then []
    else
      var n := |values| - 1;
      var prev := Tally(values[..n]);
      assert values == values[..n] + [values[n]];
      BumpCounts(prev, values[..n], values[n]);
      Bump(prev, values[n])
  }

  /** One more value keeps a tally of the values seen so far a tally. */
  lemma BumpCounts(prev: seq<Bucket>, seen: seq<string>, key: string)
    requires Distinct(Names(prev))
    requires forall x :: x in Names(prev) <==> x in seen
    requires forall i :: 0 <= i < |prev| ==> prev[i].count == Count(seen, prev[i].name) && prev[i].count > 0
    ensures forall x :: x in Names(Bump(prev, key)) <==> x in seen + [key]
    ensures forall i :: 0 <= i < |Bump(prev, key)| ==>
      Bump(prev, key)[i].count == Count(seen + [key], Bump(prev, key)[i].name) && Bump(prev, key)[i].count > 0
  {
    var b := Bump(prev, key);
    assert multiset(seen + [key]) == multiset(seen) + multiset{key};
    forall i | 0 <= i < |b|
      ensures b[i].count == Count(seen + [key], b[i].name) && b[i].count > 0
    {
      if i < |prev| {
        assert Names(b)[i] == Names(prev)[i];
      } else {
        assert key !in Names(prev);
        assert Names(b)[i] == key;
      }
    }
  }

  /** `.filter(item => item.value > 0)`. */
  function Positive(r: seq<Bucket>): (p: seq<Bucket>)
    ensures forall b :: b in p <==> b in r && b.count > 0
  {
    if |r| == 0 then []
    else (if r[0].count > 0 then [r[0]] else []) + Positive(r[1..])
  }

  /** The filter keeps the order of the buckets: it distributes over
      concatenation, and `PositiveCons` says what happens to the first one. */
  lemma {:induction false} PositiveAppend(a: seq<Bucket>, b: seq<Bucket>)
    ensures Positive(a + b) == Positive(a) + Positive(b)
  {
    if |a| == 0 {
      assert a + b == b;
    } else {
      assert (a + b)[0] == a[0];
      assert (a + b)[1..] == a[1..] + b;
      PositiveAppend(a[1..], b);
    }
  }

  /** The first bucket stays exactly when its count is positive. */
  lemma PositiveCons(x: Bucket, rest: seq<Bucket>)
    ensures Positive([x] + rest) == (if x.count > 0 then [x] else []) + Positive(rest)
  {
    assert ([x] + rest)[0] == x;
    assert ([x] + rest)[1..] == rest;
  }

  /** A tally has no empty bucket, so the filter keeps it whole. */
  lemma {:induction false} PositiveKeepsTally(r: seq<Bucket>)
    requires forall i :: 0 <= i < |r| ==> r[i].count > 0
    ensures Positive(r) == r
  {
    if |r| > 0 {
      PositiveKeepsTally(r[1..]);
      assert [r[0]] + r[1..] == r;
    }
  }

  // ---------------------------------------------------------------------
  // Ordering

  predicate CountsDescending(r: seq<Bucket>) {
    forall i, j :: 0 <= i < j < |r| ==> r[i].count >= r[j].count
  }

  lemma DescendingCons(h: Bucket, t: seq<Bucket>)
    requires CountsDescending(t)
    requires forall b :: b in t ==> h.count >= b.count
    ensures CountsDescending([h] + t)
  {
    var r := [h] + t;
    forall i, j | 0 <= i < j < |r| ensures r[i].count >= r[j].count {
      assert r[j] == t[j - 1];
      if i > 0 {
        assert r[i] == t[i - 1];
      } else {
        assert r[j] in t;
      }
    }
  }

  lemma SameMembers<T>(a: seq<T>, b: seq<T>)
    requires multiset(a) == multiset(b)
    ensures forall x :: x in a <==> x in b
  {
    forall x ensures x in a <==> x in b {
      assert x in a <==> x in multiset(a);
      assert x in b <==> x in multiset(b);
    }
  }

  /** Inserts `x` after every bucket with at least its count, which keeps
      equal counts in their original order. */
  function InsertByCount(x: Bucket, s: seq<Bucket>): (r: seq<Bucket>)
    requires CountsDescending(s)
    ensures CountsDescending(r)
    ensures multiset(r) == multiset(s) + multiset{x}
  {
    if |s| == 0 then [x]
    else if s[0].count >= x.count then
      var rest := InsertByCount(x, s[1..]);
      KeepHeadByCount(x, s, rest);
      [s[0]] + rest
    else
      DescendingCons(x, s);
      [x] + s
  }

  /** The head of a descending list stays in front of the insertion into its tail. */
  lemma KeepHeadByCount(x: Bucket, s: seq<Bucket>, rest: seq<Bucket>)
    requires |s| > 0 && s[0].count >= x.count
    requires CountsDescending(s) && CountsDescending(rest)
    requires multiset(rest) == multiset(s[1..]) + multiset{x}
    ensures CountsDescending([s[0]] + rest)
    ensures multiset([s[0]] + rest) == multiset(s) + multiset{x}
  {
    assert s == [s[0]] + s[1..];
    SameMembers(rest, s[1..] + [x]);
    DescendingCons(s[0], rest);
  }

  lemma {:induction false} InsertByCountTotal(x: Bucket, s: seq<Bucket>)
    requires CountsDescending(s)
    ensures Total(InsertByCount(x, s)) == Total(s) + x.count
  {
    if |s| > 0 && s[0].count >= x.count {
      InsertByCountTotal(x, s[1..]);
    }
  }

  /** `.sort((a, b) => b.value - a.value)`: a stable sort by decreasing
      count. */
  function SortByCount(s: seq<Bucket>): (r: seq<Bucket>)
    ensures CountsDescending(r)
    ensures multiset(r) == multiset(s)
    ensures Total(r) == Total(s)
  {
    if |s| == 0 then []
    else
      var n := |s| - 1;
      assert s == s[..n] + [s[n]];
      TotalAppend(s[..n], [s[n]]);
      InsertByCountTotal(s[n], SortByCount(s[..n]));
      InsertByCount(s[n], SortByCount(s[..n]))
  }

  predicate NamesAscending(r: seq<Bucket>) {
    forall i, j :: 0 <= i < j < |r| ==> LessEq(r[i].name, r[j].name)
  }

  /** Inserts `x` before the first bucket whose name is not below it. */
  function InsertByName(x: Bucket, s: seq<Bucket>): (r: seq<Bucket>)
    requires NamesAscending(s)
    ensures NamesAscending(r)
    ensures multiset(r) == multiset(s) + multiset{x}
  {
    if |s| == 0 then [x]
    else if LessEq(x.name, s[0].name) then
      FrontByName(x, s);
      [x] + s
    else
      var rest := InsertByName(x, s[1..]);
      KeepHeadByName(x, s, rest);
      [s[0]] + rest
  }

  lemma FrontByName(x: Bucket, s: seq<Bucket>)
    requires |s| > 0 && LessEq(x.name, s[0].name)
    requires NamesAscending(s)
    ensures NamesAscending([x] + s)
  {
    forall i | 0 <= i < |s| ensures LessEq(x.name, s[i].name) {
      LessEqTransitive(x.name, s[0].name, s[i].name);
    }
    var r := [x] + s;
    forall i, j | 0 <= i < j < |r| ensures LessEq(r[i].name, r[j].name) {
      assert r[j] == s[j - 1];
      if i > 0 {
        assert r[i] == s[i - 1];
      }
    }
  }

  lemma KeepHeadByName(x: Bucket, s: seq<Bucket>, rest: seq<Bucket>)
    requires |s| > 0 && !LessEq(x.name, s[0].name)
    requires NamesAscending(s) && NamesAscending(rest)
    requires multiset(rest) == multiset(s[1..]) + multiset{x}
    ensures NamesAscending([s[0]] + rest)
    ensures multiset([s[0]] + rest) == multiset(s) + multiset{x}
  {
    assert s == [s[0]] + s[1..];
    LessTotal(x.name, s[0].name);
    forall b | b in rest ensures LessEq(s[0].name, b.name) {
      assert b in multiset(rest);
      if b != x {
        assert b in multiset(s[1..]);
        var k :| 0 <= k < |s[1..]| && s[1..][k] == b;
        assert s[k + 1] == b;
      }
    }
    var r := [s[0]] + rest;
    forall i, j | 0 <= i < j < |r| ensures LessEq(r[i].name, r[j].name) {
      assert r[j] == rest[j - 1];
      if i > 0 {
        assert r[i] == rest[i - 1];
      } else {
        assert r[j] in rest;
      }
    }
  }

  lemma {:induction false} InsertByNameTotal(x: Bucket, s: seq<Bucket>)
    requires NamesAscending(s)
    ensures Total(InsertByName(x, s)) == Total(s) + x.count
  {
    if |s| > 0 && !LessEq(x.name, s[0].name) {
      InsertByNameTotal(x, s[1..]);
    }
  }

  /** `Object.keys(tally).sort()` followed by a lookup of each key: the
      buckets in ascending order of name. */
  function SortByName(s: seq<Bucket>): (r: seq<Bucket>)
    ensures NamesAscending(r)
    ensures multiset(r) == multiset(s)
    ensures Total(r) == Total(s)
  {
    if |s| == 0 then []
    else
      var n := |s| - 1;
      assert s == s[..n] + [s[n]];
      TotalAppend(s[..n], [s[n]]);
      InsertByNameTotal(s[n], SortByName(s[..n]));
      InsertByName(s[n], SortByName(s[..n]))
  }

  // ---------------------------------------------------------------------
  // Charts

  /** The state pie: the state tally, empty buckets dropped, largest first. */
  function DataByState(assets: seq<Asset>): (r: seq<Bucket>)
    ensures CountsDescending(r)
    ensures Total(r) == |ActiveAssets(assets)|
    ensures forall b :: b in r <==> b in Tally(States(ActiveAssets(assets)))
  {
    var t := Tally(States(ActiveAssets(assets)));
    PositiveKeepsTally(t);
    SameMembers(SortByCount(t), t);
    SortByCount(Positive(t))
  }

  /** The location bars: one per location of an active asset. */
  function DataByLocation(assets: seq<Asset>): (r: seq<Bucket>)
    ensures Total(r) == |ActiveAssets(assets)|
    ensures Distinct(Names(r))
    ensures forall i :: 0 <= i < |r| ==> r[i].count == Count(Locations(ActiveAssets(assets)), r[i].name)
    ensures forall x :: x in Names(r) <==> x in Locations(ActiveAssets(assets))
  {
    Tally(Locations(ActiveAssets(assets)))
  }

  /** The category bars: one per category of an active asset. */
  function DataByCategory(assets: seq<Asset>): (r: seq<Bucket>)
    ensures Total(r) == |ActiveAssets(assets)|
    ensures Distinct(Names(r))
    ensures forall i :: 0 <= i < |r| ==> r[i].count == Count(Categories(ActiveAssets(assets)), r[i].name)
    ensures forall x :: x in Names(r) <==> x in Categories(ActiveAssets(assets))
  {
    Tally(Categories(ActiveAssets(assets)))
  }

  /** The acquisition-year line, in ascending order of year text. */
  function DataByYear(assets: seq<Asset>): (r: seq<Bucket>)
    ensures NamesAscending(r)
    ensures Total(r) == |ActiveAssets(assets)|
    ensures forall b :: b in r <==> b in Tally(Years(ActiveAssets(assets)))
  {
    var t := Tally(Years(ActiveAssets(assets)));
    SameMembers(SortByName(t), t);
    SortByName(t)
  }

  /** A list without repeats has as many distinct elements as entries. */
  lemma {:induction false} DistinctCardinality(s: seq<string>)
    requires Distinct(s)
    ensures |set x | x in s| == |s|
  {
    if |s| > 0 {
      DistinctCardinality(s[1..]);
      assert (set x | x in s) == {s[0]} + (set x | x in s[1..]);
    }
  }

  /** The key figures agree with the charts: every chart adds up to the
      total, and there are as many location bars as distinct locations. */
  lemma KpisMatchCharts(assets: seq<Asset>)
    ensures var k := ComputeKpis(assets);
      && k.totalAssets == Total(DataByState(assets)) == Total(DataByLocation(assets))
      && k.totalAssets == Total(DataByCategory(assets)) == Total(DataByYear(assets))
      && k.uniqueLocations == |DataByLocation(assets)|
  {
    DistinctLocations(Locations(ActiveAssets(assets)));
  }

  /** A tally has as many buckets as there are distinct values. */
  lemma DistinctLocations(values: seq<string>)
    ensures |set x | x in values| == |Tally(values)|
  {
    var names := Names(Tally(values));
    DistinctCardinality(names);
    assert (set x | x in names) == (set x | x in values);
  }

  /** The good-condition figure is the size of the good-condition slice of
      the state pie, or 0 when there is no such slice. */
  lemma {:induction false} CountInOneState(assets: seq<Asset>, state: string)
    ensures CountInStates(assets, [state]) == Count(States(assets), state)
  {
    if |assets| > 0 {
      var n := |assets| - 1;
      CountInOneState(assets[..n], state);
      assert States(assets) == States(assets[..n]) + [assets[n].state];
    }
  }

  /** A value that occurs has a bucket holding its number of occurrences. */
  lemma TallyBucketOf(values: seq<string>, x: string)
    requires x in values
    ensures Bucket(x, Count(values, x)) in Tally(values)
  {
    var t := Tally(values);
    assert x in Names(t);
    var i := IndexOf(Names(t), x);
    assert t[i] == Bucket(x, Count(values, x));
  }

  /** A value that does not occur has no bucket. */
  lemma TallyNoBucket(values: seq<string>, x: string)
    requires x !in values
    ensures forall b :: b in Tally(values) ==> b.name != x
  {
    var t := Tally(values);
    forall b | b in Tally(values) ensures b.name != x {
      var i :| 0 <= i < |t| && t[i] == b;
      assert Names(t)[i] == b.name;
    }
  }

  lemma GoodConditionIsPieSlice(assets: seq<Asset>)
    ensures var good := ComputeKpis(assets).goodCondition;
      && (good == 0 <==> forall b :: b in DataByState(assets) ==> b.name != GoodState)
      && (good > 0 ==> Bucket(GoodState, good) in DataByState(assets))
  {
    var active := ActiveAssets(assets);
    var states := States(active);
    CountInOneState(active, GoodState);
    if GoodState in states {
      TallyBucketOf(states, GoodState);
    } else {
      TallyNoBucket(states, GoodState);
    }
  }
}

=== FILE: listing.dfy ===
/** The asset list of the asset manager (components/AssetManager.tsx):
    case-insensitive search over code, name and holder, hiding archived
    assets, and pages of 50 rows. */
module Listing {
  import opened Text
  import opened Types

  const ItemsPerPage: nat := 50

  /** The row filter: not archived, and the lower-cased search term occurs
      in the lower-cased code, name or holder. */
  predicate Shown(a: Asset, term: string): (b: bool)
    ensures b ==> !a.isArchived
    ensures term == "" ==> b == !a.isArchived
    ensures !a.isArchived && StartsWith(Lower(a.code), Lower(term)) ==> b
  {
    assert Lower(a.code)[0..] == Lower(a.code);
    && !a.isArchived
    && (Includes(Lower(a.code), Lower(term))
        || Includes(Lower(a.name), Lower(term))
        || Includes(Lower(a.holder), Lower(term)))
  }

  /** The search ignores the case of the term: typing it in any case shows
      the same rows. */
  lemma ShownIgnoresCase(a: Asset, term: string)
    ensures Shown(a, Lower(term)) == Shown(a, term)
  {
    LowerIdempotent(term);
  }

  /** `assets.filter(...)`: the shown assets, in list order. */
  function FilterAssets(assets: seq<Asset>, term: string): (r: seq<Asset>)
    ensures |r| <= |assets|
    ensures forall a :: a in r <==> a in assets && Shown(a, term)
    ensures forall a :: Count(r, a) == if Shown(a, term) then Count(assets, a) else 0
  {
    if |assets| == 0 then []
    else
      var rest := FilterAssets(assets[1..], term);
      assert assets == [assets[0]] + assets[1..];
      if Shown(assets[0], term) then [assets[0]] + rest else rest
  }

  /** The empty search term shows every asset that is not archived. */
  lemma EmptySearchShowsActive(assets: seq<Asset>)
    ensures forall a :: a in FilterAssets(assets, "") <==> a in assets && !a.isArchived
  {
  }

  /** `Math.ceil(n / 50)`. */
  function TotalPages(n: nat): (p: nat)
    ensures p * ItemsPerPage >= n
    ensures p == 0 || (p - 1) * ItemsPerPage < n
  {
    (n + ItemsPerPage - 1) / ItemsPerPage
  }

  /** `filtered.slice((page - 1) * 50, page * 50)`: the rows of one page. The
      page number starts at 1 and the pager never takes it lower. */
  function Page(filtered: seq<Asset>, page: nat): (r: seq<Asset>)
    requires page >= 1
    ensures |r| <= ItemsPerPage
    ensures (page - 1) * ItemsPerPage >= |filtered| ==> r == []
    ensures (page - 1) * ItemsPerPage < |filtered| ==>
      |r| == (if page * ItemsPerPage <= |filtered| then ItemsPerPage else |filtered| - (page - 1) * ItemsPerPage)
    ensures forall i :: 0 <= i < |r| ==> r[i] == filtered[(page - 1) * ItemsPerPage + i]
  {
    var start := (page - 1) * ItemsPerPage;
    var end := start + ItemsPerPage;
    if start >= |filtered| then []
    else filtered[start..if end <= |filtered| then end else |filtered|]
  }

  /** The "previous" button: `Math.max(1, p - 1)`. */
  function PrevPage(page: nat): (r: nat)
    ensures r >= 1
    ensures page >= 1 ==> r <= page
    ensures page > 1 ==> r == page - 1
    ensures page <= 1 ==> r == 1
  {
    if page - 1 > 1 then page - 1 else 1
  }

  /** The "next" button: `Math.min(totalPages, p + 1)`. */
  function NextPage(page: nat, totalPages: nat): (r: nat)
    ensures r <= totalPages && r <= page + 1
    ensures page < totalPages ==> r == page + 1
    ensures page >= totalPages ==> r == totalPages
    ensures page <= totalPages ==> page <= r
  {
    if totalPages < page + 1 then totalPages else page + 1
  }

  /** Pages 1 .. k laid end to end. */
  function PagesUpTo(filtered: seq<Asset>, k: nat): seq<Asset> {
    if k == 0 then [] else PagesUpTo(filtered, k - 1) + Page(filtered, k)
  }

  /** The first k pages are the first k * 50 rows. */
  lemma {:induction false} PagesUpToIsPrefix(filtered: seq<Asset>, k: nat)
    ensures PagesUpTo(filtered, k) == filtered[..if k * ItemsPerPage <= |filtered| then k * ItemsPerPage else |filtered|]
  {
    if k > 0 {
      PagesUpToIsPrefix(filtered, k - 1);
      var a := if (k - 1) * ItemsPerPage <= |filtered| then (k - 1) * ItemsPerPage else |filtered|;
      var b := if k * ItemsPerPage <= |filtered| then k * ItemsPerPage else |filtered|;
      assert filtered[..b] == filtered[..a] + filtered[a..b];
    }
  }

  /** Paging loses and repeats nothing: pages 1 .. TotalPages, in order,
      are exactly the filtered list. */
  lemma PagesCoverList(filtered: seq<Asset>)
    ensures PagesUpTo(filtered, TotalPages(|filtered|)) == filtered
  {
    PagesUpToIsPrefix(filtered, TotalPages(|filtered|));
  }
}

=== FILE: spreadsheet.dfy ===
/** Spreadsheet rows of the asset manager (components/AssetManager.tsx):
    the column mapping shared by export and import, the row normaliser
    with its category-code extraction, and the all-or-nothing validation
    that decides whether a parsed sheet reaches the bulk import.

    A sheet arrives already parsed: one map per data row from column
    header to cell text; a header with no entry is an empty cell. */
module Spreadsheet {
  import opened Text
  import opened Types

  type Row = map<string, string>

  const ColCode: string := "Code Inventaire"
  const ColName: string := "Nom"
  const ColCategory: string := "Cat\U{E9}gorie"
  const ColLocation: string := "Localisation"
  const ColYear: string := "Ann\U{E9}e Acquisition"
  const ColState: string := "\U{C9}tat"
  const ColPresence: string := "Pr\U{E9}sence D\U{E9}tenteur"

  /** The columns the first row must have. */
  const RequiredColumns: seq<string> := [ColCode, ColName, ColCategory, ColLocation]

  /** `getFieldConfig(key, default).label`: the label of the first core-field
      entry with that key, or the default when there is none or it is blank. */
  function FieldLabel(coreFields: seq<CoreFieldConfig>, key: string, default: string): (r: string)
    ensures (forall i :: 0 <= i < |coreFields| ==> coreFields[i].key != key) ==> r == default
    ensures r == default || exists i :: 0 <= i < |coreFields| && coreFields[i].key == key && coreFields[i].caption == r
    ensures forall i ::
      (0 <= i < |coreFields| && coreFields[i].key == key
       && forall j :: 0 <= j < i ==> coreFields[j].key != key) ==>
        r == if coreFields[i].caption != "" then coreFields[i].caption else default
  {
    if |coreFields| == 0 then default
    else if coreFields[0].key == key then (if coreFields[0].caption != "" then coreFields[0].caption else default)
    else FieldLabel(coreFields[1..], key, default)
  }

  /** The configurable column headers of the five core fields the sheet carries. */
  datatype Labels = Labels(regDate: string, holder: string, door: string, description: string, observation: string)

  function CoreLabels(config: AppConfig): Labels {
    Labels(
      FieldLabel(config.coreFields, "registrationDate", "Date d'enregistrement"),
      FieldLabel(config.coreFields, "holder", "D\U{E9}tenteur"),
      FieldLabel(config.coreFields, "door", "Porte"),
      FieldLabel(config.coreFields, "description", "Description"),
      FieldLabel(config.coreFields, "observation", "Observation"))
  }

  /** `row[col] || ''`. */
  function Cell(row: Row, col: string): string {
    if col in row then row[col] else ""
  }

  /** `a || b` on text. */
  function OrElse(a: string, b: string): string {
    if a != "" then a else b
  }

  /** The code part of a trimmed `Catégorie` cell: the trimmed text before
      the first `-`, else before the first space, else the whole cell. */
  function CodePart(raw: string): (c: string)
    ensures '-' !in c
    ensures '-' in raw ==>
      exists k :: 0 <= k < |raw| && raw[k] == '-' && '-' !in raw[..k] && c == Trim(raw[..k])
    ensures '-' !in raw && ' ' in raw ==>
      exists k :: 0 <= k < |raw| && raw[k] == ' ' && ' ' !in raw[..k] && c == Trim(raw[..k])
    ensures '-' !in raw && ' ' !in raw ==> c == raw
  {
    if '-' in raw then
      var piece := Split(raw, '-')[0];
      SplitFirstPiece(raw, '-');
      TrimKeepsAbsent(piece, '-');
      Trim(piece)
    else if ' ' in raw then
      SplitKeepsAbsent(raw, ' ', '-');
      SplitFirstPiece(raw, ' ');
      var piece := Split(raw, ' ')[0];
      TrimKeepsAbsent(piece, '-');
      Trim(piece)
    else raw
  }

  /** The category code of a `Catégorie` cell: the trimmed cell cut before
      its first `-` (else its first space), trimmed again and upper-cased. */
  function CategoryCode(cell: string): (code: string)
    ensures '-' !in code
    ensures Upper(code) == code
    ensures var raw := Trim(cell);
      && ('-' in raw ==>
            exists k :: 0 <= k < |raw| && raw[k] == '-' && '-' !in raw[..k] && code == Upper(Trim(raw[..k])))
      && ('-' !in raw && ' ' in raw ==>
            exists k :: 0 <= k < |raw| && raw[k] == ' ' && ' ' !in raw[..k] && code == Upper(Trim(raw[..k])))
      && ('-' !in raw && ' ' !in raw ==> code == Upper(raw))
  {
    var c := CodePart(Trim(cell));
    UpperKeepsPlainChars(c);
    UpperIdempotent(c);
    Upper(c)
  }

  /** A code that reads back unchanged from a `Catégorie` cell. */
  predicate PlainCategory(cat: string) {
    && cat != ""
    && '-' !in cat
    && (forall i :: 0 <= i < |cat| ==> !IsSpace(cat[i]))
    && Upper(cat) == cat
  }

  /** The export form `CODE - description` yields CODE back, and so does a
      bare `CODE`. */
  lemma CategoryRoundTrip(cat: string, desc: string)
    requires PlainCategory(cat)
    ensures CategoryCode(cat + " - " + desc) == cat
    ensures CategoryCode(cat) == cat
  {
    var tail := TrimEnd(" " + desc);
    TrimExportedCategory(cat, desc);
    assert '-' !in cat + " ";
    BeforeFirst(cat + " ", tail, '-');
    TrimPadded(cat);
    assert '-' in (cat + " ") + ['-'] + tail by {
      assert ((cat + " ") + ['-'] + tail)[|cat| + 1] == '-';
    }
    TrimOfTrimmed(cat);
    assert ' ' !in cat by {
      assert IsSpace(' ');
    }
  }

  lemma TrimExportedCategory(cat: string, desc: string)
    requires cat != "" && !IsSpace(cat[0])
    ensures Trim(cat + " - " + desc) == (cat + " ") + ['-'] + TrimEnd(" " + desc)
  {
    var cell := cat + " - " + desc;
    assert TrimStart(cell) == cell by {
      assert cell[0] == cat[0];
    }
    assert cell == (cat + " -") + (" " + desc);
    TrimEndAppend(cat + " -", " " + desc);
  }

  lemma TrimPadded(cat: string)
    requires cat != "" && !IsSpace(cat[0]) && !IsSpace(cat[|cat| - 1])
    ensures Trim(cat + " ") == cat
  {
    assert TrimStart(cat + " ") == cat + " " by {
      assert (cat + " ")[0] == cat[0];
    }
    TrimEndAppend(cat, " ");
    assert TrimEnd(" ") == "";
    assert cat + "" == cat;
  }

  /** One data row as the partial asset handed to the bulk import. */
  datatype ImportRecord = ImportRecord(
    code: string,
    name: string,
    category: string,
    location: string,
    acquisitionYear: string,
    state: string,
    holderPresence: string,
    registrationDate: string,
    holder: string,
    door: string,
    description: string,
    observation: string,
    customAttributes: map<string, string>)

  /** The trimmed `Code Inventaire` cell; rows where it is empty are skipped. */
  function RowCode(row: Row): string {
    Trim(Cell(row, ColCode))
  }

  /** `formatDate`: the cell as written when it is non-blank text, else
      today's date (supplied by the caller). */
  function FormatDate(row: Row, col: string, today: string): string {
    if col in row && !IsBlank(row[col]) then row[col] else today
  }

  /** Custom attributes read from the row: every configured custom field
      (archived ones included) whose label is a column of the row, stored
      under the field's id; a later field with the same id wins. */
  function CustomValues(fields: seq<CustomField>, row: Row): (m: map<string, string>)
    ensures forall i :: 0 <= i < |fields| && fields[i].caption in row ==> fields[i].id in m
    ensures forall k :: k in m ==>
      exists i :: 0 <= i < |fields| && fields[i].id == k && fields[i].caption in row && m[k] == row[fields[i].caption]
  {
    if |fields| == 0 then map[]
    else
      var f := fields[|fields| - 1];
      var m := CustomValues(fields[..|fields| - 1], row);
      if f.caption in row then m[f.id := row[f.caption]] else m
  }

  /** The record one row maps to. */
  function ToRecord(row: Row, config: AppConfig, today: string): (r: ImportRecord)
    ensures r.code == RowCode(row)
    ensures r.category == CategoryCode(Cell(row, ColCategory))
    ensures Cell(row, ColState) != "" ==> r.state == row[ColState]
    ensures Cell(row, ColState) == "" ==> r.state == FirstOr(config.states, "")
    ensures r.name == (if ColName in row then row[ColName] else "")
    ensures r.location == (if ColLocation in row then row[ColLocation] else "")
    ensures r.acquisitionYear == (if ColYear in row then row[ColYear] else "")
    ensures Cell(row, ColPresence) != "" ==> r.holderPresence == row[ColPresence]
    ensures Cell(row, ColPresence) == "" ==> r.holderPresence == FirstOr(config.holderPresences, "")
    ensures var col := CoreLabels(config).regDate;
      r.registrationDate == if col in row && !IsBlank(row[col]) then row[col] else today
    ensures var labels := CoreLabels(config);
      && r.holder == (if labels.holder in row then row[labels.holder] else "")
      && r.door == (if labels.door in row then row[labels.door] else "")
      && r.description == (if labels.description in row then row[labels.description] else "")
      && r.observation == (if labels.observation in row then row[labels.observation] else "")
    ensures r.customAttributes == CustomValues(config.customFields, row)
  {
    var labels := CoreLabels(config);
    ImportRecord(
      RowCode(row),
      Cell(row, ColName),
      CategoryCode(Cell(row, ColCategory)),
      Cell(row, ColLocation),
      Cell(row, ColYear),
      OrElse(Cell(row, ColState), FirstOr(config.states, "")),
      OrElse(Cell(row, ColPresence), FirstOr(config.holderPresences, "")),
      FormatDate(row, labels.regDate, today),
      Cell(row, labels.holder),
      Cell(row, labels.door),
      Cell(row, labels.description),
      Cell(row, labels.observation),
      CustomValues(config.customFields, row))
  }

  /** A row whose category code is not configured; `line` is the sheet line
      (data index + 2, after the header). */
  datatype RowError = UnknownCategory(line: nat, categoryCode: string, raw: string)

  datatype Parsed = Parsed(records: seq<ImportRecord>, errors: seq<RowError>)

  /** The records and errors of one part of a sheet followed by those of
      the next. */
  function Then(p: Parsed, q: Parsed): Parsed {
    Parsed(p.records + q.records, p.errors + q.errors)
  }

  /** One data row at index `index`: skipped when its code is blank,
      otherwise its record, with an error naming sheet line `index + 2`
      when the category code is not configured. */
  function ParseRow(row: Row, index: nat, config: AppConfig, today: string): (p: Parsed)
    ensures RowCode(row) == "" ==> p == Parsed([], [])
    ensures RowCode(row) != "" ==> p.records == [ToRecord(row, config, today)]
    ensures RowCode(row) != "" && CategoryCode(Cell(row, ColCategory)) in config.categories ==> p.errors == []
    ensures RowCode(row) != "" && CategoryCode(Cell(row, ColCategory)) !in config.categories ==>
      p.errors == [UnknownCategory(index + 2, CategoryCode(Cell(row, ColCategory)), Trim(Cell(row, ColCategory)))]
  {
    if RowCode(row) == "" then Parsed([], [])
    else
      var rec := ToRecord(row, config, today);
      var errs := if rec.category in config.categories then []
                  else [UnknownCategory(index + 2, rec.category, Trim(Cell(row, ColCategory)))];
      Parsed([rec], errs)
  }

  /** The results of `parse` on each row, joined in order; `first` is the
      data index of `rows[0]`. */
  function ParseEach(rows: seq<Row>, first: nat, parse: (Row, nat) -> Parsed): Parsed {
    if |rows| == 0 then Parsed([], [])
    else Then(parse(rows[0], first), ParseEach(rows[1..], first + 1, parse))
  }

  lemma {:induction false} ParseEachAppend(a: seq<Row>, b: seq<Row>, first: nat, parse: (Row, nat) -> Parsed)
    ensures ParseEach(a + b, first, parse) == Then(ParseEach(a, first, parse), ParseEach(b, first + |a|, parse))
  {
    if |a| == 0 {
      assert a + b == b;
    } else {
      assert (a + b)[0] == a[0];
      assert (a + b)[1..] == a[1..] + b;
      ParseEachAppend(a[1..], b, first + 1, parse);
    }
  }

  /** `ParseRow` with the configuration and date fixed. */
  function RowParser(config: AppConfig, today: string): (Row, nat) -> Parsed {
    (row: Row, i: nat) => ParseRow(row, i, config, today)
  }

  /** The rows with a code, mapped and validated; `first` is the data index
      of `rows[0]`. */
  function ParseRows(rows: seq<Row>, first: nat, config: AppConfig, today: string): (p: Parsed)
    ensures |p.records| <= |rows| && |p.errors| <= |rows|
    ensures forall e :: e in p.errors ==> first + 2 <= e.line < first + 2 + |rows| && e.categoryCode !in config.categories
  {
    ParsedBounds(rows, first, config, today);
    ParseEach(rows, first, RowParser(config, today))
  }

  /** The first row's result followed by the rest's. */
  lemma ParseRowsCons(rows: seq<Row>, first: nat, config: AppConfig, today: string)
    requires |rows| > 0
    ensures ParseRows(rows, first, config, today)
         == Then(ParseRow(rows[0], first, config, today), ParseRows(rows[1..], first + 1, config, today))
  {
  }

  lemma {:induction false} ParsedBounds(rows: seq<Row>, first: nat, config: AppConfig, today: string)
    ensures var p := ParseEach(rows, first, RowParser(config, today));
      && |p.records| <= |rows| && |p.errors| <= |rows|
      && forall e :: e in p.errors ==> first + 2 <= e.line < first + 2 + |rows| && e.categoryCode !in config.categories
  {
    if |rows| > 0 {
      ParsedBounds(rows[1..], first + 1, config, today);
    }
  }

  /** Parsing works row by row: the result for a sheet is the result for
      its first part followed by the result for the rest, with the rest's
      lines counted on from where the first part ends. */
  lemma ParseRowsAppend(a: seq<Row>, b: seq<Row>, first: nat, config: AppConfig, today: string)
    ensures ParseRows(a + b, first, config, today)
         == Then(ParseRows(a, first, config, today), ParseRows(b, first + |a|, config, today))
  {
    ParseEachAppend(a, b, first, RowParser(config, today));
  }

  /** A sheet of one row parses as that row. */
  lemma ParseRowsOne(row: Row, first: nat, config: AppConfig, today: string)
    ensures ParseRows([row], first, config, today) == ParseRow(row, first, config, today)
  {
    ParseRowsCons([row], first, config, today);
    assert [row][1..] == [];
    var p := ParseRow(row, first, config, today);
    assert p.records + [] == p.records && p.errors + [] == p.errors;
  }

  /** Every record comes from a row with a code. */
  lemma {:induction false} ParsedRecordsFromRows(rows: seq<Row>, first: nat, config: AppConfig, today: string)
    ensures forall r :: r in ParseRows(rows, first, config, today).records ==>
      exists row :: row in rows && RowCode(row) != "" && r == ToRecord(row, config, today)
  {
    if |rows| > 0 {
      ParsedRecordsFromRows(rows[1..], first + 1, config, today);
      var p := ParseRows(rows, first, config, today);
      var rest := ParseRows(rows[1..], first + 1, config, today);
      forall r | r in p.records
        ensures exists row :: row in rows && RowCode(row) != "" && r == ToRecord(row, config, today)
      {
        if r in rest.records {
          var row :| row in rows[1..] && RowCode(row) != "" && r == ToRecord(row, config, today);
          assert row in rows;
        } else {
          assert rows[0] in rows;
        }
      }
    }
  }

  /** Every row with a code yields its record. */
  lemma {:induction false} ParsedRecordsComplete(rows: seq<Row>, first: nat, config: AppConfig, today: string)
    ensures forall row :: row in rows && RowCode(row) != "" ==>
      ToRecord(row, config, today) in ParseRows(rows, first, config, today).records
  {
    if |rows| > 0 {
      ParseRowsCons(rows, first, config, today);
      ParsedRecordsComplete(rows[1..], first + 1, config, today);
      assert forall row :: row in rows ==> row == rows[0] || row in rows[1..];
    }
  }

  /** The sheet has no row error exactly when every row with a code names a
      configured category. */
  lemma {:induction false} ParsedErrors(rows: seq<Row>, first: nat, config: AppConfig, today: string)
    ensures ParseRows(rows, first, config, today).errors == [] <==>
      forall row :: row in rows && RowCode(row) != "" ==> CategoryCode(Cell(row, ColCategory)) in config.categories
  {
    if |rows| > 0 {
      ParsedErrors(rows[1..], first + 1, config, today);
      assert forall row :: row in rows ==> row == rows[0] || row in rows[1..];
    }
  }

  /** The required columns the first row lacks. */
  function MissingColumns(firstRow: Row): (cols: seq<string>)
    ensures forall c :: c in cols <==> c in RequiredColumns && c !in firstRow
  {
    MissingFrom(RequiredColumns, firstRow)
  }

  function MissingFrom(cols: seq<string>, row: Row): (r: seq<string>)
    ensures forall c :: c in r <==> c in cols && c !in row
  {
    if |cols| == 0 then []
    else (if cols[0] !in row then [cols[0]] else []) + MissingFrom(cols[1..], row)
  }

  datatype ImportOutcome =
    | EmptySheet
    | MissingRequired(columns: seq<string>)
    | Rejected(errors: seq<RowError>)
    | NoValidRows
    | Ready(records: seq<ImportRecord>)

  /** From a parsed sheet to the batch handed to the bulk import. Only
      `Ready` reaches it: a sheet with a missing required column or with any
      unknown category code is refused whole. */
  function ProcessImport(rows: seq<Row>, config: AppConfig, today: string): (r: ImportOutcome)
    ensures r.EmptySheet? <==> |rows| == 0
    ensures r.MissingRequired? ==>
      (|rows| > 0 && r.columns != [] && forall c :: c in r.columns <==> c in RequiredColumns && c !in rows[0])
    ensures r.Ready? <==>
      && |rows| > 0
      && (forall c :: c in RequiredColumns ==> c in rows[0])
      && (forall row :: row in rows && RowCode(row) != "" ==> CategoryCode(Cell(row, ColCategory)) in config.categories)
      && (exists row :: row in rows && RowCode(row) != "")
    ensures |rows| > 0 && MissingColumns(rows[0]) != [] ==> r == MissingRequired(MissingColumns(rows[0]))
    ensures r.Rejected? <==>
      |rows| > 0 && MissingColumns(rows[0]) == [] && ParseRows(rows, 0, config, today).errors != []
    ensures r.NoValidRows? <==>
      && |rows| > 0 && MissingColumns(rows[0]) == []
      && ParseRows(rows, 0, config, today).errors == [] && ParseRows(rows, 0, config, today).records == []
    ensures r.Rejected? ==> r.errors == ParseRows(rows, 0, config, today).errors
    ensures r.Ready? ==> r.records == ParseRows(rows, 0, config, today).records
    ensures r.Ready? ==>
      && (forall rec :: rec in r.records ==> rec.code != "" && rec.category in config.categories)
      && (forall row :: row in rows && RowCode(row) != "" ==> ToRecord(row, config, today) in r.records)
      && (forall rec :: rec in r.records ==> exists row :: row in rows && RowCode(row) != "" && rec == ToRecord(row, config, today))
  {
    if |rows| == 0 then EmptySheet
    else
      var missing := MissingColumns(rows[0]);
      if missing != [] then
        assert missing[0] in missing;
        MissingRequired(missing)
      else
        var parsed := ParseRows(rows, 0, config, today);
        ParsedRecordsFromRows(rows, 0, config, today);
        ParsedRecordsComplete(rows, 0, config, today);
        ParsedErrors(rows, 0, config, today);
        if parsed.errors != [] then Rejected(parsed.errors)
        else if parsed.records == [] then NoValidRows
        else
          assert parsed.records[0] in parsed.records;
          Ready(parsed.records)
  }

  // ---------------------------------------------------------------------
  // Export

  /** A row object built by assigning the pairs in order (a later
      assignment to the same header wins). */
  function RowOf(pairs: seq<(string, string)>): (row: Row)
    ensures row.Keys == set i | 0 <= i < |pairs| :: pairs[i].0
  {
    if |pairs| == 0 then map[]
    else RowOf(pairs[..|pairs| - 1])[pairs[|pairs| - 1].0 := pairs[|pairs| - 1].1]
  }

  lemma {:induction false} RowOfLookup(pairs: seq<(string, string)>, i: nat)
    requires i < |pairs|
    requires forall j :: 0 <= j < |pairs| && j != i ==> pairs[j].0 != pairs[i].0
    ensures pairs[i].0 in RowOf(pairs) && RowOf(pairs)[pairs[i].0] == pairs[i].1
  {
    if i < |pairs| - 1 {
      RowOfLookup(pairs[..|pairs| - 1], i);
    }
  }

  /** `asset.customAttributes?.[id] || ''`. */
  function AttrOr(attrs: map<string, string>, id: string): string {
    if id in attrs then attrs[id] else ""
  }

  /** The export columns of the custom fields that are not archived, assigned
      in field order onto the row built so far. */
  function WithCustomColumns(base: Row, fields: seq<CustomField>, attrs: map<string, string>): (row: Row)
    ensures row.Keys == base.Keys + set i | 0 <= i < |fields| && !fields[i].isArchived :: fields[i].caption
  {
    if |fields| == 0 then base
    else
      var f := fields[|fields| - 1];
      var row := WithCustomColumns(base, fields[..|fields| - 1], attrs);
      if f.isArchived then row else row[f.caption := AttrOr(attrs, f.id)]
  }

  /** The header of a column holds the value assigned to it last. */
  lemma {:induction false} CustomColumnLookup(base: Row, fields: seq<CustomField>, attrs: map<string, string>, i: nat)
    requires i < |fields| && !fields[i].isArchived
    requires forall j :: 0 <= j < |fields| && j != i ==> fields[j].caption != fields[i].caption
    ensures WithCustomColumns(base, fields, attrs)[fields[i].caption] == AttrOr(attrs, fields[i].id)
  {
    if i < |fields| - 1 {
      CustomColumnLookup(base, fields[..|fields| - 1], attrs, i);
    }
  }

  lemma {:induction false} CustomColumnsKeep(base: Row, fields: seq<CustomField>, attrs: map<string, string>, h: string)
    requires forall j :: 0 <= j < |fields| ==> fields[j].caption != h
    requires h in base
    ensures WithCustomColumns(base, fields, attrs)[h] == base[h]
  {
    if |fields| > 0 {
      CustomColumnsKeep(base, fields[..|fields| - 1], attrs, h);
    }
  }

  /** The headers of the fixed and core-field columns, in export order. */
  function FixedColumns(config: AppConfig): seq<string> {
    var labels := CoreLabels(config);
    [ColCode, ColName, ColCategory, ColLocation, ColYear, labels.regDate, ColState,
     labels.holder, ColPresence, labels.door, labels.description, labels.observation]
  }

  /** `categoriesDescriptions[category] || ''`. */
  function CategoryDescription(config: AppConfig, category: string): string {
    if category in config.categoriesDescriptions then config.categoriesDescriptions[category] else ""
  }

  function FixedPairs(a: Asset, config: AppConfig): (pairs: seq<(string, string)>)
    ensures |pairs| == |FixedColumns(config)|
    ensures forall k :: 0 <= k < |pairs| ==> pairs[k].0 == FixedColumns(config)[k]
  {
    var labels := CoreLabels(config);
    [ (ColCode, a.code),
      (ColName, a.name),
      (ColCategory, a.category + " - " + CategoryDescription(config, a.category)),
      (ColLocation, a.location),
      (ColYear, a.acquisitionYear),
      (labels.regDate, a.registrationDate),
      (ColState, a.state),
      (labels.holder, a.holder),
      (ColPresence, a.holderPresence),
      (labels.door, a.door),
      (labels.description, a.description),
      (labels.observation, a.observation) ]
  }

  /** The export row of one asset (`exportToExcel`): the fixed and core-field
      columns, then one column per custom field that is not archived. */
  function ExportRow(a: Asset, config: AppConfig): (row: Row)
    ensures row.Keys == (set k | 0 <= k < |FixedColumns(config)| :: FixedColumns(config)[k])
      + set i | 0 <= i < |config.customFields| && !config.customFields[i].isArchived :: config.customFields[i].caption
  {
    var pairs := FixedPairs(a, config);
    assert (set k | 0 <= k < |pairs| :: pairs[k].0) == (set k | 0 <= k < |FixedColumns(config)| :: FixedColumns(config)[k]);
    WithCustomColumns(RowOf(pairs), config.customFields, a.customAttributes)
  }

  /** No two export columns share a header: the fixed columns, the core-field
      labels and the labels of all custom fields (archived or not). */
  predicate DistinctColumns(config: AppConfig) {
    && Distinct(FixedColumns(config))
    && (forall i, k :: 0 <= i < |config.customFields| && 0 <= k < |FixedColumns(config)| ==>
          config.customFields[i].caption != FixedColumns(config)[k])
    && (forall i, j :: 0 <= i < j < |config.customFields| ==>
          config.customFields[i].caption != config.customFields[j].caption)
  }

  /** The custom attributes an export carries: every field that is not
      archived, with the asset's value or the empty text. */
  function ExportedAttributes(fields: seq<CustomField>, attrs: map<string, string>): (m: map<string, string>)
    ensures m.Keys == set i | 0 <= i < |fields| && !fields[i].isArchived :: fields[i].id
    ensures forall k :: k in m ==> m[k] == AttrOr(attrs, k)
  {
    if |fields| == 0 then map[]
    else
      var f := fields[|fields| - 1];
      var m := ExportedAttributes(fields[..|fields| - 1], attrs);
      if f.isArchived then m else m[f.id := AttrOr(attrs, f.id)]
  }

  /** Reading the custom columns back from a row that holds each live field's
      value under its label and no archived field's label. */
  lemma {:induction false} CustomValuesOfExport(fields: seq<CustomField>, attrs: map<string, string>, row: Row)
    requires forall i :: 0 <= i < |fields| && !fields[i].isArchived ==>
      fields[i].caption in row && row[fields[i].caption] == AttrOr(attrs, fields[i].id)
    requires forall i :: 0 <= i < |fields| && fields[i].isArchived ==> fields[i].caption !in row
    ensures CustomValues(fields, row) == ExportedAttributes(fields, attrs)
  {
    if |fields| > 0 {
      CustomValuesOfExport(fields[..|fields| - 1], attrs, row);
    }
  }

  /** An asset fit for the round trip: a trimmed non-empty code, a plain
      category code, a state and presence that are not empty and a
      registration date that is not blank. */
  predicate RoundTrips(a: Asset) {
    && a.code != "" && Trim(a.code) == a.code
    && PlainCategory(a.category)
    && a.state != "" && a.holderPresence != ""
    && !IsBlank(a.registrationDate)
  }

  /** The cells of an export row: each fixed column holds its value, each
      live custom field's label holds the asset's value (or empty text), and
      no archived field's label is a column. */
  lemma ExportRowCells(a: Asset, config: AppConfig)
    requires DistinctColumns(config)
    ensures var row := ExportRow(a, config);
      && (forall k :: 0 <= k < |FixedPairs(a, config)| ==>
            FixedPairs(a, config)[k].0 in row && row[FixedPairs(a, config)[k].0] == FixedPairs(a, config)[k].1)
      && (forall i :: 0 <= i < |config.customFields| && !config.customFields[i].isArchived ==>
            config.customFields[i].caption in row
            && row[config.customFields[i].caption] == AttrOr(a.customAttributes, config.customFields[i].id))
      && (forall i :: 0 <= i < |config.customFields| && config.customFields[i].isArchived ==>
            config.customFields[i].caption !in row)
  {
    ExportRowFixedCells(a, config);
    ExportRowCustomCells(a, config);
    ExportRowNoArchived(a, config);
  }

  lemma ExportRowNoArchived(a: Asset, config: AppConfig)
    requires DistinctColumns(config)
    ensures forall i :: 0 <= i < |config.customFields| && config.customFields[i].isArchived ==>
      config.customFields[i].caption !in ExportRow(a, config)
  {
    var fields := config.customFields;
    var fixed := FixedColumns(config);
    forall i | 0 <= i < |fields| && fields[i].isArchived ensures fields[i].caption !in ExportRow(a, config) {
      assert forall k :: 0 <= k < |fixed| ==> fields[i].caption != fixed[k];
      assert forall j :: 0 <= j < |fields| && j != i ==> fields[j].caption != fields[i].caption;
    }
  }

  lemma ExportRowFixedCells(a: Asset, config: AppConfig)
    requires DistinctColumns(config)
    ensures forall k :: 0 <= k < |FixedPairs(a, config)| ==>
      FixedPairs(a, config)[k].0 in ExportRow(a, config)
      && ExportRow(a, config)[FixedPairs(a, config)[k].0] == FixedPairs(a, config)[k].1
  {
    var pairs := FixedPairs(a, config);
    forall k | 0 <= k < |pairs| ensures pairs[k].0 in ExportRow(a, config) && ExportRow(a, config)[pairs[k].0] == pairs[k].1 {
      FixedCell(pairs, config.customFields, a.customAttributes, k);
    }
  }

  /** A fixed column no custom field shares keeps its value. */
  lemma FixedCell(pairs: seq<(string, string)>, fields: seq<CustomField>, attrs: map<string, string>, k: nat)
    requires k < |pairs|
    requires forall j :: 0 <= j < |pairs| && j != k ==> pairs[j].0 != pairs[k].0
    requires forall j :: 0 <= j < |fields| ==> fields[j].caption != pairs[k].0
    ensures pairs[k].0 in WithCustomColumns(RowOf(pairs), fields, attrs)
    ensures WithCustomColumns(RowOf(pairs), fields, attrs)[pairs[k].0] == pairs[k].1
  {
    RowOfLookup(pairs, k);
    CustomColumnsKeep(RowOf(pairs), fields, attrs, pairs[k].0);
  }

  lemma ExportRowCustomCells(a: Asset, config: AppConfig)
    requires DistinctColumns(config)
    ensures forall i :: 0 <= i < |config.customFields| && !config.customFields[i].isArchived ==>
      config.customFields[i].caption in ExportRow(a, config)
      && ExportRow(a, config)[config.customFields[i].caption] == AttrOr(a.customAttributes, config.customFields[i].id)
  {
    var fields := config.customFields;
    forall i | 0 <= i < |fields| && !fields[i].isArchived
      ensures fields[i].caption in ExportRow(a, config)
      && ExportRow(a, config)[fields[i].caption] == AttrOr(a.customAttributes, fields[i].id)
    {
      CustomColumnLookup(RowOf(FixedPairs(a, config)), fields, a.customAttributes, i);
    }
  }

  /** Importing an exported row gives back the asset's fields, and as custom
      attributes those of the fields that are not archived. */
  lemma ExportImportRoundTrip(a: Asset, config: AppConfig, today: string)
    requires DistinctColumns(config)
    requires RoundTrips(a)
    ensures ToRecord(ExportRow(a, config), config, today) ==
      ImportRecord(a.code, a.name, a.category, a.location, a.acquisitionYear, a.state, a.holderPresence,
                   a.registrationDate, a.holder, a.door, a.description, a.observation,
                   ExportedAttributes(config.customFields, a.customAttributes))
  {
    var row := ExportRow(a, config);
    var pairs := FixedPairs(a, config);
    ExportRowCells(a, config);
    CustomValuesOfExport(config.customFields, a.customAttributes, row);
    assert Cell(row, pairs[0].0) == pairs[0].1;
    assert Cell(row, pairs[1].0) == pairs[1].1;
    assert Cell(row, pairs[2].0) == pairs[2].1;
    assert Cell(row, pairs[3].0) == pairs[3].1;
    assert Cell(row, pairs[4].0) == pairs[4].1;
    assert pairs[5].0 in row && row[pairs[5].0] == pairs[5].1;
    assert Cell(row, pairs[6].0) == pairs[6].1;
    assert Cell(row, pairs[7].0) == pairs[7].1;
    assert Cell(row, pairs[8].0) == pairs[8].1;
    assert Cell(row, pairs[9].0) == pairs[9].1;
    assert Cell(row, pairs[10].0) == pairs[10].1;
    assert Cell(row, pairs[11].0) == pairs[11].1;
    RecordOfCells(row, a, config, today);
  }

  /** The record of a row whose cells hold an asset's export values. */
  lemma RecordOfCells(row: Row, a: Asset, config: AppConfig, today: string)
    requires RoundTrips(a)
    requires var labels := CoreLabels(config);
      && Cell(row, ColCode) == a.code
      && Cell(row, ColName) == a.name
      && Cell(row, ColCategory) == a.category + " - " + CategoryDescription(config, a.category)
      && Cell(row, ColLocation) == a.location
      && Cell(row, ColYear) == a.acquisitionYear
      && labels.regDate in row && row[labels.regDate] == a.registrationDate
      && Cell(row, ColState) == a.state
      && Cell(row, labels.holder) == a.holder
      && Cell(row, ColPresence) == a.holderPresence
      && Cell(row, labels.door) == a.door
      && Cell(row, labels.description) == a.description
      && Cell(row, labels.observation) == a.observation
    ensures ToRecord(row, config, today) ==
      ImportRecord(a.code, a.name, a.category, a.location, a.acquisitionYear, a.state, a.holderPresence,
                   a.registrationDate, a.holder, a.door, a.description, a.observation,
                   CustomValues(config.customFields, row))
  {
    CategoryRoundTrip(a.category, CategoryDescription(config, a.category));
  }
}

=== FILE: store.dfy ===
/** The application state transitions of App.tsx: the audit log, login,
    create, update with its field diff, soft archive, the bulk import merge
    by inventory code, and the user list callbacks.

    `Date.now()`/`Math.random()` ids and clock readings are parameters (a
    `Stamp` per log entry, an id per created asset), and the signed-in user
    that `addLog` reads is the `session` parameter. */
module Store {
  import opened Text
  import opened Types
  import opened Spreadsheet

  datatype Store = Store(assets: seq<Asset>, logs: seq<Log>)

  // ---------------------------------------------------------------------
  // Audit log

  /** `addLog`: one entry appended for the signed-in user; nothing when
      nobody is signed in. Entries already in the log are never touched. */
  function AddLog(logs: seq<Log>, session: Option<User>, stamp: Stamp, action: Action, description: string,
                  target: Option<string>, changes: Option<seq<Change>>): (r: seq<Log>)
    ensures session.None? ==> r == logs
    ensures session.Some? ==> |r| == |logs| + 1 && r[..|logs|] == logs
    ensures session.Some? ==>
      var e := r[|logs|];
      && e.userId == session.value.id && e.userEmail == session.value.email
      && e.action == action && e.description == description
      && e.targetCode == target && e.changes == changes
  {
    if session.None? then logs
    else
      var u := session.value;
      logs + [Log(stamp.id, stamp.time, u.id, u.email, action, description, target, changes)]
  }

  // ---------------------------------------------------------------------
  // Login

  predicate Matches(u: User, email: string, password: string) {
    u.email == email && u.password == password
  }

  /** `users.find(u => u.email === email && u.password === password)`. */
  function FindUser(users: seq<User>, email: string, password: string): (r: Option<User>)
    ensures r.None? <==> forall i :: 0 <= i < |users| ==> !Matches(users[i], email, password)
    ensures r.Some? ==>
      exists i :: 0 <= i < |users| && users[i] == r.value && Matches(r.value, email, password)
        && forall j :: 0 <= j < i ==> !Matches(users[j], email, password)
  {
    if |users| == 0 then None
    else if Matches(users[0], email, password) then Some(users[0])
    else
      var r := FindUser(users[1..], email, password);
      if r.Some? then
        var i :| 0 <= i < |users[1..]| && users[1..][i] == r.value && Matches(r.value, email, password)
          && forall j :: 0 <= j < i ==> !Matches(users[1..][j], email, password);
        assert users[i + 1] == r.value;
        r
      else r
  }

  datatype LoginResult = Denied | Granted(user: User, logs: seq<Log>)

  /** `handleLogin` as written: the `LOGIN` entry goes through `addLog`,
      which reads the signed-in user of the screen being rendered, and on
      the login screen nobody is signed in yet (`renderedUser` is None). */
  function LoginAsWritten(users: seq<User>, email: string, password: string, renderedUser: Option<User>,
                          logs: seq<Log>, stamp: Stamp): (r: LoginResult)
    ensures r.Granted? <==> FindUser(users, email, password).Some?
    ensures r.Granted? ==> r.user == FindUser(users, email, password).value
  {
    var found := FindUser(users, email, password);
    if found.None? then Denied
    else Granted(found.value, AddLog(logs, renderedUser, stamp, LOGIN, "User logged in", None, None))
  }

  /** The log the login evidently intends: the entry is written for the
      user who has just signed in. */
  function Login(users: seq<User>, email: string, password: string, logs: seq<Log>, stamp: Stamp): (r: LoginResult)
    ensures r.Granted? <==> exists i :: 0 <= i < |users| && Matches(users[i], email, password)
    ensures r.Granted? ==> r.user in users && Matches(r.user, email, password)
    ensures r.Granted? ==>
      && |r.logs| == |logs| + 1 && r.logs[..|logs|] == logs
      && r.logs[|logs|].action == LOGIN && r.logs[|logs|].userId == r.user.id
  {
    var found := FindUser(users, email, password);
    if found.None? then Denied
    else Granted(found.value, AddLog(logs, found, stamp, LOGIN, "User logged in", None, None))
  }

  /** On the login screen a successful login as written leaves the log as it
      was, where the intended login appends one `LOGIN` entry. */
  lemma LoginEntryIsLost(users: seq<User>, email: string, password: string, logs: seq<Log>, stamp: Stamp)
    requires exists i :: 0 <= i < |users| && Matches(users[i], email, password)
    ensures LoginAsWritten(users, email, password, None, logs, stamp).Granted?
    ensures LoginAsWritten(users, email, password, None, logs, stamp).logs == logs
    ensures |Login(users, email, password, logs, stamp).logs| == |logs| + 1
  {
  }

  // ---------------------------------------------------------------------
  // Create, update, archive

  /** No two assets share an id. */
  predicate DistinctIds(assets: seq<Asset>) {
    forall i, j :: 0 <= i < j < |assets| ==> assets[i].id != assets[j].id
  }

  /** `handleSaveAsset` for a new asset: the form data with a fresh id, not
      archived, appended after the others, and one `CREATE` entry naming its code. */
  function Create(s: Store, session: Option<User>, data: Asset, newId: string, stamp: Stamp): (r: Store)
    ensures |r.assets| == |s.assets| + 1 && r.assets[..|s.assets|] == s.assets
    ensures var a := r.assets[|s.assets|];
      a.id == newId && !a.isArchived && a.code == data.code
      && a == data.(id := a.id, isArchived := a.isArchived)
    ensures DistinctIds(s.assets) && (forall i :: 0 <= i < |s.assets| ==> s.assets[i].id != newId) ==> DistinctIds(r.assets)
    ensures r.logs == AddLog(s.logs, session, stamp, CREATE, "Cr\U{E9}ation actif", Some(data.code), None)
  {
    var a := data.(id := newId, isArchived := false);
    Store(s.assets + [a], AddLog(s.logs, session, stamp, CREATE, "Cr\U{E9}ation actif", Some(data.code), None))
  }

  /** The properties of an asset record, in record order. */
  datatype AssetKey =
    | IdKey | CodeKey | RegistrationDateKey | AcquisitionYearKey | LocationKey | CategoryKey | NameKey
    | DescriptionKey | DoorKey | StateKey | HolderKey | HolderPresenceKey | ObservationKey | PhotoUrlKey
    | IsArchivedKey | CustomAttributesKey

  const AssetKeys: seq<AssetKey> := [
    IdKey, CodeKey, RegistrationDateKey, AcquisitionYearKey, LocationKey, CategoryKey, NameKey,
    DescriptionKey, DoorKey, StateKey, HolderKey, HolderPresenceKey, ObservationKey, PhotoUrlKey,
    IsArchivedKey, CustomAttributesKey]

  /** Every property is listed. */
  lemma KeyListed(k: AssetKey)
    ensures k in AssetKeys
  {
    match k
    case IdKey => assert AssetKeys[0] == IdKey;
    case CodeKey => assert AssetKeys[1] == CodeKey;
    case RegistrationDateKey => assert AssetKeys[2] == RegistrationDateKey;
    case AcquisitionYearKey => assert AssetKeys[3] == AcquisitionYearKey;
    case LocationKey => assert AssetKeys[4] == LocationKey;
    case CategoryKey => assert AssetKeys[5] == CategoryKey;
    case NameKey => assert AssetKeys[6] == NameKey;
    case DescriptionKey => assert AssetKeys[7] == DescriptionKey;
    case DoorKey => assert AssetKeys[8] == DoorKey;
    case StateKey => assert AssetKeys[9] == StateKey;
    case HolderKey => assert AssetKeys[10] == HolderKey;
    case HolderPresenceKey => assert AssetKeys[11] == HolderPresenceKey;
    case ObservationKey => assert AssetKeys[12] == ObservationKey;
    case PhotoUrlKey => assert AssetKeys[13] == PhotoUrlKey;
    case IsArchivedKey => assert AssetKeys[14] == IsArchivedKey;
    case CustomAttributesKey => assert AssetKeys[15] == CustomAttributesKey;
  }

  /** The property name a change records. */
  function KeyName(k: AssetKey): string {
    match k
    case IdKey => "id"
    case CodeKey => "code"
    case RegistrationDateKey => "registrationDate"
    case AcquisitionYearKey => "acquisitionYear"
    case LocationKey => "location"
    case CategoryKey => "category"
    case NameKey => "name"
    case DescriptionKey => "description"
    case DoorKey => "door"
    case StateKey => "state"
    case HolderKey => "holder"
    case HolderPresenceKey => "holderPresence"
    case ObservationKey => "observation"
    case PhotoUrlKey => "photoUrl"
    case IsArchivedKey => "isArchived"
    case CustomAttributesKey => "customAttributes"
  }

  /** `asset[key]`; an asset without a photo has no `photoUrl` property. */
  function Value(a: Asset, k: AssetKey): FieldValue {
    match k
    case IdKey => Text(a.id)
    case CodeKey => Text(a.code)
    case RegistrationDateKey => Text(a.registrationDate)
    case AcquisitionYearKey => Text(a.acquisitionYear)
    case LocationKey => Text(a.location)
    case CategoryKey => Text(a.category)
    case NameKey => Text(a.name)
    case DescriptionKey => Text(a.description)
    case DoorKey => Text(a.door)
    case StateKey => Text(a.state)
    case HolderKey => Text(a.holder)
    case HolderPresenceKey => Text(a.holderPresence)
    case ObservationKey => Text(a.observation)
    case PhotoUrlKey => (if a.photoUrl.Some? then Text(a.photoUrl.value) else Absent)
    case IsArchivedKey => Flag(a.isArchived)
    case CustomAttributesKey => Attributes(a.customAttributes)
  }

  /** The change entry for one property. */
  function ChangeAt(k: AssetKey, before: Asset, after: Asset): Change {
    Change(KeyName(k), Value(before, k), Value(after, k))
  }

  /** The properties the new record carries whose value differs from the
      old record's. */
  predicate Changed(k: AssetKey, before: Asset, after: Asset) {
    Value(after, k) != Absent && Value(after, k) != Value(before, k)
  }

  /** `for (const key in assetData)`: one change per changed property, in
      record order. */
  function DiffOver(keys: seq<AssetKey>, before: Asset, after: Asset): (r: seq<Change>)
    ensures |r| <= |keys|
    ensures forall k :: k in keys && Changed(k, before, after) ==> ChangeAt(k, before, after) in r
    ensures forall c :: c in r ==> exists k :: k in keys && Changed(k, before, after) && c == ChangeAt(k, before, after)
  {
    if |keys| == 0 then []
    else
      var k := keys[0];
      var rest := DiffOver(keys[1..], before, after);
      assert forall x :: x in keys <==> x == k || x in keys[1..];
      if Changed(k, before, after) then [ChangeAt(k, before, after)] + rest else rest
  }

  /** Every property is listed, whichever it is. */
  lemma AllKeysListed()
    ensures forall k :: k in AssetKeys
  {
    forall k | true ensures k in AssetKeys {
      KeyListed(k);
    }
  }

  /** The diff of an update: one change for each property the new record
      carries with another value, and no other change. */
  function Diff(before: Asset, after: Asset): (r: seq<Change>)
    ensures |r| <= |AssetKeys|
    ensures forall k :: Changed(k, before, after) ==> ChangeAt(k, before, after) in r
    ensures forall c :: c in r ==> exists k :: Changed(k, before, after) && c == ChangeAt(k, before, after)
  {
    AllKeysListed();
    DiffOver(AssetKeys, before, after)
  }

  /** The diff is empty exactly when the new record equals the old one, up
      to a photo the new record does not carry. */
  lemma DiffEmptyIffUnchanged(before: Asset, after: Asset)
    ensures Diff(before, after) == [] <==>
      (after == before || (after.photoUrl.None? && after == before.(photoUrl := None)))
  {
    if Diff(before, after) == [] {
      UnchangedWhenDiffEmpty(before, after);
    } else if after == before || (after.photoUrl.None? && after == before.(photoUrl := None)) {
      var c := Diff(before, after)[0];
      assert c in Diff(before, after);
      var k :| k in AssetKeys && Changed(k, before, after) && c == ChangeAt(k, before, after);
      UnchangedKey(k, before, after);
    }
  }

  /** A record equal to the old one, up to a missing photo, changes no property. */
  lemma UnchangedKey(k: AssetKey, before: Asset, after: Asset)
    requires after == before || (after.photoUrl.None? && after == before.(photoUrl := None))
    ensures !Changed(k, before, after)
  {
  }

  lemma UnchangedWhenDiffEmpty(before: Asset, after: Asset)
    requires Diff(before, after) == []
    ensures after == before || (after.photoUrl.None? && after == before.(photoUrl := None))
  {
    NothingChanged(before, after);
    SameFields(before, after);
  }

  lemma NothingChanged(before: Asset, after: Asset)
    requires Diff(before, after) == []
    ensures forall k :: !Changed(k, before, after)
  {
    forall k | true ensures !Changed(k, before, after) {
      KeyListed(k);
    }
  }

  lemma SameFields(before: Asset, after: Asset)
    requires forall k :: !Changed(k, before, after)
    ensures after.id == before.id && after.code == before.code
    ensures after.registrationDate == before.registrationDate && after.acquisitionYear == before.acquisitionYear
    ensures after.location == before.location && after.category == before.category && after.name == before.name
    ensures after.description == before.description && after.door == before.door && after.state == before.state
    ensures after.holder == before.holder && after.holderPresence == before.holderPresence
    ensures after.observation == before.observation && after.isArchived == before.isArchived
    ensures after.customAttributes == before.customAttributes
    ensures after.photoUrl.Some? ==> after.photoUrl == before.photoUrl
  {
    SameIdentity(before, after);
    SameDescriptive(before, after);
  }

  lemma SameIdentity(before: Asset, after: Asset)
    requires forall k :: !Changed(k, before, after)
    ensures after.id == before.id && after.code == before.code
    ensures after.registrationDate == before.registrationDate && after.acquisitionYear == before.acquisitionYear
    ensures after.location == before.location && after.category == before.category && after.name == before.name
    ensures after.isArchived == before.isArchived && after.customAttributes == before.customAttributes
  {
    assert !Changed(IdKey, before, after) && !Changed(CodeKey, before, after);
    assert !Changed(RegistrationDateKey, before, after) && !Changed(AcquisitionYearKey, before, after);
    assert !Changed(LocationKey, before, after) && !Changed(CategoryKey, before, after);
    assert !Changed(NameKey, before, after);
    assert !Changed(IsArchivedKey, before, after) && !Changed(CustomAttributesKey, before, after);
  }

  lemma SameDescriptive(before: Asset, after: Asset)
    requires forall k :: !Changed(k, before, after)
    ensures after.description == before.description && after.door == before.door && after.state == before.state
    ensures after.holder == before.holder && after.holderPresence == before.holderPresence
    ensures after.observation == before.observation
    ensures after.photoUrl.Some? ==> after.photoUrl == before.photoUrl
  {
    assert !Changed(DescriptionKey, before, after);
    assert !Changed(DoorKey, before, after) && !Changed(StateKey, before, after);
    assert !Changed(HolderKey, before, after) && !Changed(HolderPresenceKey, before, after);
    assert !Changed(ObservationKey, before, after) && !Changed(PhotoUrlKey, before, after);
  }

  /** A record that differs from the old one in one property has a diff naming only it. */
  lemma DiffOfOneProperty(before: Asset, after: Asset, k: AssetKey)
    requires forall j :: j != k ==> Value(after, j) == Value(before, j)
    requires Changed(k, before, after)
    ensures Diff(before, after) == [ChangeAt(k, before, after)]
  {
    DiffOverOne(AssetKeys, before, after, k);
  }

  lemma {:induction false} DiffOverOne(keys: seq<AssetKey>, before: Asset, after: Asset, k: AssetKey)
    requires forall j :: j != k ==> Value(after, j) == Value(before, j)
    requires Changed(k, before, after)
    requires Distinct(keys)
    ensures DiffOver(keys, before, after) == if k in keys then [ChangeAt(k, before, after)] else []
  {
    if |keys| > 0 {
      DiffOverOne(keys[1..], before, after, k);
    }
  }

  /** The description of an update entry: the reason when one was given. */
  function UpdateDescription(reason: Option<string>): (d: string)
    ensures reason.Some? && reason.value != "" ==> StartsWith(d, "Modification (Motif: ")
    ensures reason.Some? && reason.value != "" ==> d == "Modification (Motif: " + reason.value + ")"
    ensures reason.None? || reason.value == "" ==> d == "Modification actif"
  {
    if reason.Some? && reason.value != "" then
      StartsWithConcat("Modification (Motif: ", reason.value + ")");
      "Modification (Motif: " + (reason.value + ")")
    else "Modification actif"
  }

  /** The index of the first asset with the id (`assets.find`). */
  function FindById(assets: seq<Asset>, id: string): (r: Option<nat>)
    ensures r.None? <==> forall i :: 0 <= i < |assets| ==> assets[i].id != id
    ensures r.Some? ==>
      r.value < |assets| && assets[r.value].id == id && forall j :: 0 <= j < r.value ==> assets[j].id != id
  {
    FirstIndex(assets, (a: Asset) => a.id == id)
  }

  /** `handleSaveAsset` for an edit: every asset with the edited id is
      replaced by the new record, in place, and one `UPDATE` entry records
      the diff against the first of them. An unknown id changes nothing. */
  function Update(s: Store, session: Option<User>, data: Asset, reason: Option<string>, stamp: Stamp): (r: Store)
    ensures FindById(s.assets, data.id).None? ==> r == s
    ensures FindById(s.assets, data.id).Some? ==>
      && |r.assets| == |s.assets|
      && (forall i :: 0 <= i < |s.assets| && s.assets[i].id != data.id ==> r.assets[i] == s.assets[i])
      && (forall i :: 0 <= i < |s.assets| && s.assets[i].id == data.id ==> r.assets[i] == data)
      && r.logs == AddLog(s.logs, session, stamp, UPDATE, UpdateDescription(reason), Some(data.code),
                          Some(Diff(s.assets[FindById(s.assets, data.id).value], data)))
  {
    var found := FindById(s.assets, data.id);
    if found.None? then s
    else
      var before := s.assets[found.value];
      var assets := seq(|s.assets|, i requires 0 <= i < |s.assets| => if s.assets[i].id == data.id then data else s.assets[i]);
      Store(assets, AddLog(s.logs, session, stamp, UPDATE, UpdateDescription(reason), Some(data.code), Some(Diff(before, data))))
  }

  /** `handleDeleteAsset`: a soft delete. Every asset with the id is marked
      archived and `Retiré`; nothing else about it or any other asset
      changes, and one `DELETE` entry names its code. */
  function Archive(s: Store, session: Option<User>, id: string, stamp: Stamp): (r: Store)
    ensures FindById(s.assets, id).None? ==> r == s
    ensures FindById(s.assets, id).Some? ==>
      && |r.assets| == |s.assets|
      && (forall i :: 0 <= i < |s.assets| && s.assets[i].id != id ==> r.assets[i] == s.assets[i])
      && (forall i :: 0 <= i < |s.assets| && s.assets[i].id == id ==>
            r.assets[i] == s.assets[i].(isArchived := true, state := RETIRED))
      && r.logs == AddLog(s.logs, session, stamp, DELETE, "Archivage actif",
                          Some(s.assets[FindById(s.assets, id).value].code), None)
  {
    var found := FindById(s.assets, id);
    if found.None? then s
    else
      var assets := seq(|s.assets|, i requires 0 <= i < |s.assets| =>
        if s.assets[i].id == id then s.assets[i].(isArchived := true, state := RETIRED) else s.assets[i]);
      Store(assets, AddLog(s.logs, session, stamp, DELETE, "Archivage actif", Some(s.assets[found.value].code), None))
  }

  /** Archiving twice leaves the assets as archiving once; only the log grows. */
  lemma ArchiveIdempotent(s: Store, session: Option<User>, id: string, stamp1: Stamp, stamp2: Stamp)
    ensures Archive(Archive(s, session, id, stamp1), session, id, stamp2).assets == Archive(s, session, id, stamp1).assets
  {
    var once := Archive(s, session, id, stamp1);
    if FindById(s.assets, id).Some? {
      var i := FindById(s.assets, id).value;
      assert once.assets[i].id == id;
      assert FindById(once.assets, id).Some?;
    }
  }

  /** A created asset can be archived at once: the list ends in it,
      archived and `Retiré`, and everything before it is as it was. */
  lemma CreateThenArchive(s: Store, session: Option<User>, data: Asset, newId: string, stamp1: Stamp, stamp2: Stamp)
    requires forall i :: 0 <= i < |s.assets| ==> s.assets[i].id != newId
    ensures Archive(Create(s, session, data, newId, stamp1), session, newId, stamp2).assets
      == s.assets + [data.(id := newId, isArchived := true, state := RETIRED)]
  {
    var c := Create(s, session, data, newId, stamp1);
    ArchiveLast(s.assets, data.(id := newId, isArchived := false), c.logs, session, stamp2);
  }

  /** Archiving the only asset with an id, at the end of the list. */
  lemma ArchiveLast(assets: seq<Asset>, a: Asset, logs: seq<Log>, session: Option<User>, stamp: Stamp)
    requires forall i :: 0 <= i < |assets| ==> assets[i].id != a.id
    ensures Archive(Store(assets + [a], logs), session, a.id, stamp).assets
      == assets + [a.(isArchived := true, state := RETIRED)]
  {
    FoundAtEnd(assets, a);
    var r := Archive(Store(assets + [a], logs), session, a.id, stamp);
    assert r.assets[..|assets|] == assets;
  }

  lemma FoundAtEnd(assets: seq<Asset>, a: Asset)
    requires forall i :: 0 <= i < |assets| ==> assets[i].id != a.id
    ensures FindById(assets + [a], a.id) == Some(|assets|)
  {
    assert (assets + [a])[|assets|] == a;
  }

  /** Saving an asset's own record, unchanged, leaves the list as it was
      and logs an empty diff (given distinct ids). */
  lemma UpdateWithOwnRecord(s: Store, session: Option<User>, i: nat, reason: Option<string>, stamp: Stamp)
    requires DistinctIds(s.assets) && i < |s.assets|
    ensures var r := Update(s, session, s.assets[i], reason, stamp);
      && r.assets == s.assets
      && r.logs == AddLog(s.logs, session, stamp, UPDATE, UpdateDescription(reason), Some(s.assets[i].code), Some([]))
  {
    var a := s.assets[i];
    var found := FindById(s.assets, a.id);
    assert found.Some?;
    assert found.value == i;
    DiffEmptyIffUnchanged(a, a);
    var r := Update(s, session, a, reason, stamp);
    assert r.assets == s.assets;
  }

  // ---------------------------------------------------------------------
  // Bulk import

  /** A created asset: the imported record with a fresh id, not archived,
      without a photo, with the imported custom attributes. */
  function FromRecord(rec: ImportRecord, id: string): (a: Asset)
    ensures a.id == id && !a.isArchived && a.photoUrl.None?
    ensures a.code == rec.code && a.customAttributes == rec.customAttributes
  {
    Asset(id, rec.code, rec.registrationDate, rec.acquisitionYear, rec.location, rec.category, rec.name,
          rec.description, rec.door, rec.state, rec.holder, rec.holderPresence, rec.observation,
          None, false, rec.customAttributes)
  }

  /** `{...existing, ...imported, customAttributes: {...existing, ...imported}}`:
      every imported field overrides, the id, archive flag and photo (which
      a sheet never carries) are kept, and the custom attributes are the
      union of both with the imported values winning. */
  function Merge(existing: Asset, rec: ImportRecord): (m: Asset)
    ensures m == FromRecord(rec, existing.id).(isArchived := existing.isArchived, photoUrl := existing.photoUrl,
                                               customAttributes := m.customAttributes)
    ensures m.customAttributes.Keys == existing.customAttributes.Keys + rec.customAttributes.Keys
    ensures forall k :: k in rec.customAttributes ==> m.customAttributes[k] == rec.customAttributes[k]
    ensures forall k :: k in existing.customAttributes && k !in rec.customAttributes ==>
      m.customAttributes[k] == existing.customAttributes[k]
  {
    existing.(code := rec.code, registrationDate := rec.registrationDate, acquisitionYear := rec.acquisitionYear,
              location := rec.location, category := rec.category, name := rec.name,
              description := rec.description, door := rec.door, state := rec.state, holder := rec.holder,
              holderPresence := rec.holderPresence, observation := rec.observation,
              customAttributes := existing.customAttributes + rec.customAttributes)
  }

  /** Merging the same record twice is merging it once; a created asset
      merged with its own record is unchanged. */
  lemma MergeIdempotent(existing: Asset, rec: ImportRecord, id: string)
    ensures Merge(Merge(existing, rec), rec) == Merge(existing, rec)
    ensures Merge(FromRecord(rec, id), rec) == FromRecord(rec, id)
  {
    assert rec.customAttributes + rec.customAttributes == rec.customAttributes;
    var m := Merge(existing, rec);
    assert m.customAttributes + rec.customAttributes == m.customAttributes;
  }

  /** `currentAssetsMap.get(code)`: the map is built in list order, so the
      last asset with the code wins. */
  function CodeIndex(assets: seq<Asset>, code: string): (r: Option<nat>)
    ensures r.None? <==> forall i :: 0 <= i < |assets| ==> assets[i].code != code
    ensures r.Some? ==>
      r.value < |assets| && assets[r.value].code == code && forall j :: r.value < j < |assets| ==> assets[j].code != code
  {
    if |assets| == 0 then None
    else if assets[|assets| - 1].code == code then Some(|assets| - 1)
    else CodeIndex(assets[..|assets| - 1], code)
  }

  /** The number of rows with a code. */
  function CodedRows(records: seq<ImportRecord>): nat {
    if |records| == 0 then 0
    else CodedRows(records[..|records| - 1]) + (if records[|records| - 1].code != "" then 1 else 0)
  }

  /** The number of coded rows whose code is on file: the rows the pass
      counts as updates. */
  function KnownRows(assets: seq<Asset>, records: seq<ImportRecord>): nat {
    if |records| == 0 then 0
    else
      var rec := records[|records| - 1];
      KnownRows(assets, records[..|records| - 1]) + (if rec.code != "" && !IsNew(assets, rec) then 1 else 0)
  }

  /** The number of rows whose code is not on file: the rows the pass
      creates an asset for. */
  function NewRows(assets: seq<Asset>, records: seq<ImportRecord>): nat {
    if |records| == 0 then 0
    else NewRows(assets, records[..|records| - 1]) + (if IsNew(assets, records[|records| - 1]) then 1 else 0)
  }

  /** The assets the pass creates: one per new row, in row order, each with
      that row's fresh id. */
  function Created(assets: seq<Asset>, records: seq<ImportRecord>, freshIds: seq<string>): (c: seq<Asset>)
    requires |freshIds| == |records|
    decreases |records|
  {
    if |records| == 0 then []
    else
      var n := |records| - 1;
      Created(assets, records[..n], freshIds[..n])
      + (if IsNew(assets, records[n]) then [FromRecord(records[n], freshIds[n])] else [])
  }

  /** The state of the `forEach` pass: the merged assets by id, the assets to
      create, and the update count. */
  datatype Batch = Batch(updates: map<string, Asset>, created: seq<Asset>, updatedCount: nat)

  /** The `forEach` pass over the imported rows; `freshIds[i]` is the id a
      new asset from row i receives. The code map is never updated during
      the pass. */
  function Process(assets: seq<Asset>, records: seq<ImportRecord>, freshIds: seq<string>): (b: Batch)
    requires |freshIds| == |records|
    ensures |b.created| + b.updatedCount == CodedRows(records)
    ensures b.updatedCount == KnownRows(assets, records)
    ensures |b.created| == NewRows(assets, records)
    ensures b.created == Created(assets, records, freshIds)
    ensures forall id :: id in b.updates ==> b.updates[id].id == id
    ensures forall k :: 0 <= k < |b.created| ==> !b.created[k].isArchived
    decreases |records|
  {
    if |records| == 0 then Batch(map[], [], 0)
    else
      var n := |records| - 1;
      var b := Process(assets, records[..n], freshIds[..n]);
      var rec := records[n];
      if rec.code == "" then b
      else
        var at := CodeIndex(assets, rec.code);
        if at.Some? then
          var m := Merge(assets[at.value], rec);
          Batch(b.updates[m.id := m], b.created, b.updatedCount + 1)
        else
          Batch(b.updates, b.created + [FromRecord(rec, freshIds[n])], b.updatedCount)
  }

  /** The pass keeps the row order of the created assets: it distributes
      over a split of the rows, and `ProcessOne` says what one row does. */
  lemma ProcessCreatedAppend(assets: seq<Asset>, r1: seq<ImportRecord>, i1: seq<string>,
                             r2: seq<ImportRecord>, i2: seq<string>)
    requires |i1| == |r1| && |i2| == |r2|
    ensures Process(assets, r1 + r2, i1 + i2).created == Process(assets, r1, i1).created + Process(assets, r2, i2).created
  {
    CreatedAppend(assets, r1, i1, r2, i2);
  }

  lemma {:induction false} CreatedAppend(assets: seq<Asset>, r1: seq<ImportRecord>, i1: seq<string>,
                                         r2: seq<ImportRecord>, i2: seq<string>)
    requires |i1| == |r1| && |i2| == |r2|
    ensures Created(assets, r1 + r2, i1 + i2) == Created(assets, r1, i1) + Created(assets, r2, i2)
    decreases |r2|
  {
    if |r2| == 0 {
      assert r1 + r2 == r1 && i1 + i2 == i1;
    } else {
      var n := |r2| - 1;
      assert (r1 + r2)[..|r1| + n] == r1 + r2[..n];
      assert (i1 + i2)[..|i1| + n] == i1 + i2[..n];
      assert (r1 + r2)[|r1| + n] == r2[n];
      assert (i1 + i2)[|i1| + n] == i2[n];
      CreatedAppend(assets, r1, i1, r2[..n], i2[..n]);
    }
  }

  /** One row creates its asset exactly when its code is new, and counts
      as an update exactly when its code is on file. */
  lemma ProcessOne(assets: seq<Asset>, rec: ImportRecord, id: string)
    ensures Process(assets, [rec], [id]).created == if IsNew(assets, rec) then [FromRecord(rec, id)] else []
    ensures Process(assets, [rec], [id]).updatedCount == if rec.code != "" && !IsNew(assets, rec) then 1 else 0
  {
    assert [rec][..0] == [] && [id][..0] == [];
  }

  /** Each asset on file replaced, in place, by the merged asset recorded
      for its id, if any. */
  function ApplyUpdates(assets: seq<Asset>, updates: map<string, Asset>): (r: seq<Asset>)
    ensures |r| == |assets|
    ensures forall i :: 0 <= i < |assets| ==>
      r[i] == if assets[i].id in updates then updates[assets[i].id] else assets[i]
  {
    if |assets| == 0 then []
    else
      var a := assets[|assets| - 1];
      ApplyUpdates(assets[..|assets| - 1], updates) + [if a.id in updates then updates[a.id] else a]
  }

  /** The asset list an import leaves: the assets on file, in place, each
      replaced by its merge when a row names it, then the created assets. */
  function ImportedAssets(assets: seq<Asset>, records: seq<ImportRecord>, freshIds: seq<string>): (r: seq<Asset>)
    requires |freshIds| == |records|
    ensures var created := Process(assets, records, freshIds).created;
      && |r| == |assets| + |created|
      && (forall i :: 0 <= i < |assets| ==> r[i].id == assets[i].id)
      && (forall q :: |assets| <= q < |r| ==> r[q] == created[q - |assets|])
  {
    var b := Process(assets, records, freshIds);
    ApplyUpdates(assets, b.updates) + b.created
  }

  datatype ImportResult = ImportResult(store: Store, created: nat, updated: nat)

  /** The fixed pieces of an import's log line. */
  const SummaryHead: string := "Import Excel : "
  const SummaryMiddle: string := " cr\U{E9}\U{E9}s, "
  const SummaryTail: string := " mis \U{E0} jour."

  /** The log line of an import. */
  function ImportSummary(created: nat, updated: nat): (r: string)
    ensures StartsWith(r, SummaryHead)
    ensures |r| == |SummaryHead| + |NatToString(created)| + |SummaryMiddle| + |NatToString(updated)| + |SummaryTail|
    ensures r[|r| - |SummaryTail|..] == SummaryTail
  {
    SummaryHead + (NatToString(created) + (SummaryMiddle + (NatToString(updated) + SummaryTail)))
  }

  /** After its head, the log line is the created count, then a text that
      starts with a space. */
  lemma SummaryShape(created: nat, updated: nat)
    ensures ImportSummary(created, updated)[|SummaryHead|..]
      == NatToString(created) + (SummaryMiddle + (NatToString(updated) + SummaryTail))
    ensures (SummaryMiddle + (NatToString(updated) + SummaryTail))[|SummaryMiddle|..]
      == NatToString(updated) + SummaryTail
    ensures (SummaryMiddle + (NatToString(updated) + SummaryTail))[0] == ' '
  {
  }

  /** The log line tells both counts: different counts never give the same
      line. */
  lemma ImportSummaryInjective(created1: nat, updated1: nat, created2: nat, updated2: nat)
    requires ImportSummary(created1, updated1) == ImportSummary(created2, updated2)
    ensures created1 == created2 && updated1 == updated2
  {
    var u1, u2 := NatToString(updated1), NatToString(updated2);
    SummaryShape(created1, updated1);
    SummaryShape(created2, updated2);
    NumeralThenNonDigit(NatToString(created1), SummaryMiddle + (u1 + SummaryTail),
                        NatToString(created2), SummaryMiddle + (u2 + SummaryTail));
    assert SummaryTail[0] == ' ';
    NumeralThenNonDigit(u1, SummaryTail, u2, SummaryTail);
    NatToStringInjective(created1, created2);
    NatToStringInjective(updated1, updated2);
  }

  /** `handleBulkImport`: the original list in order with matched assets
      replaced in place by their merge, followed by the created assets, and
      one `CONFIG` entry however many rows there were. */
  function BulkImport(s: Store, session: Option<User>, records: seq<ImportRecord>, freshIds: seq<string>,
                      stamp: Stamp): (r: ImportResult)
    requires |freshIds| == |records|
    ensures |r.store.assets| == |s.assets| + r.created
    ensures r.created + r.updated == CodedRows(records)
    ensures r.created == NewRows(s.assets, records) && r.updated == KnownRows(s.assets, records)
    ensures r.store.assets[|s.assets|..] == Process(s.assets, records, freshIds).created
    ensures forall i :: 0 <= i < |s.assets| ==> r.store.assets[i].id == s.assets[i].id
    ensures forall i :: |s.assets| <= i < |r.store.assets| ==> !r.store.assets[i].isArchived
    ensures r.store.logs == AddLog(s.logs, session, stamp, CONFIG, ImportSummary(r.created, r.updated), None, None)
  {
    var b := Process(s.assets, records, freshIds);
    var created := |b.created|;
    ImportResult(Store(ImportedAssets(s.assets, records, freshIds), AddLog(s.logs, session, stamp, CONFIG, ImportSummary(created, b.updatedCount), None, None)),
                 created, b.updatedCount)
  }

  /** No two assets share a code or an id. */
  predicate WellKeyed(assets: seq<Asset>) {
    forall i, j :: 0 <= i < j < |assets| ==> assets[i].code != assets[j].code && assets[i].id != assets[j].id
  }

  /** No two rows with a code share it. */
  predicate DistinctCodes(records: seq<ImportRecord>) {
    forall i, j :: 0 <= i < j < |records| && records[i].code != "" ==> records[i].code != records[j].code
  }

  /** The last row carrying the (non-empty) code. */
  function RowFor(records: seq<ImportRecord>, code: string): (r: Option<ImportRecord>)
    ensures r.Some? ==> r.value in records && r.value.code == code && code != ""
    ensures r.None? <==> code == "" || forall j :: 0 <= j < |records| ==> records[j].code != code
  {
    if |records| == 0 then None
    else if records[|records| - 1].code == code && code != "" then Some(records[|records| - 1])
    else RowFor(records[..|records| - 1], code)
  }

  /** With distinct codes the row for a code is the one row that has it. */
  lemma {:induction false} RowForUnique(records: seq<ImportRecord>, j: nat)
    requires DistinctCodes(records)
    requires j < |records| && records[j].code != ""
    ensures RowFor(records, records[j].code) == Some(records[j])
  {
    var n := |records| - 1;
    if j < n {
      assert records[..n][j] == records[j];
      RowForUnique(records[..n], j);
    }
  }

  /** What an import does to an asset already on file: the merge of the row
      with its code, if any. */
  function Imported(a: Asset, records: seq<ImportRecord>): (r: Asset)
    ensures r.id == a.id && r.code == a.code && r.isArchived == a.isArchived
  {
    var row := RowFor(records, a.code);
    if row.Some? then Merge(a, row.value) else a
  }

  /** The merged asset recorded for each id during the pass is the merge of
      that asset with the last row carrying its code. */
  lemma {:induction false} ProcessUpdates(assets: seq<Asset>, records: seq<ImportRecord>, freshIds: seq<string>)
    requires |freshIds| == |records|
    requires WellKeyed(assets)
    ensures var b := Process(assets, records, freshIds);
      forall i :: 0 <= i < |assets| ==>
        && (assets[i].id in b.updates <==> RowFor(records, assets[i].code).Some?)
        && (assets[i].id in b.updates ==> b.updates[assets[i].id] == Imported(assets[i], records))
    decreases |records|
  {
    if |records| > 0 {
      var n := |records| - 1;
      ProcessUpdates(assets, records[..n], freshIds[..n]);
      var rec := records[n];
      var at := CodeIndex(assets, rec.code);
      if rec.code != "" && at.Some? {
        var k := at.value;
        forall i | 0 <= i < |assets| && i != k ensures assets[i].code != rec.code && assets[i].id != assets[k].id {
        }
      }
    }
  }

  /** Every asset on file keeps its place and becomes its import. */
  lemma BulkImportInPlace(s: Store, session: Option<User>, records: seq<ImportRecord>, freshIds: seq<string>, stamp: Stamp)
    requires |freshIds| == |records|
    requires WellKeyed(s.assets)
    ensures var r := BulkImport(s, session, records, freshIds, stamp);
      forall i :: 0 <= i < |s.assets| ==> r.store.assets[i] == Imported(s.assets[i], records)
  {
    ImportedInPlace(s.assets, records, freshIds);
  }

  lemma ImportedInPlace(assets: seq<Asset>, records: seq<ImportRecord>, freshIds: seq<string>)
    requires |freshIds| == |records|
    requires WellKeyed(assets)
    ensures forall i :: 0 <= i < |assets| ==> ImportedAssets(assets, records, freshIds)[i] == Imported(assets[i], records)
  {
    ProcessUpdates(assets, records, freshIds);
  }

  /** An archived asset whose code is imported again takes the row's values
      and stays archived, since a row never carries the archive flag. */
  lemma ReimportKeepsArchived(s: Store, session: Option<User>, records: seq<ImportRecord>, freshIds: seq<string>,
                              stamp: Stamp, i: nat, j: nat)
    requires |freshIds| == |records|
    requires WellKeyed(s.assets)
    requires DistinctCodes(records)
    requires i < |s.assets| && s.assets[i].isArchived
    requires j < |records| && records[j].code == s.assets[i].code && records[j].code != ""
    ensures var a := BulkImport(s, session, records, freshIds, stamp).store.assets[i];
      a == Merge(s.assets[i], records[j]) && a.isArchived
  {
    BulkImportInPlace(s, session, records, freshIds, stamp);
    RowForUnique(records, j);
  }

  /** A row whose code no asset on file has. */
  predicate IsNew(assets: seq<Asset>, rec: ImportRecord) {
    rec.code != "" && forall i :: 0 <= i < |assets| ==> assets[i].code != rec.code
  }

  /** The created assets are exactly the new rows, each with its fresh id. */
  lemma ProcessCreated(assets: seq<Asset>, records: seq<ImportRecord>, freshIds: seq<string>)
    requires |freshIds| == |records|
    ensures forall k :: 0 <= k < |Process(assets, records, freshIds).created| ==>
      CreatedFrom(assets, records, freshIds, Process(assets, records, freshIds).created[k])
    ensures forall j :: 0 <= j < |records| && IsNew(assets, records[j]) ==>
      FromRecord(records[j], freshIds[j]) in Process(assets, records, freshIds).created
  {
    var b := Process(assets, records, freshIds);
    CreatedAreNew(assets, records, freshIds);
    NewAreCreated(assets, records, freshIds);
    forall k | 0 <= k < |b.created|
      ensures CreatedFrom(assets, records, freshIds, b.created[k])
    {
      assert b.created[k] in b.created;
    }
  }

  /** `a` is what some new row creates with its fresh id. */
  predicate CreatedFrom(assets: seq<Asset>, records: seq<ImportRecord>, freshIds: seq<string>, a: Asset)
    requires |freshIds| == |records|
  {
    exists j :: 0 <= j < |records| && IsNew(assets, records[j]) && a == FromRecord(records[j], freshIds[j])
  }

  lemma CreatedFromPrefix(assets: seq<Asset>, records: seq<ImportRecord>, freshIds: seq<string>, n: nat, a: Asset)
    requires |freshIds| == |records| && n <= |records|
    requires CreatedFrom(assets, records[..n], freshIds[..n], a)
    ensures CreatedFrom(assets, records, freshIds, a)
  {
    var j :| 0 <= j < n && IsNew(assets, records[..n][j]) && a == FromRecord(records[..n][j], freshIds[..n][j]);
    assert records[..n][j] == records[j] && freshIds[..n][j] == freshIds[j];
  }

  /** Every created asset comes from a new row and carries that row's fresh id. */
  lemma {:induction false} CreatedAreNew(assets: seq<Asset>, records: seq<ImportRecord>, freshIds: seq<string>)
    requires |freshIds| == |records|
    ensures forall a :: a in Process(assets, records, freshIds).created ==> CreatedFrom(assets, records, freshIds, a)
    decreases |records|
  {
    if |records| > 0 {
      var n := |records| - 1;
      CreatedAreNew(assets, records[..n], freshIds[..n]);
      var b := Process(assets, records, freshIds);
      var b0 := Process(assets, records[..n], freshIds[..n]);
      forall a | a in b.created ensures CreatedFrom(assets, records, freshIds, a) {
        if a in b0.created {
          CreatedFromPrefix(assets, records, freshIds, n, a);
        } else {
          assert a == FromRecord(records[n], freshIds[n]);
        }
      }
    }
  }

  /** Every new row creates an asset with its fresh id. */
  lemma {:induction false} NewAreCreated(assets: seq<Asset>, records: seq<ImportRecord>, freshIds: seq<string>)
    requires |freshIds| == |records|
    ensures var b := Process(assets, records, freshIds);
      forall j :: 0 <= j < |records| && IsNew(assets, records[j]) ==> FromRecord(records[j], freshIds[j]) in b.created
    decreases |records|
  {
    if |records| > 0 {
      var n := |records| - 1;
      NewAreCreated(assets, records[..n], freshIds[..n]);
      var b := Process(assets, records, freshIds);
      forall j | 0 <= j < |records| && IsNew(assets, records[j]) ensures FromRecord(records[j], freshIds[j]) in b.created {
        if j < n {
          assert records[..n][j] == records[j] && freshIds[..n][j] == freshIds[j];
        }
      }
    }
  }

  /** With distinct row codes and distinct fresh ids, no two created assets
      share a code or an id. */
  lemma {:induction false} CreatedWellKeyed(assets: seq<Asset>, records: seq<ImportRecord>, freshIds: seq<string>)
    requires |freshIds| == |records|
    requires DistinctCodes(records) && Distinct(freshIds)
    ensures WellKeyed(Process(assets, records, freshIds).created)
    decreases |records|
  {
    if |records| > 0 {
      var n := |records| - 1;
      CreatedWellKeyed(assets, records[..n], freshIds[..n]);
      CreatedAreNew(assets, records[..n], freshIds[..n]);
      var b0 := Process(assets, records[..n], freshIds[..n]);
      forall k | 0 <= k < |b0.created|
        ensures b0.created[k].code != records[n].code || !IsNew(assets, records[n])
        ensures b0.created[k].id != freshIds[n]
      {
        assert b0.created[k] in b0.created;
        CreatedBeforeLast(assets, records, freshIds, b0.created[k]);
      }
    }
  }

  /** An asset created by an earlier row differs from the last row's asset
      in code (when the last row is new) and in id. */
  lemma CreatedBeforeLast(assets: seq<Asset>, records: seq<ImportRecord>, freshIds: seq<string>, a: Asset)
    requires |freshIds| == |records| && |records| > 0
    requires DistinctCodes(records) && Distinct(freshIds)
    requires CreatedFrom(assets, records[..|records| - 1], freshIds[..|records| - 1], a)
    ensures a.code != records[|records| - 1].code || !IsNew(assets, records[|records| - 1])
    ensures a.id != freshIds[|records| - 1]
  {
    var n := |records| - 1;
    var j :| 0 <= j < n && IsNew(assets, records[..n][j]) && a == FromRecord(records[..n][j], freshIds[..n][j]);
    assert records[..n][j] == records[j] && freshIds[..n][j] == freshIds[j];
  }

  /** When every row with a code names an asset on file, nothing is created. */
  lemma {:induction false} NothingNew(assets: seq<Asset>, records: seq<ImportRecord>, freshIds: seq<string>)
    requires |freshIds| == |records|
    requires forall j :: 0 <= j < |records| ==> !IsNew(assets, records[j])
    ensures Process(assets, records, freshIds).created == []
    decreases |records|
  {
    if |records| > 0 {
      var n := |records| - 1;
      forall j | 0 <= j < n ensures !IsNew(assets, records[..n][j]) {
        assert records[..n][j] == records[j];
      }
      NothingNew(assets, records[..n], freshIds[..n]);
      assert !IsNew(assets, records[n]);
    }
  }

  /** Two new rows with the same code in one batch both create an asset:
      the code map is never updated during the pass. */
  lemma DuplicateNewRowsBothCreate(s: Store, session: Option<User>, rec1: ImportRecord, rec2: ImportRecord,
                                   id1: string, id2: string, stamp: Stamp)
    requires rec1.code == rec2.code && IsNew(s.assets, rec1)
    ensures var r := BulkImport(s, session, [rec1, rec2], [id1, id2], stamp);
      && r.created == 2 && r.updated == 0
      && r.store.assets == s.assets + [FromRecord(rec1, id1), FromRecord(rec2, id2)]
  {
    assert [rec1, rec2][..1] == [rec1] && [id1, id2][..1] == [id1];
    assert [rec1][..0] == [] && [id1][..0] == [];
    assert Process(s.assets, [], []) == Batch(map[], [], 0);
    assert Process(s.assets, [rec1], [id1]) == Batch(map[], [FromRecord(rec1, id1)], 0);
    assert Process(s.assets, [rec1, rec2], [id1, id2]) == Batch(map[], [FromRecord(rec1, id1), FromRecord(rec2, id2)], 0);
  }

  /** Importing the same batch a second time creates nothing and leaves the
      asset list as the first import made it (given a store without repeated
      codes or ids, a batch without repeated codes and fresh ids that are new). */
  lemma ReimportIsIdempotent(s: Store, session: Option<User>, records: seq<ImportRecord>,
                             ids1: seq<string>, ids2: seq<string>, stamp1: Stamp, stamp2: Stamp)
    requires |ids1| == |records| && |ids2| == |records|
    requires WellKeyed(s.assets) && DistinctCodes(records)
    requires Distinct(ids1) && forall i, j :: 0 <= i < |s.assets| && 0 <= j < |ids1| ==> s.assets[i].id != ids1[j]
    ensures var r1 := BulkImport(s, session, records, ids1, stamp1);
      var r2 := BulkImport(r1.store, session, records, ids2, stamp2);
      r2.created == 0 && r2.store.assets == r1.store.assets
  {
    var a1 := ImportedAssets(s.assets, records, ids1);
    FirstImportWellKeyed(s.assets, records, ids1);
    FirstImportKnowsEveryRow(s.assets, records, ids1);
    SecondImportFixes(s.assets, records, ids1);
    NothingNew(a1, records, ids2);
    ImportedInPlace(a1, records, ids2);
  }

  /** After the first import no two assets share a code or an id. */
  lemma FirstImportWellKeyed(assets: seq<Asset>, records: seq<ImportRecord>, ids1: seq<string>)
    requires |ids1| == |records|
    requires WellKeyed(assets) && DistinctCodes(records)
    requires Distinct(ids1) && forall i, j :: 0 <= i < |assets| && 0 <= j < |ids1| ==> assets[i].id != ids1[j]
    ensures WellKeyed(ImportedAssets(assets, records, ids1))
  {
    ImportedInPlace(assets, records, ids1);
    CreatedAreNew(assets, records, ids1);
    CreatedWellKeyed(assets, records, ids1);
    AppendedWellKeyed(assets, records, ids1, ImportedAssets(assets, records, ids1), Process(assets, records, ids1).created);
  }

  /** The assets on file with their keys, followed by assets created from
      new rows with ids not on file, share no code or id. */
  lemma AppendedWellKeyed(assets: seq<Asset>, records: seq<ImportRecord>, ids: seq<string>, a1: seq<Asset>, created: seq<Asset>)
    requires |ids| == |records|
    requires WellKeyed(assets) && WellKeyed(created)
    requires forall i, j :: 0 <= i < |assets| && 0 <= j < |ids| ==> assets[i].id != ids[j]
    requires forall a :: a in created ==> CreatedFrom(assets, records, ids, a)
    requires |a1| == |assets| + |created|
    requires forall i :: 0 <= i < |assets| ==> a1[i].code == assets[i].code && a1[i].id == assets[i].id
    requires forall k :: 0 <= k < |created| ==> a1[|assets| + k] == created[k]
    ensures WellKeyed(a1)
  {
    var n := |assets|;
    forall p, q | 0 <= p < q < |a1| ensures a1[p].code != a1[q].code && a1[p].id != a1[q].id {
      if q >= n {
        assert a1[q] == created[q - n];
        if p < n {
          assert created[q - n] in created;
          var j :| 0 <= j < |records| && IsNew(assets, records[j]) && created[q - n] == FromRecord(records[j], ids[j]);
        } else {
          assert a1[p] == created[p - n];
        }
      }
    }
  }

  /** After the first import every row's code is on file. */
  lemma FirstImportKnowsEveryRow(assets: seq<Asset>, records: seq<ImportRecord>, ids1: seq<string>)
    requires |ids1| == |records|
    requires WellKeyed(assets)
    ensures forall j :: 0 <= j < |records| ==> !IsNew(ImportedAssets(assets, records, ids1), records[j])
  {
    ImportedInPlace(assets, records, ids1);
    NewAreCreated(assets, records, ids1);
    AppendedKnowsEveryRow(assets, records, ids1, ImportedAssets(assets, records, ids1), Process(assets, records, ids1).created);
  }

  /** The assets on file followed by one created asset per new row carry
      every row's code. */
  lemma AppendedKnowsEveryRow(assets: seq<Asset>, records: seq<ImportRecord>, ids: seq<string>, a1: seq<Asset>, created: seq<Asset>)
    requires |ids| == |records|
    requires forall j :: 0 <= j < |records| && IsNew(assets, records[j]) ==> FromRecord(records[j], ids[j]) in created
    requires |a1| == |assets| + |created|
    requires forall i :: 0 <= i < |assets| ==> a1[i].code == assets[i].code
    requires forall k :: 0 <= k < |created| ==> a1[|assets| + k] == created[k]
    ensures forall j :: 0 <= j < |records| ==> !IsNew(a1, records[j])
  {
    var n := |assets|;
    forall j | 0 <= j < |records| && records[j].code != "" ensures !IsNew(a1, records[j]) {
      if IsNew(assets, records[j]) {
        var k :| 0 <= k < |created| && created[k] == FromRecord(records[j], ids[j]);
        assert a1[n + k].code == records[j].code;
      } else {
        var i :| 0 <= i < n && assets[i].code == records[j].code;
        assert a1[i].code == records[j].code;
      }
    }
  }

  /** Each asset after the first import is its own import under the same batch. */
  lemma SecondImportFixes(assets: seq<Asset>, records: seq<ImportRecord>, ids1: seq<string>)
    requires |ids1| == |records|
    requires WellKeyed(assets) && DistinctCodes(records)
    ensures var a1 := ImportedAssets(assets, records, ids1);
      forall p :: 0 <= p < |a1| ==> Imported(a1[p], records) == a1[p]
  {
    ImportedInPlace(assets, records, ids1);
    CreatedAreNew(assets, records, ids1);
    AppendedFixed(assets, records, ids1, ImportedAssets(assets, records, ids1), Process(assets, records, ids1).created);
  }

  /** Imported assets on file followed by assets created from new rows are
      each their own import under the same rows. */
  lemma AppendedFixed(assets: seq<Asset>, records: seq<ImportRecord>, ids: seq<string>, a1: seq<Asset>, created: seq<Asset>)
    requires |ids| == |records|
    requires DistinctCodes(records)
    requires forall a :: a in created ==> CreatedFrom(assets, records, ids, a)
    requires |a1| == |assets| + |created|
    requires forall i :: 0 <= i < |assets| ==> a1[i] == Imported(assets[i], records)
    requires forall k :: 0 <= k < |created| ==> a1[|assets| + k] == created[k]
    ensures forall p :: 0 <= p < |a1| ==> Imported(a1[p], records) == a1[p]
  {
    var n := |assets|;
    forall p | 0 <= p < |a1| ensures Imported(a1[p], records) == a1[p] {
      if p < n {
        var row := RowFor(records, assets[p].code);
        if row.Some? {
          MergeIdempotent(assets[p], row.value, "");
        }
      } else {
        assert a1[p] == created[p - n] && created[p - n] in created;
        var j :| 0 <= j < |records| && IsNew(assets, records[j]) && created[p - n] == FromRecord(records[j], ids[j]);
        RowForUnique(records, j);
        MergeIdempotent(a1[p], records[j], ids[j]);
      }
    }
  }

  // ---------------------------------------------------------------------
  // Users

  /** `onAddUser`: appended after the others. */
  function AddUser(users: seq<User>, u: User): (r: seq<User>)
    ensures |r| == |users| + 1 && r[..|users|] == users && r[|users|] == u
  {
    users + [u]
  }

  /** `onUpdateUser`: every user with the id is replaced, in place. */
  function UpdateUser(users: seq<User>, u: User): (r: seq<User>)
    ensures |r| == |users|
    ensures forall i :: 0 <= i < |users| ==> r[i].id == users[i].id
    ensures forall i :: 0 <= i < |users| && users[i].id != u.id ==> r[i] == users[i]
    ensures forall i :: 0 <= i < |users| && users[i].id == u.id ==> r[i] == u
  {
    seq(|users|, i requires 0 <= i < |users| => if users[i].id == u.id then u else users[i])
  }

  /** `onDeleteUser`: every user with the id is removed; the others keep
      their order. */
  function DeleteUser(users: seq<User>, id: string): (r: seq<User>)
    ensures forall x: User {:trigger x in r} :: x in r <==> x in users && x.id != id
    ensures forall x: User :: x.id != id ==> Count(r, x) == Count(users, x)
    ensures |r| <= |users|
  {
    if |users| == 0 then []
    else
      var rest := DeleteUser(users[1..], id);
      assert users == [users[0]] + users[1..];
      if users[0].id == id then rest else [users[0]] + rest
  }

  /** The deletion keeps the order of the remaining users: it distributes
      over concatenation, and `DeleteUserCons` says what happens to the
      first user. */
  lemma {:induction false} DeleteUserAppend(a: seq<User>, b: seq<User>, id: string)
    ensures DeleteUser(a + b, id) == DeleteUser(a, id) + DeleteUser(b, id)
  {
    if |a| == 0 {
      assert a + b == b;
    } else {
      assert (a + b)[0] == a[0];
      assert (a + b)[1..] == a[1..] + b;
      DeleteUserAppend(a[1..], b, id);
    }
  }

  /** The first user stays exactly when its id differs. */
  lemma DeleteUserCons(x: User, rest: seq<User>, id: string)
    ensures DeleteUser([x] + rest, id) == (if x.id != id then [x] else []) + DeleteUser(rest, id)
  {
    assert ([x] + rest)[0] == x;
    assert ([x] + rest)[1..] == rest;
  }

  /** A deleted user can no longer sign in. */
  lemma DeletedUserCannotLogin(users: seq<User>, id: string, email: string, password: string)
    ensures var found := FindUser(DeleteUser(users, id), email, password);
      found.Some? ==> found.value.id != id && found.value in users
  {
    var r := DeleteUser(users, id);
    var found := FindUser(r, email, password);
    if found.Some? {
      var i :| 0 <= i < |r| && r[i] == found.value && Matches(found.value, email, password)
        && forall j :: 0 <= j < i ==> !Matches(r[j], email, password);
      assert r[i] in r;
    }
  }

  // ---------------------------------------------------------------------
  // Configuration loading

  /** The built-in core-field entries. */
  const InitialCoreFields: seq<CoreFieldConfig> := [
    CoreFieldConfig("door", "Porte", "Texte", true),
    CoreFieldConfig("holder", "D\U{E9}tenteur", "Texte", true),
    CoreFieldConfig("description", "Description", "Texte Long", true),
    CoreFieldConfig("observation", "Observation", "Texte Long", true),
    CoreFieldConfig("photoUrl", "Photo", "Image", true),
    CoreFieldConfig("registrationDate", "Date d'enregistrement", "Date", true)]

  /** A stored configuration without core-field entries gets the built-in ones. */
  function WithCoreFields(config: AppConfig): (r: AppConfig)
    ensures r.coreFields != []
    ensures config.coreFields != [] ==> r == config
    ensures r == config.(coreFields := r.coreFields)
  {
    if config.coreFields == [] then config.(coreFields := InitialCoreFields) else config
  }
}

=== FILE: text.dfy ===
/** String operations with the semantics of the JavaScript built-ins the
    inventory application relies on: `trim`, `split` on one character,
    `startsWith`, `includes`, `toUpperCase`/`toLowerCase`, `parseInt` on a
    decimal numeral, `String(n)` and `padStart`, and the default
    (code-unit) ordering used by `Array.prototype.sort`. */
module Text {

  /** The characters JavaScript's `String.prototype.trim` removes:
      WhiteSpace (TAB, VT, FF, SP, NBSP, ZWNBSP and the Zs category) and
      LineTerminator (LF, CR, LS, PS). */
  predicate IsSpace(c: char) {
    c == '\t' || c == '\n' || c == '\U{0B}' || c == '\U{0C}' || c == '\r'
    || c == ' ' || c == '\U{A0}' || c == '\U{1680}'
    || ('\U{2000}' <= c <= '\U{200A}')
    || c == '\U{2028}' || c == '\U{2029}' || c == '\U{202F}' || c == '\U{205F}'
    || c == '\U{3000}' || c == '\U{FEFF}'
  }

  /** Drops leading whitespace. */
  function TrimStart(s: string): (r: string)
    ensures |r| <= |s|
    ensures r == s[|s| - |r|..]
    ensures |r| > 0 ==> !IsSpace(r[0])
    ensures forall i :: 0 <= i < |s| - |r| ==> IsSpace(s[i])
  {
    if |s| > 0 && IsSpace(s[0]) then TrimStart(s[1..]) else s
  }

  /** Drops trailing whitespace. */
  function TrimEnd(s: string): (r: string)
    ensures |r| <= |s|
    ensures r == s[..|r|]
    ensures |r| > 0 ==> !IsSpace(r[|r| - 1])
    ensures forall i :: |r| <= i < |s| ==> IsSpace(s[i])
  {
    if |s| > 0 && IsSpace(s[|s| - 1]) then TrimEnd(s[..|s| - 1]) else s
  }

  /** `s.trim()`. */
  function Trim(s: string): string {
    TrimEnd(TrimStart(s))
  }

  /** True when `s.trim()` is the empty string: the source's `!x.trim()`. */
  predicate IsBlank(s: string) {
    Trim(s) == ""
  }

  lemma BlankIffAllSpace(s: string)
    ensures IsBlank(s) <==> forall i :: 0 <= i < |s| ==> IsSpace(s[i])
  {
    var t := TrimStart(s);
    if !IsBlank(s) {
      var e := TrimEnd(t);
      assert s[|s| - |t|] == e[0];
    }
  }

  /** A string that starts and ends with a non-space character is its own trim. */
  lemma TrimOfTrimmed(s: string)
    requires |s| > 0 && !IsSpace(s[0]) && !IsSpace(s[|s| - 1])
    ensures Trim(s) == s
  {
  }

  /** Trimming the end of `a + b` keeps `a` whole when `a` ends in a non-space. */
  lemma {:induction false} TrimEndAppend(a: string, b: string)
    requires |a| > 0 && !IsSpace(a[|a| - 1])
    ensures TrimEnd(a + b) == a + TrimEnd(b)
    decreases |b|
  {
    if |b| > 0 && IsSpace(b[|b| - 1]) {
      assert (a + b)[..|a + b| - 1] == a + b[..|b| - 1];
      TrimEndAppend(a, b[..|b| - 1]);
    } else if |b| == 0 {
      assert a + b == a;
    }
  }

  /** Trimming never introduces a character. */
  lemma TrimKeepsAbsent(s: string, c: char)
    requires c !in s
    ensures c !in Trim(s)
  {
  }

  /** `s.includes(c)` for a one-character needle. */
  predicate HasChar(s: string, c: char) {
    c in s
  }

  /** `s.startsWith(p)`. */
  predicate StartsWith(s: string, p: string) {
    |p| <= |s| && s[..|p|] == p
  }

  /** A string starts with any prefix of it. */
  lemma StartsWithConcat(p: string, rest: string)
    ensures StartsWith(p + rest, p)
  {
    assert (p + rest)[..|p|] == p;
  }

  /** `s.includes(t)`: some position of `s` starts a copy of `t`. */
  predicate Includes(s: string, t: string) {
    exists i :: 0 <= i <= |s| - |t| && StartsWith(s[i..], t)
  }

  /** `s.split(sep)` for a one-character separator: the pieces between
      separators, always at least one (the empty string splits to `[""]`). */
  function Split(s: string, sep: char): (r: seq<string>)
    ensures |r| >= 1
    ensures forall i :: 0 <= i < |r| ==> sep !in r[i]
  {
    if |s| == 0 then [""]
    else
      var rest := Split(s[1..], sep);
      if s[0] == sep then [""] + rest
      else [[s[0]] + rest[0]] + rest[1..]
  }

  /** Splitting never introduces a character. */
  lemma {:induction false} SplitKeepsAbsent(s: string, sep: char, c: char)
    requires c !in s
    ensures forall i :: 0 <= i < |Split(s, sep)| ==> c !in Split(s, sep)[i]
  {
    if |s| > 0 {
      SplitKeepsAbsent(s[1..], sep, c);
    }
  }

  /** `s.split(sep)` for a separator of several characters, matched left
      to right. */
  function SplitOn(s: string, sep: string): (r: seq<string>)
    requires |sep| > 0
    ensures |r| >= 1
    decreases |s|
  {
    if |s| < |sep| then [s]
    else if s[..|sep|] == sep then [""] + SplitOn(s[|sep|..], sep)
    else
      var rest := SplitOn(s[1..], sep);
      [[s[0]] + rest[0]] + rest[1..]
  }

  /** A text without the separator's first character is one piece. */
  lemma {:induction false} SplitOnAbsent(s: string, sep: string)
    requires |sep| > 0 && sep[0] !in s
    ensures SplitOn(s, sep) == [s]
    decreases |s|
  {
    if |s| >= |sep| {
      assert s[..|sep|][0] != sep[0];
      SplitOnAbsent(s[1..], sep);
      assert [s[0]] + s[1..] == s;
    }
  }

  /** Two pieces joined by the separator split back into the two pieces
      when neither holds the separator's first character. */
  lemma {:induction false} SplitOnPair(a: string, b: string, sep: string)
    requires |sep| > 0 && sep[0] !in a && sep[0] !in b
    ensures SplitOn(a + sep + b, sep) == [a, b]
    decreases |a|
  {
    var s := a + sep + b;
    if |a| == 0 {
      assert s[..|sep|] == sep && s[|sep|..] == b;
      SplitOnAbsent(b, sep);
    } else {
      assert s[..|sep|][0] == a[0];
      assert s[1..] == a[1..] + sep + b;
      SplitOnPair(a[1..], b, sep);
      assert [a[0]] + a[1..] == a;
    }
  }

  /** `parts.join(sep)`. */
  function Join(parts: seq<string>, sep: char): string {
    if |parts| == 0 then ""
    else if |parts| == 1 then parts[0]
    else parts[0] + [sep] + Join(parts[1..], sep)
  }

  lemma SplitNoSeparator(s: string, sep: char)
    requires sep !in s
    ensures Split(s, sep) == [s]
  {
    if |s| > 0 {
      SplitNoSeparator(s[1..], sep);
      assert [s[0]] + s[1..] == s;
    }
  }

  /** Splitting at one separator splits the two sides independently. */
  lemma {:induction false} SplitAppend(a: string, b: string, sep: char)
    ensures Split(a + [sep] + b, sep) == Split(a, sep) + Split(b, sep)
    decreases |a|
  {
    var s := a + [sep] + b;
    if |a| == 0 {
      assert s[1..] == b;
    } else {
      assert s[1..] == a[1..] + [sep] + b;
      SplitAppend(a[1..], b, sep);
    }
  }

  /** Split undoes Join when no piece holds the separator. */
  lemma {:induction false} SplitJoin(parts: seq<string>, sep: char)
    requires |parts| >= 1
    requires forall i :: 0 <= i < |parts| ==> sep !in parts[i]
    ensures Split(Join(parts, sep), sep) == parts
    decreases |parts|
  {
    if |parts| == 1 {
      SplitNoSeparator(parts[0], sep);
    } else {
      SplitJoin(parts[1..], sep);
      SplitAppend(parts[0], Join(parts[1..], sep), sep);
      SplitNoSeparator(parts[0], sep);
      assert [parts[0]] + parts[1..] == parts;
    }
  }

  /** The text before the first `sep`, or all of `s` when there is none:
      `s.split(sep)[0]`. */
  lemma BeforeFirst(a: string, b: string, sep: char)
    requires sep !in a
    ensures Split(a + [sep] + b, sep)[0] == a
  {
    SplitAppend(a, b, sep);
    SplitNoSeparator(a, sep);
  }

  /** `s.split(sep)[0]` when `s` holds `sep`: the text before the first
      occurrence. */
  lemma {:induction false} SplitFirstPiece(s: string, sep: char)
    requires sep in s
    ensures exists k :: 0 <= k < |s| && s[k] == sep && sep !in s[..k] && Split(s, sep)[0] == s[..k]
  {
    if s[0] == sep {
      assert s[..0] == "";
    } else {
      assert sep in s[1..] by {
        var j :| 0 <= j < |s| && s[j] == sep;
        assert s[1..][j - 1] == sep;
      }
      SplitFirstPiece(s[1..], sep);
      var k :| 0 <= k < |s[1..]| && s[1..][k] == sep && sep !in s[1..][..k] && Split(s[1..], sep)[0] == s[1..][..k];
      assert s[..k + 1] == [s[0]] + s[1..][..k];
      assert s[k + 1] == sep;
    }
  }

  // ---------------------------------------------------------------------
  // Case mapping

  /** `toUpperCase` on one character. Covered: ASCII and the Latin-1
      letters (à..þ except ÷, and ÿ -> Ÿ); every other character is kept. */
  function UpperChar(c: char): char {
    if 'a' <= c <= 'z' then (c as int - 32) as char
    else if '\U{E0}' <= c <= '\U{FE}' && c != '\U{F7}' then (c as int - 32) as char
    else if c == '\U{FF}' then '\U{178}'
    else c
  }

  /** `toLowerCase` on one character, over the same range as UpperChar. */
  function LowerChar(c: char): char {
    if 'A' <= c <= 'Z' then (c as int + 32) as char
    else if '\U{C0}' <= c <= '\U{DE}' && c != '\U{D7}' then (c as int + 32) as char
    else if c == '\U{178}' then '\U{FF}'
    else c
  }

  function Upper(s: string): (r: string)
    ensures |r| == |s|
    ensures forall i :: 0 <= i < |s| ==> r[i] == UpperChar(s[i])
  {
    if |s| == 0 then "" else [UpperChar(s[0])] + Upper(s[1..])
  }

  function Lower(s: string): (r: string)
    ensures |r| == |s|
    ensures forall i :: 0 <= i < |s| ==> r[i] == LowerChar(s[i])
  {
    if |s| == 0 then "" else [LowerChar(s[0])] + Lower(s[1..])
  }

  lemma UpperIdempotent(s: string)
    ensures Upper(Upper(s)) == Upper(s)
  {
    assert forall i :: 0 <= i < |s| ==> UpperChar(UpperChar(s[i])) == UpperChar(s[i]);
  }

  lemma LowerIdempotent(s: string)
    ensures Lower(Lower(s)) == Lower(s)
  {
    assert forall i :: 0 <= i < |s| ==> LowerChar(LowerChar(s[i])) == LowerChar(s[i]);
  }

  /** Case mapping never creates or removes a separator, and an empty
      string stays empty. */
  lemma UpperKeepsPlainChars(s: string)
    ensures Upper(s) == "" <==> s == ""
    ensures '-' in Upper(s) <==> '-' in s
  {
    var u := Upper(s);
    if '-' in u {
      var i :| 0 <= i < |u| && u[i] == '-';
      assert s[i] == '-';
    }
    if '-' in s {
      var i :| 0 <= i < |s| && s[i] == '-';
      assert u[i] == '-';
    }
  }

  // ---------------------------------------------------------------------
  // Decimal numerals

  predicate IsDigit(c: char) {
    '0' <= c <= '9'
  }

  /** A non-empty run of decimal digits: what `parseInt(s, 10)` reads in full. */
  predicate IsNumeral(s: string) {
    |s| > 0 && forall i :: 0 <= i < |s| ==> IsDigit(s[i])
  }

  function DigitValue(c: char): nat
    requires IsDigit(c)
  {
    c as int - '0' as int
  }

  function DigitChar(d: nat): (c: char)
    requires d < 10
    ensures IsDigit(c) && DigitValue(c) == d
  {
    ('0' as int + d) as char
  }

  /** `parseInt(s, 10)` on a string of digits. */
  function ParseNat(s: string): nat
    requires forall i :: 0 <= i < |s| ==> IsDigit(s[i])
  {
    if |s| == 0 then 0
    else ParseNat(s[..|s| - 1]) * 10 + DigitValue(s[|s| - 1])
  }

  /** `String(n)` for a natural number: its decimal digits, no leading zero. */
  function NatToString(n: nat): (s: string)
    ensures IsNumeral(s)
    ensures |s| > 1 ==> s[0] != '0'
  {
    if n < 10 then [DigitChar(n)] else NatToString(n / 10) + [DigitChar(n % 10)]
  }

  lemma {:induction false} ParseNatToString(n: nat)
    ensures ParseNat(NatToString(n)) == n
  {
    if n >= 10 {
      var s := NatToString(n);
      assert s[..|s| - 1] == NatToString(n / 10);
      ParseNatToString(n / 10);
    }
  }

  /** A numeral without a leading zero is `String` of the value it reads:
      the other half of the round trip `ParseNatToString`. */
  lemma {:induction false} NatToStringParseNat(s: string)
    requires IsNumeral(s)
    ensures |s| == 1 || s[0] != '0' ==> NatToString(ParseNat(s)) == s
    decreases |s|
  {
    if |s| > 1 && s[0] != '0' {
      var init := s[..|s| - 1];
      NatToStringParseNat(init);
      NoLeadingZeroPositive(init);
      assert init[0] == s[0];
      var n := ParseNat(s);
      assert n / 10 == ParseNat(init) && n % 10 == DigitValue(s[|s| - 1]);
      assert DigitChar(n % 10) == s[|s| - 1];
      assert s == init + [s[|s| - 1]];
    } else if |s| == 1 {
      assert DigitChar(DigitValue(s[0])) == s[0];
    }
  }

  /** A numeral that does not start with `0` reads as a positive number. */
  lemma {:induction false} NoLeadingZeroPositive(s: string)
    requires IsNumeral(s) && s[0] != '0'
    ensures ParseNat(s) > 0
    decreases |s|
  {
    if |s| > 1 {
      NoLeadingZeroPositive(s[..|s| - 1]);
    }
  }

  /** `String(n)` differs for different numbers. */
  lemma NatToStringInjective(m: nat, n: nat)
    requires NatToString(m) == NatToString(n)
    ensures m == n
  {
    ParseNatToString(m);
    ParseNatToString(n);
  }

  /** The character at `i` of a concatenation. */
  lemma CharAtConcat(a: string, x: string, i: nat)
    requires i < |a| + |x|
    ensures (a + x)[i] == if i < |a| then a[i] else x[i - |a|]
  {
  }

  /** A numeral followed by a text that starts with a non-digit can be read
      back in one way only. */
  lemma NumeralThenNonDigit(a: string, x: string, b: string, y: string)
    requires IsNumeral(a) && IsNumeral(b)
    requires |x| > 0 && !IsDigit(x[0]) && |y| > 0 && !IsDigit(y[0])
    requires a + x == b + y
    ensures a == b && x == y
  {
    if |a| < |b| {
      CharAtConcat(a, x, |a|);
      assert false;
    } else if |b| < |a| {
      CharAtConcat(b, y, |b|);
      assert false;
    }
    assert (a + x)[..|a|] == a && (b + y)[..|b|] == b;
    assert (a + x)[|a|..] == x && (b + y)[|b|..] == y;
  }

  /** Leading zeros do not change the value `parseInt` reads. */
  lemma {:induction false} ParseNatLeadingZeros(z: string, s: string)
    requires forall i :: 0 <= i < |z| ==> z[i] == '0'
    requires forall i :: 0 <= i < |s| ==> IsDigit(s[i])
    ensures ParseNat(z + s) == ParseNat(s)
    decreases |s|
  {
    if |s| == 0 {
      ZerosParseToZero(z);
      assert z + s == z;
    } else {
      assert (z + s)[..|z + s| - 1] == z + s[..|s| - 1];
      ParseNatLeadingZeros(z, s[..|s| - 1]);
    }
  }

  lemma {:induction false} ZerosParseToZero(z: string)
    requires forall i :: 0 <= i < |z| ==> z[i] == '0'
    ensures ParseNat(z) == 0
    decreases |z|
  {
    if |z| > 0 {
      ZerosParseToZero(z[..|z| - 1]);
    }
  }

  function Repeat(c: char, n: nat): (r: string)
    ensures |r| == n
    ensures forall i :: 0 <= i < n ==> r[i] == c
  {
    if n == 0 then "" else [c] + Repeat(c, n - 1)
  }

  /** `String(n).padStart(4, '0')`: at least four digits, zero-filled on the left. */
  function Pad4(n: nat): (s: string)
    ensures IsNumeral(s)
    ensures |s| == if |NatToString(n)| >= 4 then |NatToString(n)| else 4
    ensures s[|s| - |NatToString(n)|..] == NatToString(n)
    ensures forall i :: 0 <= i < |s| - |NatToString(n)| ==> s[i] == '0'
  {
    var d := NatToString(n);
    if |d| >= 4 then d else Repeat('0', 4 - |d|) + d
  }

  /** The padded sequence number reads back as the number. */
  lemma Pad4Parses(n: nat)
    ensures ParseNat(Pad4(n)) == n
  {
    var d := NatToString(n);
    ParseNatToString(n);
    if |d| < 4 {
      ParseNatLeadingZeros(Repeat('0', 4 - |d|), d);
    }
  }

  // ---------------------------------------------------------------------
  // Default sort order of JavaScript strings

  /** `a < b` in the order `Array.prototype.sort()` uses without a comparator. */
  predicate Less(a: string, b: string) {
    if |a| == 0 then |b| > 0
    else if |b| == 0 then false
    else if a[0] != b[0] then a[0] < b[0]
    else Less(a[1..], b[1..])
  }

  predicate LessEq(a: string, b: string) {
    a == b || Less(a, b)
  }

  lemma {:induction false} LessIrreflexive(a: string)
    ensures !Less(a, a)
  {
    if |a| > 0 {
      LessIrreflexive(a[1..]);
    }
  }

  lemma {:induction false} LessTotal(a: string, b: string)
    ensures Less(a, b) || a == b || Less(b, a)
  {
    if |a| > 0 && |b| > 0 && a[0] == b[0] {
      LessTotal(a[1..], b[1..]);
      if a[1..] == b[1..] {
        assert a == [a[0]] + a[1..] && b == [b[0]] + b[1..];
      }
    }
  }

  lemma {:induction false} LessAsymmetric(a: string, b: string)
    ensures Less(a, b) ==> !Less(b, a)
  {
    if |a| > 0 && |b| > 0 && a[0] == b[0] {
      LessAsymmetric(a[1..], b[1..]);
    }
  }

  lemma {:induction false} LessTransitive(a: string, b: string, c: string)
    requires Less(a, b) && Less(b, c)
    ensures Less(a, c)
  {
    if |a| > 0 && a[0] == b[0] && b[0] == c[0] {
      LessTransitive(a[1..], b[1..], c[1..]);
    }
  }

  lemma LessEqTransitive(a: string, b: string, c: string)
    requires LessEq(a, b) && LessEq(b, c)
    ensures LessEq(a, c)
  {
    if a != b && b != c {
      LessTransitive(a, b, c);
    }
  }

  /** Sorted in the default order. */
  predicate SortedStrings(s: seq<string>) {
    forall i, j :: 0 <= i < j < |s| ==> LessEq(s[i], s[j])
  }

  /** Inserts `x` before the first element not below it. */
  function InsertString(x: string, s: seq<string>): (r: seq<string>)
    ensures multiset(r) == multiset(s) + multiset{x}
  {
    if |s| == 0 then [x]
    else if LessEq(x, s[0]) then [x] + s
    else
      assert s == [s[0]] + s[1..];
      [s[0]] + InsertString(x, s[1..])
  }

  /** Putting an element that is below everything in front keeps a list sorted. */
  lemma ConsSorted(h: string, t: seq<string>)
    requires SortedStrings(t)
    requires forall y :: y in t ==> LessEq(h, y)
    ensures SortedStrings([h] + t)
  {
    var r := [h] + t;
    forall i, j | 0 <= i < j < |r| ensures LessEq(r[i], r[j]) {
      assert r[j] == t[j - 1];
      if i > 0 {
        assert r[i] == t[i - 1];
      } else {
        assert r[j] in t;
      }
    }
  }

  lemma {:induction false} InsertStringSorted(x: string, s: seq<string>)
    requires SortedStrings(s)
    ensures SortedStrings(InsertString(x, s))
  {
    if |s| == 0 {
    } else if LessEq(x, s[0]) {
      forall y | y in s ensures LessEq(x, y) {
        var k :| 0 <= k < |s| && s[k] == y;
        LessEqTransitive(x, s[0], s[k]);
      }
      ConsSorted(x, s);
    } else {
      var t := InsertString(x, s[1..]);
      InsertStringSorted(x, s[1..]);
      LessTotal(x, s[0]);
      forall y | y in t ensures LessEq(s[0], y) {
        assert y in multiset(t);
        if y != x {
          assert y in multiset(s[1..]);
          var k :| 0 <= k < |s[1..]| && s[1..][k] == y;
          assert s[k + 1] == y;
        }
      }
      ConsSorted(s[0], t);
    }
  }

  /** `[...s].sort()`: a sorted permutation of `s`. */
  function SortStrings(s: seq<string>): (r: seq<string>)
    ensures SortedStrings(r)
    ensures multiset(r) == multiset(s)
  {
    if |s| == 0 then []
    else
      assert s == s[..|s| - 1] + [s[|s| - 1]];
      var t := SortStrings(s[..|s| - 1]);
      InsertStringSorted(s[|s| - 1], t);
      InsertString(s[|s| - 1], t)
  }

  // ---------------------------------------------------------------------
  // Sequence helpers

  /** Number of occurrences of `x` in `s`. */
  function Count<T(==)>(s: seq<T>, x: T): nat {
    multiset(s)[x]
  }

  /** `arr.filter(v => v !== x)`. */
  function Without(s: seq<string>, x: string): (r: seq<string>)
    ensures x !in r
    ensures forall y :: y != x ==> Count(r, y) == Count(s, y)
    ensures |r| == |s| - Count(s, x)
  {
    if |s| == 0 then []
    else
      assert s == [s[0]] + s[1..];
      if s[0] == x then Without(s[1..], x) else [s[0]] + Without(s[1..], x)
  }

  /** The filter works element by element and keeps the order: it
      distributes over concatenation, and on one element it keeps that
      element exactly when it differs from `x`. */
  lemma {:induction false} WithoutAppend(a: seq<string>, b: seq<string>, x: string)
    ensures Without(a + b, x) == Without(a, x) + Without(b, x)
    ensures |a| == 1 ==> Without(a, x) == (if a[0] == x then [] else a)
  {
    if |a| == 0 {
      assert a + b == b;
    } else {
      assert (a + b)[0] == a[0];
      assert (a + b)[1..] == a[1..] + b;
      WithoutAppend(a[1..], b, x);
    }
  }

  /** `arr.map(v => v === from ? to : v)`. */
  function ReplaceAll<T(==)>(s: seq<T>, from: T, to: T): (r: seq<T>)
    ensures |r| == |s|
    ensures forall i :: 0 <= i < |s| ==> r[i] == (if s[i] == from then to else s[i])
  {
    if |s| == 0 then [] else [if s[0] == from then to else s[0]] + ReplaceAll(s[1..], from, to)
  }

  /** No element occurs twice. */
  predicate Distinct<T(==)>(s: seq<T>) {
    forall i, j :: 0 <= i < j < |s| ==> s[i] != s[j]
  }
}

=== FILE: types.dfy ===
/** The records the inventory application keeps: assets, users, audit-log
    entries and the configuration that drives the forms. Optional
    properties of the original records become `Option`; the open
    `customAttributes` record holds text values keyed by custom-field id. */
module Types {

  datatype Option<+T> = None | Some(value: T)

  /** One tracked item. `code` reads `YEAR-LOCATION-CATEGORY-SEQ` for
      assets created through the form. */
  datatype Asset = Asset(
    id: string,
    code: string,
    registrationDate: string,
    acquisitionYear: string,
    location: string,
    category: string,
    name: string,
    description: string,
    door: string,
    state: string,
    holder: string,
    holderPresence: string,
    observation: string,
    photoUrl: Option<string>,
    isArchived: bool,
    customAttributes: map<string, string>)

  /** The seven independent capabilities of a user. */
  datatype Permission = Permission(
    canViewDashboard: bool,
    canReadList: bool,
    canCreate: bool,
    canUpdate: bool,
    canDelete: bool,
    canExport: bool,
    isAdmin: bool)

  datatype Theme = Enterprise | Dark | Material | Green | Modern

  datatype User = User(
    id: string,
    firstName: string,
    lastName: string,
    email: string,
    password: string,
    permissions: Permission,
    theme: Option<Theme>)

  datatype Action = CREATE | READ | UPDATE | DELETE | EXPORT | LOGIN | CONFIG

  /** A value recorded in an update diff: a text field, the archive flag,
      the custom-attribute record, or a property the record does not have. */
  datatype FieldValue = Text(s: string) | Flag(b: bool) | Attributes(m: map<string, string>) | Absent

  /** One `{field, before, after}` entry of an update diff. */
  datatype Change = Change(field: string, before: FieldValue, after: FieldValue)

  datatype Log = Log(
    id: string,
    timestamp: int,
    userId: string,
    userEmail: string,
    action: Action,
    description: string,
    targetCode: Option<string>,
    changes: Option<seq<Change>>)

  /** What the environment supplies for one log entry: `Date.now()`
      (with a random suffix) as id and the clock reading as timestamp. */
  datatype Stamp = Stamp(id: string, time: int)

  datatype FieldType = TextField | NumberField | DateField | SelectField | BooleanField

  /** An admin-defined attribute; `caption` is the source's `label` (a Dafny keyword). */
  datatype CustomField = CustomField(
    id: string,
    caption: string,
    fieldType: FieldType,
    options: Option<seq<string>>,
    isArchived: bool)

  /** Label (`caption`) and visibility of one built-in asset field. */
  datatype CoreFieldConfig = CoreFieldConfig(key: string, caption: string, fieldType: string, isVisible: bool)

  datatype AppConfig = AppConfig(
    companyName: string,
    companyLogo: string,
    locations: seq<string>,
    states: seq<string>,
    holderPresences: seq<string>,
    categories: map<string, seq<string>>,
    categoriesDescriptions: map<string, string>,
    customFields: seq<CustomField>,
    coreFields: seq<CoreFieldConfig>)

  /** `find` and `findIndex`: the position of the first element that
      passes `p`, or none when no element does. */
  function FirstIndex<T>(s: seq<T>, p: T -> bool): (r: Option<nat>)
    ensures r.None? <==> forall i :: 0 <= i < |s| ==> !p(s[i])
    ensures r.Some? ==> r.value < |s| && p(s[r.value]) && forall j :: 0 <= j < r.value ==> !p(s[j])
  {
    if |s| == 0 then None
    else if p(s[0]) then Some(0)
    else
      var r := FirstIndex(s[1..], p);
      if r.Some? then Some(r.value + 1) else None
  }

  /** `list[0]`, or the fallback when the list is empty. */
  function FirstOr(s: seq<string>, fallback: string): (r: string)
    ensures |s| > 0 ==> r == s[0]
    ensures |s| == 0 ==> r == fallback
  {
    if |s| > 0 then s[0] else fallback
  }

  /** The state every archived asset is forced into. */
  const RETIRED: string := "Retir\U{E9}"
}
